=== FILE: README.md ===
# HBNB console and file storage, modelled in Dafny

This project models the core of the HBNB ("AirBnB clone") command
interpreter: the `HBNBCommand` console (`console.py`), the JSON file
storage engine (`models/engine/file_storage.py`), the common entity base
`BaseModel` (`models/base_model.py`), and the `State.cities` view
(`models/state.py`).

Each console command is a pure function. It takes the storage state and
returns a `Reply`:

- the new state plus what the command prints (`Done`);
- an uncaught Python exception that ends the interpreter (`Crash`);
- `Plumbing`, for lines the `cmd.Cmd` loop handles itself.

The storage state is a `World`. It holds the in-memory object map
`"<Class>.<id>" -> Obj` and the backing file: absent, empty, unreadable
JSON, or the dictionary `json.load` reads back from it. An attribute value
that is neither text nor an integer records what JSON makes of it: itself,
another value (a tuple comes back as a list), or a `TypeError`. Outside inputs come in as parameters, bundled
in an `Env`:

- the `uuid4` value;
- the two clock readings of `create`;
- the ISO timestamp format and parse functions (`TimeCodec`);
- Python's `eval`;
- `float()`.

Modules, in dependency order:

| module | file | what it holds |
|---|---|---|
| `Common` | common.dfy | `Option`, `Result` |
| `PyStr` | pystr.dfy | the Python string operations the console uses: `partition`, `strip`, `split()`, `replace`, `join` |
| `Values` | values.dfy | attribute values, truthiness, `str()`, `int()` of text |
| `BaseModel` | base_model.dfy | `Obj`, fresh and keyword construction, `to_dict`, `__str__`, assignment through `__dict__` |
| `FileStorage` | file_storage.dfy | `all`, `new`, `save`, `delete`, `reload`, `close`, and `BaseModel.save` and `BaseModel.delete` |
| `State` | state.dfy | `State.name` and `State.cities` |
| `Console` | console.dfy | `precmd`, `validate`, the six handlers, and the `classes`, `types` and `error_messages` tables |
| `ConsoleLaws` | console_laws.dfy | properties of `precmd`, `validate`, `all`/`count` and `update` |
| `CreateLaws` | create_laws.dfy | properties of `create`, and of `create`/`destroy` followed by `show` |

Four behaviours of the code differ from what a reader of its docstrings
and messages would expect. The model follows the code:

- **Malformed backing file.** `reload` only catches `IOError`, so a
  `json.loads` error ends the program. `Reload` returns `Failure(Malformed)`.
- **Partial updates.** `do_update` assigns attributes to the stored object
  in place. An error met after some pairs leaves the earlier assignments
  in memory, though not on disk (`UpdateTrailingName`). When the pair
  assigned before the error was `created_at` or `updated_at`, the object
  keeps a text in place of a `datetime`. Every later `save` of another object
  then raises inside `to_dict` after opening the file for writing, which
  leaves the file empty (`HaltedStampBreaksLaterSaves`).
- **Values JSON cannot encode.** The dictionary form of `update` stores
  whatever `eval` returns, such as a set. `save` builds every `to_dict`
  dictionary and then streams the JSON text into the file it has opened,
  so `json.dump`'s `TypeError` leaves a truncated file behind, which the
  next `reload` cannot read (`UnencodableUpdateCrashes`,
  `UnencodableBreaksSave`).
- **`all <Class>`.** `do_all` passes the class *name*, a string, to
  `storage.all`. That method compares it with class objects, so
  `all <Class>` lists nothing (`DoAll`).

## Model

| member | source | states |
|---|---|---|
| Console.Precmd | console.py:94-155 | A line without all of `.`, `(` and `)` passes unchanged. An unlisted verb prints `** invalid method: <verb> **` and empties the line. When `eval` of a brace-delimited argument raises, the original line passes unchanged. Otherwise the line is exactly `verb Class id args`, with id and args as `CallArgs` extracts them. Only the unlisted-verb case prints a message. |
| Console.CallArgs | console.py:135-152 | Empty parentheses give an empty id and no arguments. The result is missing exactly when the attribute text is brace-delimited and `eval` raises on it. The id is `CallId` of the arguments. A brace-delimited text that evaluates to a dict is kept verbatim; any other attribute text loses its commas. |
| Console.CallId | console.py:139-141 | The id is no longer than the argument text, neither starts nor ends with a quote, and comes from before the first `", "`. |
| Console.AttrArgs | console.py:142-151 | The attribute text is rejected exactly when it is brace-delimited and `eval` raises. A dict literal is passed on verbatim. Anything else loses its commas. |
| ConsoleLaws.PrecmdOfParts | console.py:123-152 | A call-shaped line with an allowed verb whose arguments `CallArgs` accepts becomes `verb Class id args`. |
| ConsoleLaws.PrecmdRewritesCall | console.py:123-152 | `Class.verb(inner)trailer`, with a plain class and an allowed verb, becomes `verb Class id args`, whatever follows the `)`. |
| ConsoleLaws.CallArgsIdOnly | console.py:139-143 | A quoted id alone gives that id unquoted, and no further arguments. |
| ConsoleLaws.CallArgsIdDict | console.py:139-149 | A quoted id, then `", "` and a brace-delimited literal that evaluates to a dict, gives the id and the literal verbatim. |
| ConsoleLaws.PrecmdIdCall | console.py:123-152 | `Class.verb("id")` becomes `verb Class id `. |
| ConsoleLaws.IdCallCommand | console.py:94-155 | `Class.verb("id")` and `verb Class id` reach the interpreter as the same command with the same argument, and neither prints a message. |
| ConsoleLaws.MethodCallMeansCommand | console.py:94-155 | `Class.verb("id")` and `verb Class id` have the same effect on every storage state. |
| Console.Execute | console.py:131-133 | A method call with an unlisted verb prints its message and changes nothing. Every command that completes keeps the store sound. |
| Console.Run | console.py:180-182 | An empty line changes nothing. Every command that completes keeps the store sound. |
| Console.Validate | console.py:446-485 | Missing class name, unknown class (`all` is accepted) and missing id are reported in that order, each exactly when its condition holds. On success the class is the first word. In create mode nothing more is split off, and success holds exactly when the class is registered or `all`. |
| ConsoleLaws.ValidateFields | console.py:467-485 | `Class id rest` validates to exactly that class, id and rest, with or without the id requirement. |
| ConsoleLaws.ValidateIdOnly | console.py:467-485 | `Class id` validates to that class and id, with empty rest. |
| ConsoleLaws.ValidateCreate | console.py:467-477 | In create mode, `Class rest` keeps the whole rest as parameter text. |
| Console.DecodeParam | console.py:213-230 | A token is skipped exactly when it has no `=`. A decoded name is the text before the first `=`. A decoded value is non-empty and holds no `"` and no `_`. |
| Console.DecodeEncodeParam | console.py:213-227 | Decoding `name="value"`, with spaces written as `_`, gives back the name and the value. |
| Console.DoCreate | console.py:184-236 | A validation failure prints its message and changes nothing. `create all` raises `KeyError` with the file untouched. Every printed error leaves the world unchanged. On success the output is the new object's id: the `uuid4` drawn for it, or the text of the last `id=` parameter. The object is filed under `Class.<id>`: construction time as `created_at`, save time as `updated_at`, and as attributes the parameters converted by the `types` table, later ones winning. No other key is touched and the file is rewritten from the store. A save that raises on a timestamp leaves the file empty; one that raises in `json.dump` leaves it truncated. |
| Console.SaveCreated | console.py:210-236 | Once the instance is built, applying the parameters and saving either prints an error and changes nothing, or files the object with its attributes plus the converted parameters and the save time as `updated_at`. The printed and filed id is the object's own, or the value of the last `id` parameter. A conversion that raises leaves the file as it was; a save that raises leaves it empty (timestamp) or truncated (`json.dump`). |
| CreateLaws.CreateStoresParams | console.py:184-236 | `create Class n1="v1" ...` saves a fresh object whose attributes are exactly the decoded parameters (later names win) and prints the new id. |
| CreateLaws.CreateStoresInt | console.py:231-233 | `create Class f=<integer text>`, for an integer field of the `types` table, stores the integer, not the text. |
| CreateLaws.CreateEmptyValue | console.py:228-230 | A parameter with an empty value prints `** value missing **` and stores nothing, whatever follows it. |
| CreateLaws.CreateThenShow | console.py:184-273 | A create succeeds exactly when every other stored object has `datetime` stamps and values JSON can encode. Then `show Class <id>` prints the object just created, stamped with the save time. |
| CreateLaws.DestroyThenShow | console.py:243-304 | After a completed `destroy Class id`, `show Class id` prints `** no instance found **`. |
| Console.DoShow | console.py:243-273 | Prints the object stored under `Class.id`, or the validation or no-instance error. The world never changes. |
| Console.DoDestroy | console.py:280-304 | Removes exactly the key `Class.id` and rewrites the file. A missing key or failed validation prints the error and changes nothing. When a remaining object has a stamp that is not a `datetime`, the rewrite raises and leaves the file empty; when the stamps are fine but a value is one JSON rejects, it raises and leaves the file truncated. |
| Console.DoAll | console.py:311-338 | Never changes the world. No class name lists every object. An unknown name prints `** class doesn't exist **`. A registered name lists no objects. |
| Console.DoCount | console.py:345-364 | Never changes the world. `count all` counts every object. `count Class` counts the objects whose class name is `Class`. A validation failure prints its message. |
| ConsoleLaws.CountAllMatchesListing | console.py:324-364 | `count all` reports the number of objects `all` lists. |
| ConsoleLaws.CountClassMatchesStorage | console.py:345-364 | `count Class` equals the number of keys `storage.all(Class)` returns. |
| Console.PositionalLoop | console.py:408-419 | The positional loop only appends, and by whole pairs. |
| Console.LoopAddsWords | console.py:408-419 | Every word the loop appends is one of the trimmed words, `""`, or the value carried in. |
| ConsoleLaws.PositionalWords | console.py:408-419 | Distinct plain words are read back as themselves, a missing last value padded with `""`. |
| Console.PairSteps | console.py:423-431 | One step per pair. A pair stops the loop with `** attribute name missing **` exactly when its name is empty. It stops with `** value missing **` exactly when it has a name and a falsy value. Every other pair is assigned as given. |
| Console.UpdateSteps | console.py:402-431 | The text is rejected exactly when it holds both braces and `eval` raises. A dict gives one step per item. The positional form gives at least one step. Every assignment has a name and a truthy value, and every stop carries one of the two missing-part messages. |
| Console.DoUpdate | console.py:370-438 | A validation failure or missing key prints the error and changes nothing. A printed error leaves the file, the key set and every other object as they were. Success keeps class and `created_at`, leaves the id as it was unless a pair names `id` (then it is the last such value's text), stamps `updated_at` with the save time, adds the converted pairs to the attributes, files the object under its own key as well, and rewrites the file. A save that raises empties the file (timestamp) or truncates it (`json.dump`); any other exception leaves it. Every completed path keeps the store sound. |
| Console.UpdateStored | console.py:421-438 | The assignment loop on the stored object. An error keeps the file, the keys and the other objects, and leaves in memory the object with exactly the pairs before the error applied (id and attributes). Success saves the object with the converted pairs added and the id the last `id` pair gives, or its own. |
| Console.SaveUpdated | console.py:436-438 | The stamped object is under its old key and under its own key. No other entry changes. The save succeeds exactly when every stored object has `datetime` stamps and values JSON can encode; it then rewrites the file from the store. Otherwise a bad stamp empties the file and a value JSON rejects truncates it. |
| Console.Coerce | console.py:62-69 | Names outside the `types` table keep their value. The `int` fields yield integers, and succeed on text exactly when Python's `int` accepts it. The `float` fields succeed exactly when `float()` does, and yield that float, which JSON keeps as it is. |
| Console.ApplySteps | console.py:423-436 | Assignments never change class. The id, `created_at` and `updated_at` each hold the last value assigned to them before the first error, or keep theirs. An error message stops the loop, at exactly the first error step, and the attributes gain the converted assignments before it. A completed loop means every step was an assignment, and adds exactly the converted ordinary assignments to the attributes. The only exception is a failed `int` or `float` conversion. |
| Console.ApplyPlainSets | console.py:423-436 | Assignments of ordinary names all apply: the object gains exactly those attributes, later ones winning. |
| ConsoleLaws.UpdateAssignsPairs | console.py:370-438 | `update Class id n1 v1 n2 v2 ...` assigns every pair to the stored object, stamps `updated_at` and rewrites the file. |
| ConsoleLaws.PositionalTrimmed | console.py:408-419 | Each word is read with its surrounding quotes and commas trimmed. When the trimmed words are distinct, the name/value list is exactly those words, a missing last value padded with `""`. |
| ConsoleLaws.UpdateAssignsQuoted | console.py:408-438 | `update Class id "n1" "v1", ...` assigns each trimmed name its trimmed value, stamps `updated_at` and rewrites the file. |
| ConsoleLaws.UpdateWithoutName | console.py:408-428 | `update Class id` with nothing after the id prints `** attribute name missing **` and changes nothing. |
| ConsoleLaws.UpdateTrailingName | console.py:408-431 | A name without a value prints `** value missing **`. The pairs before it stay assigned in memory and the file is untouched. |
| ConsoleLaws.HaltedStampBreaksLaterSaves | console.py:423-438 | `update Class id created_at v n`, or the same with `updated_at`, prints `** value missing **` and leaves the file alone, but the stored object now holds `v` as its stamp. Any later save of another object then raises in `to_dict` and empties the file. |
| ConsoleLaws.UnencodableUpdateCrashes | console.py:402-438 | `update Class id {"n": v}` with a truthy value `json.dump` rejects, on a store whose stamps are all `datetime`s, raises in `save` and leaves the file truncated. |
| ConsoleLaws.DictMatchesPositional | console.py:402-419 | The dictionary form with the same pairs has the same effect as the positional form. |
| FileStorage.All | models/engine/file_storage.py:36-43 | No filter returns the whole store. A class filter returns exactly the objects of that class. A string filter returns nothing. |
| FileStorage.New | models/engine/file_storage.py:45-53 | Files the object under `Class.id`, replacing what was there. Every other key is kept. |
| FileStorage.Commit | models/engine/file_storage.py:55-61 | The live objects are unchanged. The save succeeds exactly when every object has `datetime` stamps and every `to_dict` value is one JSON can encode. The file then holds, for every key, the `to_dict` of its object as `json.load` reads it back, which is that `to_dict` itself for an object whose values JSON keeps. A bad stamp raises with the file empty; otherwise an unencodable value raises with the file truncated. |
| FileStorage.StaleStampBreaksSave | models/engine/file_storage.py:59-61 | When another stored object has a stamp that is not a `datetime`, saving any object raises the timestamp error and leaves the file empty. |
| FileStorage.UnencodableBreaksSave | models/engine/file_storage.py:55-61 | When the stamps are fine but another stored object holds a value `json.dump` rejects, saving any object raises with the file truncated, and the next `reload` raises on it. |
| FileStorage.PutStable | models/engine/file_storage.py:55-61 | Filing a dated object whose values JSON keeps leaves the outcome of `save` to the other stored objects. |
| FileStorage.StableDict | models/engine/file_storage.py:60-61 | The `to_dict` of a dated object whose values JSON keeps is encodable and comes back from JSON unchanged. |
| FileStorage.Delete | models/engine/file_storage.py:63-71 | `None` or an absent key changes nothing. Otherwise exactly that key is removed and the file is rewritten, or left empty or truncated as `Commit` states when the save raises. |
| FileStorage.NewThenDelete | models/engine/file_storage.py:45-71 | `new` followed by `delete` of an object under a fresh key restores the store. |
| FileStorage.ClassOfOwnKey | models/engine/file_storage.py:84-88 | The class part of an object's key is its class. |
| FileStorage.Rebuild | models/engine/file_storage.py:85-88 | One object per file entry. Each is of the class its key names, and is what the keyword constructor builds from the entry's dictionary. |
| FileStorage.Reload | models/engine/file_storage.py:73-90 | A missing or empty file keeps the live objects. Unreadable JSON raises. A file is read back exactly when every entry has a registered class prefix and a dictionary the keyword constructor accepts. The store is then replaced by one object per file entry, built from the entry's dictionary by the class its key names. Otherwise `reload` raises: `KeyError` when only unregistered prefixes are at fault, the constructor's error when only rejected dictionaries are. |
| FileStorage.SaveReloadRoundTrip | models/engine/file_storage.py:55-90 | For a store of registered, serialisable objects whose values JSON gives back unchanged, reloading right after a save gives back every object exactly. |
| FileStorage.SaveReloadDecodes | models/engine/file_storage.py:55-90 | For a store of registered, serialisable objects whose values JSON can encode, reloading right after a save gives back every key with the same class, id and timestamps, and each attribute as `json.load` reads it back. |
| FileStorage.ObjectDecodes | models/base_model.py:32-75 | The keyword constructor, given an object's `to_dict` as JSON reads it back, rebuilds the object with each attribute as JSON reads it back. |
| FileStorage.Close | models/engine/file_storage.py:92-96 | Is `reload`: keeps the file, keeps the live objects when there is nothing to read, raises on unreadable JSON, and otherwise replaces the live objects by those rebuilt from the file exactly when every entry loads. |
| FileStorage.CloseDropsUnsaved | models/engine/file_storage.py:92-96 | After a save of a registered, dated, JSON-stable store, closing brings back the saved objects whatever the live ones have become since. |
| FileStorage.CloseAfterSave | models/engine/file_storage.py:92-96 | For the same stores, closing right after a save loses nothing: the file and every object are kept. |
| FileStorage.SaveInstance | models/base_model.py:59-65 | Stamps `updated_at` and files the object under its key, keeping `created_at` and the attributes. Other keys are kept. The save succeeds exactly when every stored object has `datetime` stamps and values JSON can encode; it then rewrites the file from the store. Otherwise a bad stamp empties the file and an unencodable value truncates it. |
| FileStorage.DeleteInstance | models/base_model.py:77-81 | Removes exactly the object's key. An absent key changes nothing. Otherwise the file is rewritten, or left empty or truncated as `Commit` states when the save raises. |
| BaseModel.Fresh | models/base_model.py:49-52 | A new object has the given class and id, equal `created_at` and `updated_at` set to the clock reading, and no other attributes. |
| BaseModel.ToDict | models/base_model.py:67-75 | The dictionary holds every attribute but the session handle, the class tag, the id, and both timestamps as ISO text. |
| BaseModel.FromKwargs | models/base_model.py:32-53 | No keywords builds a fresh object. Unparseable timestamps raise. With parseable ones, a missing `__class__` raises. Complete keywords build an object. It carries the class, the id keyword, the parsed timestamps, and exactly the other keywords as attributes. |
| BaseModel.ToDictRoundTrip | models/base_model.py:32-75 | Rebuilding from `to_dict` gives back the same object. |
| BaseModel.KwargsRoundTrip | models/base_model.py:32-75 | `to_dict` of an object built from a canonical dictionary is that dictionary. |
| BaseModel.FreshToDict | models/base_model.py:49-75 | A fresh object serialises to its id, the class tag and two equal timestamps. |
| BaseModel.ToStr | models/base_model.py:55-57 | The text is `[<Class>] (<id>) ` followed by the instance dictionary's `repr`. |
| BaseModel.StrNamesObject | models/base_model.py:55-57 | Class and id can be read back from the text when they contain no `]` or `)`. |
| BaseModel.Assign | console.py:433-436 | Assignment through `__dict__` never changes the class. `id` becomes the value's text. `created_at` or `updated_at` holds the assigned value in place of its `datetime`. Any other name becomes an attribute. |
| Values.ParseInt | console.py:433-434 | `int()` of text accepts exactly an optionally signed numeral, surrounded by optional whitespace. It reads a numeral as its value, and is negative only after a `-`. |
| Values.ParseIntRoundTrip | console.py:433-434 | `int(str(i)) == i`. |
| State.Name | models/state.py:22 | `name` is the instance attribute when set, else `""`. |
| State.FreshStateName | models/state.py:22 | A new `State` has name `""`. |
| State.Cities | models/state.py:24-34 | Exactly the stored `City` objects whose `state_id` is the state's id. |
| State.CitiesDisjoint | models/state.py:24-34 | Two states with different ids share no city. |
| State.NewCityJoinsView | models/state.py:24-34 | Storing a city of this state adds exactly it to the view. |
| PyStr.Partition | console.py:467-481 | `str.partition`: head, separator and tail reassemble the text, and the head holds no earlier separator. |
| PyStr.StripWrapped | console.py:139-142 | Stripping a character class removes exactly surrounding characters of that class. |
| PyStr.SplitJoin | console.py:210-213 | `split()` undoes joining non-empty whitespace-free words with spaces. |

## Left out

- Input and output: the `cmd.Cmd` loop (`cmdloop`, `help`, `quit`, `EOF`, `preloop`, `postcmd`) is `Plumbing`. What a command prints is a value, not text.
- Console.ParseLine: `cmd.Cmd.parseline` is not part of the repository. It is modelled only as far as needed to hand `precmd`'s line to a handler.
- `uuid4`, the clock, `datetime.isoformat`/`fromisoformat`, `eval` and `float()` are parameters (`Env`, `TimeCodec`). A float is represented by its `str()` text and its truth value.
- FileStorage.Reload: the file is a map without entry order. When it holds both an unregistered class prefix and a dictionary the constructor rejects, Python raises for whichever comes first in the file; the model states only that `reload` raises.
- FileStorage.Commit: the JSON text is not modelled. The file holds the dictionary `json.load` would read back from it, and a failing `json.dump` leaves `Garbled` (a truncated text). What JSON makes of a value other than text or an integer is recorded with the value (`Json`), not computed. Text and integers are taken to come back unchanged.
- `__str__` takes the `repr` of the instance dictionary as a parameter, because dict ordering and `repr` are Python's.
- `DBStorage`, the relational backend, the Flask web layer and the deployment scripts are outside this core.
- models/city.py is not part of this model. `State.BelongsTo` does not know the `City` class default of `state_id`, so a city without its own `state_id` matches no state.
- Console.Coerce: `int()` of a value that is neither text nor an integer counts as raising. Python also accepts floats and booleans.
- Values.ParseInt: reads ASCII decimal digits, single underscores, a sign and surrounding whitespace. Python's `int` also accepts non-ASCII digits.
- BaseModel.Assign: an assigned `id` is stored as its `str()`, so a non-text id is not kept as an integer or other object.
- BaseModel.Assign: a `Value` is never a `datetime`, so a value assigned to a timestamp always replaces the `datetime`. Python's `eval` can produce a `datetime`, since the console module imports `BaseModel`: `update Class id {"created_at": BaseModel().created_at}` stores a real `datetime` in Python, and later saves succeed. The model holds it as `Replaced`, and its later saves raise. A `datetime` under any other name is modelled, as a value JSON rejects.
- Console.UpdateSteps: the items of `eval`'s dictionary have text keys. In Python a falsy non-text key (`0`, `None`) prints `** attribute name missing **`, like the empty name. Any other non-text key (`1`) is stored in the instance dictionary as it is. `json.dump` then writes it as text, or raises for a tuple key, and `reload` brings it back as text.
- BaseModel.FromKwargs: a dictionary without a text `id` or without both timestamps is rejected as `Incomplete`. Python builds an object lacking those attributes, which fails later in `to_dict`.
- Console.DoUpdate: requires a sound store, meaning no object keeps `id`, `created_at` or `updated_at` among its other attributes. Every operation of the model preserves this.
- Console.SaveUpdated: when an update changes `id`, Python files one shared object under the old and the new key, so a later change through one key shows under the other. The model files two equal copies, which agree after this save but not after a later change to only one of them.
- Console.DecodeParam: does not state that the decoded value is free of `=`, though it is.
- ConsoleLaws.UpdateAssignsPairs: is stated for distinct plain words whose names are outside the `types` table and the three named fields. `ConsoleLaws.UpdateAssignsQuoted` covers quoted words whose trimmed forms are distinct. Repeated words, which the positional loop may drop, and typed names are covered by `Console.DoUpdate`'s contract, which adds the `types`-converted pairs.
- CreateLaws.CreateStoresParams: is stated for parameter names outside the `types` table and the three named fields, with values free of quotes, `_`, `=` and non-space whitespace. `CreateLaws.CreateStoresInt` covers one integer field. Other parameters are covered by `Console.DoCreate`'s contract, which stores them converted by the `types` table.
- Concurrency does not arise: the interpreter is single-threaded.

=== FILE: base_model.dfy ===
/**
 * `BaseModel`: the common shape of every entity, its construction (fresh or
 * from a keyword dictionary), `to_dict`, `__str__`, and attribute assignment
 * through the instance dictionary.
 */
module BaseModel {
  import opened Common
  import opened Values
  import opened PyStr

  const IdKey: string := "id"
  const CreatedKey: string := "created_at"
  const UpdatedKey: string := "updated_at"
  /** The type tag `to_dict` adds and the keyword constructor skips. */
  const ClassTag: string := "__class__"
  /** The database session handle `to_dict` drops. */
  const SaState: string := "_sa_instance_state"

  /** `datetime.isoformat` and `datetime.fromisoformat`, supplied by the
      caller; `parse` yields `None` where Python raises. */
  datatype TimeCodec = TimeCodec(format: int -> string, parse: string -> Option<int>)

  /** Every formatted timestamp parses back to itself. */
  ghost predicate Lossless(c: TimeCodec) {
    forall t :: c.parse(c.format(t)) == Some(t)
  }

  /** A timestamp attribute: a `datetime` (its clock reading), or the value
      an assignment through the instance dictionary put in its place. */
  datatype Stamp = At(t: int) | Replaced(v: Value)

  /** An entity: its class name, the instance dictionary's `id`,
      `created_at` and `updated_at`, and every other instance attribute. */
  datatype Obj = Obj(cls: string, id: string, createdAt: Stamp, updatedAt: Stamp, attrs: map<string, Value>)

  /** The three named entries of the instance dictionary are not repeated
      among the other attributes. */
  predicate WellFormed(o: Obj) {
    IdKey !in o.attrs && CreatedKey !in o.attrs && UpdatedKey !in o.attrs
  }

  /** Both timestamps are `datetime`s, so `to_dict` can render them. */
  predicate Dated(o: Obj) {
    o.createdAt.At? && o.updatedAt.At?
  }

  /** `to_dict` succeeds, and no attribute is one it overwrites or drops. */
  predicate Persistable(o: Obj) {
    WellFormed(o) && Dated(o) && ClassTag !in o.attrs && SaState !in o.attrs
  }

  /** The storage key `"<ClassName>.<id>"`. */
  function Key(cls: string, id: string): string {
    cls + "." + id
  }

  function KeyOf(o: Obj): string {
    Key(o.cls, o.id)
  }

  /** `BaseModel()` without keywords: a new id and one clock reading for both
      timestamps. */
  function Fresh(cls: string, newId: string, now: int): (o: Obj)
    ensures o.cls == cls && o.id == newId
    ensures o.createdAt == o.updatedAt == At(now)
    ensures o.attrs == map[]
    ensures WellFormed(o) && Dated(o)
  {
    Obj(cls, newId, At(now), At(now), map[])
  }

  /** The object part of `BaseModel.save`: stamp `updated_at`. */
  function Touch(o: Obj, now: int): (r: Obj)
    ensures r.updatedAt == At(now)
    ensures r.createdAt == o.createdAt && r.id == o.id && r.cls == o.cls && r.attrs == o.attrs
    ensures Dated(r) <==> o.createdAt.At?
  {
    o.(updatedAt := At(now))
  }

  /** `to_dict`: a copy of the instance dictionary with the class tag added,
      timestamps rendered as ISO text and the session handle removed. */
  function ToDict(o: Obj, codec: TimeCodec): (d: map<string, Value>)
    requires Dated(o)
    ensures d.Keys == (o.attrs.Keys - {SaState}) + {IdKey, CreatedKey, UpdatedKey, ClassTag}
    ensures d[ClassTag] == Str(o.cls)
    ensures d[IdKey] == Str(o.id)
    ensures d[CreatedKey] == Str(codec.format(o.createdAt.t))
    ensures d[UpdatedKey] == Str(codec.format(o.updatedAt.t))
    ensures forall k :: k in o.attrs && k !in {IdKey, CreatedKey, UpdatedKey, ClassTag, SaState} ==> d[k] == o.attrs[k]
  {
    var copy := o.attrs[IdKey := Str(o.id)];
    var tagged := copy[ClassTag := Str(o.cls)];
    var stamped := tagged[CreatedKey := Str(codec.format(o.createdAt.t))][UpdatedKey := Str(codec.format(o.updatedAt.t))];
    stamped - {SaState}
  }

  /** Why the keyword constructor raises. */
  datatype BuildError =
    | BadTimestamp     // `fromisoformat` rejects a `created_at`/`updated_at` value
    | MissingClassTag  // `del kwargs['__class__']` raises `KeyError`
    | Incomplete       // no string `id`, or a missing timestamp (see README)

  /** The timestamp entries that are present are ISO text `fromisoformat` accepts. */
  predicate StampsParse(kw: map<string, Value>, codec: TimeCodec) {
    && (CreatedKey in kw ==> kw[CreatedKey].Str? && codec.parse(kw[CreatedKey].s).Some?)
    && (UpdatedKey in kw ==> kw[UpdatedKey].Str? && codec.parse(kw[UpdatedKey].s).Some?)
  }

  /** `cls(**kw)`: with no keywords a fresh object; otherwise every keyword but
      `__class__` becomes an attribute, the timestamps parsed from ISO text,
      and the missing `__class__` keyword is an error. */
  function FromKwargs(cls: string, kw: map<string, Value>, codec: TimeCodec, newId: string, now: int): (r: Result<Obj, BuildError>)
    ensures kw == map[] ==> r.Success? && r.value.createdAt == r.value.updatedAt == At(now) && r.value.id == newId
    ensures kw != map[] && StampsParse(kw, codec) && ClassTag !in kw ==> r == Failure(MissingClassTag)
    ensures kw != map[] && !StampsParse(kw, codec) ==> r == Failure(BadTimestamp)
    ensures (&& kw != map[] && StampsParse(kw, codec) && ClassTag in kw
             && IdKey in kw && kw[IdKey].Str? && CreatedKey in kw && UpdatedKey in kw) ==> r.Success?
    ensures r.Success? ==> r.value.cls == cls && WellFormed(r.value) && Dated(r.value)
    ensures r.Success? && kw != map[] ==>
      && IdKey in kw && kw[IdKey] == Str(r.value.id)
      && CreatedKey in kw && kw[CreatedKey].Str? && codec.parse(kw[CreatedKey].s) == Some(r.value.createdAt.t)
      && UpdatedKey in kw && kw[UpdatedKey].Str? && codec.parse(kw[UpdatedKey].s) == Some(r.value.updatedAt.t)
      && r.value.attrs.Keys == kw.Keys - {ClassTag, IdKey, CreatedKey, UpdatedKey}
      && forall k :: k in r.value.attrs ==> r.value.attrs[k] == kw[k]
  {
    if kw == map[] then Success(Fresh(cls, newId, now))
    else if !StampsParse(kw, codec) then Failure(BadTimestamp)
    else if ClassTag !in kw then Failure(MissingClassTag)
    else if IdKey !in kw || !kw[IdKey].Str? || CreatedKey !in kw || UpdatedKey !in kw then Failure(Incomplete)
    else
      Success(Obj(cls, kw[IdKey].s,
                  At(codec.parse(kw[CreatedKey].s).value),
                  At(codec.parse(kw[UpdatedKey].s).value),
                  kw - {ClassTag, IdKey, CreatedKey, UpdatedKey}))
  }

  /** Rebuilding an object from its `to_dict` gives back the same object:
      class, id, both timestamps and every attribute. */
  lemma ToDictRoundTrip(o: Obj, codec: TimeCodec, newId: string, now: int)
    requires Persistable(o)
    requires Lossless(codec)
    ensures FromKwargs(o.cls, ToDict(o, codec), codec, newId, now) == Success(o)
  {
    var d := ToDict(o, codec);
    assert codec.parse(codec.format(o.createdAt.t)) == Some(o.createdAt.t);
    assert codec.parse(codec.format(o.updatedAt.t)) == Some(o.updatedAt.t);
    assert d - {ClassTag, IdKey, CreatedKey, UpdatedKey} == o.attrs;
  }

  /** The other direction: a well-formed serialised dictionary is what
      `to_dict` produces from the object built from it, provided its class
      tag names that class and its timestamps are in canonical ISO form. */
  lemma KwargsRoundTrip(cls: string, kw: map<string, Value>, codec: TimeCodec, newId: string, now: int)
    requires FromKwargs(cls, kw, codec, newId, now).Success?
    requires kw != map[]
    requires ClassTag in kw && kw[ClassTag] == Str(cls)
    requires SaState !in kw
    requires codec.format(codec.parse(kw[CreatedKey].s).value) == kw[CreatedKey].s
    requires codec.format(codec.parse(kw[UpdatedKey].s).value) == kw[UpdatedKey].s
    ensures ToDict(FromKwargs(cls, kw, codec, newId, now).value, codec) == kw
  {
    var o := FromKwargs(cls, kw, codec, newId, now).value;
    var d := ToDict(o, codec);
    assert d.Keys == kw.Keys;
    forall k | k in kw
      ensures d[k] == kw[k]
    {
      if k == CreatedKey {
        assert kw[CreatedKey] == Str(kw[CreatedKey].s);
      } else if k == UpdatedKey {
        assert kw[UpdatedKey] == Str(kw[UpdatedKey].s);
      }
    }
  }

  /** A fresh object serialises to exactly its id, both timestamps and the
      class tag, with equal timestamps. */
  lemma FreshToDict(cls: string, newId: string, now: int, codec: TimeCodec)
    ensures ToDict(Fresh(cls, newId, now), codec).Keys == {IdKey, CreatedKey, UpdatedKey, ClassTag}
    ensures ToDict(Fresh(cls, newId, now), codec)[ClassTag] == Str(cls)
    ensures ToDict(Fresh(cls, newId, now), codec)[CreatedKey] == ToDict(Fresh(cls, newId, now), codec)[UpdatedKey]
  {
  }

  /** `__str__`: `"[<Class>] (<id>) <instance dictionary>"`; the rendering of
      the instance dictionary (Python's `dict` repr, in insertion order) is
      supplied by the caller. */
  function ToStr(o: Obj, dictRepr: Obj -> string): (r: string)
    ensures |r| == |o.cls| + |o.id| + 6 + |dictRepr(o)|
    ensures r[..|o.cls| + |o.id| + 6] == "[" + o.cls + "] (" + o.id + ") "
    ensures r[|o.cls| + |o.id| + 6..] == dictRepr(o)
  {
    "[" + o.cls + "] (" + o.id + ") " + dictRepr(o)
  }

  /** Reads the class name and id back from the head of a `__str__` text:
      the class runs to the first `]`, the id from the following `" ("` to
      the first `)`. */
  function ShownHeader(s: string): Option<(string, string)> {
    if s == [] || s[0] != '[' then None
    else
      var close := 1 + IndexOf(s[1..], ']');
      if close + 3 > |s| || s[close..close + 3] != "] (" then None
      else
        var rest := s[close + 3..];
        var end := IndexOf(rest, ')');
        if end == |rest| then None
        else Some((s[1..close], rest[..end]))
  }

  /** `__str__` names the object's class and id unambiguously whenever the
      class name has no `]` and the id no `)`. */
  lemma StrNamesObject(o: Obj, dictRepr: Obj -> string)
    requires ']' !in o.cls && ')' !in o.id
    ensures ShownHeader(ToStr(o, dictRepr)) == Some((o.cls, o.id))
  {
    var body := dictRepr(o);
    assert ToStr(o, dictRepr) == "[" + (o.cls + ("] (" + (o.id + (") " + body))));
    HeaderOf(o.cls, o.id, body);
  }

  lemma HeaderOf(cls: string, id: string, body: string)
    requires ']' !in cls && ')' !in id
    ensures ShownHeader("[" + (cls + ("] (" + (id + (") " + body))))) == Some((cls, id))
  {
    var rest := id + (") " + body);
    var tail := "] (" + rest;
    var s := "[" + (cls + tail);
    HeaderFront(cls, tail);
    HeaderRest(id, body);
    HeaderAt(s, 1 + |cls|, rest, cls, id);
  }

  /** The `[Class]` part: the first `]` after the `[` closes the class name. */
  lemma HeaderFront(cls: string, tail: string)
    requires ']' !in cls && |tail| >= 3 && tail[..3] == "] ("
    ensures var s := "[" + (cls + tail);
      && s != [] && s[0] == '['
      && IndexOf(s[1..], ']') == |cls|
      && 1 + |cls| + 3 <= |s|
      && s[1..1 + |cls|] == cls
      && s[1 + |cls|..1 + |cls| + 3] == "] ("
      && s[1 + |cls| + 3..] == tail[3..]
  {
    var s := "[" + (cls + tail);
    assert s[1..] == cls + tail;
    assert tail[0] == ']';
    IndexOfAfter(cls, tail, ']');
    assert s[1 + |cls|..1 + |cls| + 3] == tail[..3];
  }

  /** The `(id)` part: the first `)` closes the id. */
  lemma HeaderRest(id: string, body: string)
    requires ')' !in id
    ensures var rest := id + (") " + body);
      && IndexOf(rest, ')') == |id| < |rest|
      && rest[..|id|] == id
  {
    IndexOfAfter(id, ") " + body, ')');
  }

  /** `ShownHeader` once the delimiters have been located. */
  lemma HeaderAt(s: string, close: nat, rest: string, cls: string, id: string)
    requires s != [] && s[0] == '['
    requires close == 1 + IndexOf(s[1..], ']') && close + 3 <= |s|
    requires s[close..close + 3] == "] (" && rest == s[close + 3..]
    requires IndexOf(rest, ')') == |id| < |rest|
    requires s[1..close] == cls && rest[..|id|] == id
    ensures ShownHeader(s) == Some((cls, id))
  {
  }

  /** An assignment through the instance dictionary
      (`obj.__dict__.update({name: value})`): `id` changes the id (to the
      value's `str()`), `created_at` and `updated_at` replace the timestamp
      by the value, and any other name becomes an ordinary attribute. */
  function Assign(o: Obj, name: string, v: Value): (r: Obj)
    requires WellFormed(o)
    ensures WellFormed(r) && r.cls == o.cls
    ensures name == IdKey ==> r == o.(id := Render(v))
    ensures name == CreatedKey ==> r == o.(createdAt := Replaced(v))
    ensures name == UpdatedKey ==> r == o.(updatedAt := Replaced(v))
    ensures name !in {IdKey, CreatedKey, UpdatedKey} ==> r == o.(attrs := o.attrs[name := v])
  {
    if name == IdKey then o.(id := Render(v))
    else if name == CreatedKey then o.(createdAt := Replaced(v))
    else if name == UpdatedKey then o.(updatedAt := Replaced(v))
    else o.(attrs := o.attrs[name := v])
  }
}

=== FILE: common.dfy ===
/** Failure-carrying wrappers shared by the whole model. */
module Common {

  /** A value that may be absent (Python's `None` or a failed lookup). */
  datatype Option<+T> = None | Some(value: T)

  /** Either a value or the error that replaced it. */
  datatype Result<+T, +E> = Success(value: T) | Failure(error: E)
}

=== FILE: console.dfy ===
/**
 * The `HBNBCommand` interpreter: `precmd`'s rewriting of the method-call
 * syntax `Class.verb(args)` into the verb-first line `verb Class id args`,
 * `validate`, and the six verb handlers, each returning the new storage
 * state and what it prints.
 */
module Console {
  import opened Common
  import opened Values
  import opened PyStr
  import opened BaseModel
  import opened FileStorage

  // The console's `error_messages` table.
  const NoMethod: string := "** invalid method"
  const NoCls: string := "** class doesn't exist **"
  const NoClsName: string := "** class name missing **"
  const NoObjId: string := "** instance id missing **"
  const NoObj: string := "** no instance found **"
  const NoAttrName: string := "** attribute name missing **"
  const NoAttrVal: string := "** value missing **"

  /** The verbs `precmd` accepts in the method-call syntax. */
  const AllowedMethods: set<string> := {"create", "all", "count", "show", "destroy", "update"}

  /** The console's `types` table: attributes converted with `int` ... */
  const IntFields: set<string> := {"number_rooms", "number_bathrooms", "max_guest", "price_by_night"}
  /** ... and with `float`. */
  const FloatFields: set<string> := {"latitude", "longitude"}

  const IdQuotes: set<char> := {'"', '\''}
  const TokenQuotes: set<char> := {'"', '\'', ','}

  /** What Python's `eval` makes of a text: a `dict` (its items in order),
      some other object, or an exception. */
  datatype EvalOutcome = EvDict(items: seq<(string, Value)>) | EvOther | EvRaises

  /** Everything a command reads from outside the model: the `uuid4` and the
      two clock readings of `create` (construction, then `save`), the ISO
      codec, `eval`, and `float()` (`None` where it raises). */
  datatype Env = Env(
    newId: string,
    tNew: int,
    tSave: int,
    codec: TimeCodec,
    eval: string -> EvalOutcome,
    toFloat: Value -> Option<Float>)

  /** An exception the console does not catch; it ends the interpreter. */
  datatype Fault =
    | NoSuchClass       // `classes["all"]` in `do_create`
    | BadNumber         // `int(...)`/`float(...)` of a `types` attribute raises
    | StampNotDatetime  // a timestamp holds an assigned value, so `to_dict` raises in `save`
    | NotSerialisable   // an attribute value is one `json.dump` rejects in `save`
    | EvalRaised        // `eval` raises in `do_update`

  /** What a command prints. */
  datatype Output =
    | Silent
    | Error(msg: string)
    | NewId(id: string)
    | Shown(obj: Obj)          // `print(obj)`, i.e. `ToStr(obj, ...)`
    | Listing(objs: Store)     // the list of `str(obj)` of these objects
    | Counted(n: nat)

  /** The outcome of one command: the new state and what it printed, or an
      uncaught exception and what the backing file holds when the
      interpreter dies. `Plumbing` stands for lines handled by the
      interpreter loop itself (`help`, `quit`, `EOF`, unknown commands). */
  datatype Reply = Done(world: World, out: Output) | Crash(fault: Fault, disk: Disk) | Plumbing

  // ---------------------------------------------------------------------
  // precmd

  /** The line contains `.`, `(` and `)`: `precmd` treats it as a method call. */
  predicate CallShaped(line: string) {
    '.' in line && '(' in line && ')' in line
  }

  /** The text before the first `.`. */
  function ClassPart(line: string): string {
    line[..IndexOf(line, '.')]
  }

  /** The text between the first `.` and the first `(` (empty if `(` comes first). */
  function MethodPart(line: string): string {
    Slice(line, if IndexOf(line, '.') < |line| then IndexOf(line, '.') + 1 else |line|, IndexOf(line, '('))
  }

  /** The text between the first `(` and the first `)` (empty if `)` comes first). */
  function ArgPart(line: string): string {
    Slice(line, if IndexOf(line, '(') < |line| then IndexOf(line, '(') + 1 else |line|, IndexOf(line, ')'))
  }

  function InvalidMethod(verb: string): string {
    NoMethod + ": " + verb + " **"
  }

  /** `precmd`'s result: the line handed on to the interpreter and what it printed. */
  datatype Normalised = Normalised(line: string, message: Option<string>)

  /** The attribute part of a call's arguments: what follows the first
      `", "`, stripped. */
  function AttrText(inner: string): string {
    StripWs(Partition(inner, ", ").tail)
  }

  predicate Braced(t: string) {
    t != [] && t[0] == '{' && t[|t| - 1] == '}'
  }

  /** The id and attribute text `precmd` extracts from the argument list, or
      `None` when `eval` raises. The id is the part before the first `", "`
      with quotes stripped; the rest is kept verbatim when it is a
      brace-delimited dictionary literal and loses its commas otherwise. */
  function CallArgs(inner: string, eval: string -> EvalOutcome): (r: Option<(string, string)>)
    ensures inner == [] ==> r == Some(([], []))
    ensures r.None? <==> inner != [] && Braced(AttrText(inner)) && eval(AttrText(inner)).EvRaises?
    ensures r.Some? ==> r.value.0 == CallId(inner)
    ensures r.Some? && Braced(AttrText(inner)) && eval(AttrText(inner)).EvDict? ==> r.value.1 == AttrText(inner)
    ensures r.Some? && !(Braced(AttrText(inner)) && eval(AttrText(inner)).EvDict?) ==>
      r.value.1 == RemoveChar(AttrText(inner), ',')
  {
    if inner == [] then Some(([], []))
    else
      var id := CallId(inner);
      match AttrArgs(AttrText(inner), eval)
      case None => None
      case Some(args) => Some((id, args))
  }

  /** The id of a call: the text before the first `", "`, with the quotes
      around it stripped, so it neither starts nor ends with a quote. */
  function CallId(inner: string): (r: string)
    ensures |r| <= |inner|
    ensures r != [] ==> !InClass(r[0], Chars(IdQuotes)) && !InClass(r[|r| - 1], Chars(IdQuotes))
    ensures r != [] ==> forall j :: 0 <= j < |r| ==> !IsAt(inner, ", ", j)
  {
    Strip(Partition(inner, ", ").head, Chars(IdQuotes))
  }

  /** The attribute text as `precmd` passes it on: a dictionary literal
      verbatim, anything else without its commas; `None` when `eval` of a
      brace-delimited text raises. */
  function AttrArgs(rest: string, eval: string -> EvalOutcome): (r: Option<string>)
    ensures r.None? <==> Braced(rest) && eval(rest).EvRaises?
    ensures Braced(rest) && eval(rest).EvDict? ==> r == Some(rest)
    ensures r.Some? && !(Braced(rest) && eval(rest).EvDict?) ==> r == Some(RemoveChar(rest, ','))
  {
    if rest == [] then Some([])
    else if Braced(rest) then
      match eval(rest)
      case EvRaises => None
      case EvDict(_) => Some(rest)
      case EvOther => Some(RemoveChar(rest, ','))
    else Some(RemoveChar(rest, ','))
  }

  /** `precmd`: a line without all of `.`, `(`, `)` passes unchanged; an
      unknown method is reported and the line dropped; when `eval` raises the
      original line passes unchanged; otherwise the line becomes
      `verb Class id args`. */
  function Precmd(line: string, eval: string -> EvalOutcome): (r: Normalised)
    ensures !CallShaped(line) ==> r == Normalised(line, None)
    ensures CallShaped(line) && MethodPart(line) !in AllowedMethods ==>
      r == Normalised([], Some(InvalidMethod(MethodPart(line))))
    ensures CallShaped(line) && MethodPart(line) in AllowedMethods && CallArgs(ArgPart(line), eval).None? ==>
      r == Normalised(line, None)
    ensures CallShaped(line) && MethodPart(line) in AllowedMethods && CallArgs(ArgPart(line), eval).Some? ==>
      r == Normalised(Join([MethodPart(line), ClassPart(line), CallArgs(ArgPart(line), eval).value.0, CallArgs(ArgPart(line), eval).value.1], " "), None)
    ensures r.message.Some? ==> r.line == [] && CallShaped(line)
  {
    if !CallShaped(line) then Normalised(line, None)
    else
      var verb := MethodPart(line);
      if verb !in AllowedMethods then Normalised([], Some(InvalidMethod(verb)))
      else
        match CallArgs(ArgPart(line), eval)
        case None => Normalised(line, None)
        case Some((id, args)) => Normalised(Join([verb, ClassPart(line), id, args], " "), None)
  }

  // ---------------------------------------------------------------------
  // cmd.Cmd's split of a line into command and argument

  /** `cmd.Cmd.identchars`. */
  predicate IsIdentChar(c: char) {
    'a' <= c <= 'z' || 'A' <= c <= 'Z' || '0' <= c <= '9' || c == '_'
  }

  function IdentEnd(s: string): (r: nat)
    ensures r <= |s|
    ensures forall i :: 0 <= i < r ==> IsIdentChar(s[i])
    ensures r < |s| ==> !IsIdentChar(s[r])
  {
    if s == [] || !IsIdentChar(s[0]) then 0 else 1 + IdentEnd(s[1..])
  }

  /** How the interpreter reads a line: blank, a command and its argument,
      or something its own machinery handles. */
  datatype Command = Blank | Call(verb: string, arg: string) | Other(line: string)

  /** `cmd.Cmd.parseline` (with `onecmd`'s blank-line test): the leading run
      of identifier characters is the command, the stripped rest its argument. */
  function ParseLine(line: string): Command {
    var t := StripWs(line);
    if t == [] then Blank
    else if t[0] == '?' || t[0] == '!' then Other(t)
    else
      var i := IdentEnd(t);
      if i == 0 then Other(t) else Call(t[..i], StripWs(t[i..]))
  }

  // ---------------------------------------------------------------------
  // validate

  datatype Mode = CreateOnly | Plain | NeedId

  /** `validate`'s dictionary: class name, id and remaining text (the
      parameters in `CreateOnly` mode, where the id is not split off). */
  datatype Args = Args(cls: string, id: string, rest: string)

  /** The class name: `arg.partition(" ")[0]`. */
  function ClassToken(arg: string): string {
    Partition(arg, " ").head
  }

  /** The id: the first `" "`-partition token of what follows the class. */
  function IdToken(arg: string): string {
    Partition(Partition(arg, " ").tail, " ").head
  }

  /** `validate`: the class name must be present and registered (or `all`);
      with `NeedId` the id must be present. Errors in that order. */
  function Validate(arg: string, mode: Mode): (r: Result<Args, string>)
    ensures r == Failure(NoClsName) <==> ClassToken(arg) == []
    ensures r == Failure(NoCls) <==>
      ClassToken(arg) != [] && ClassToken(arg) !in Classes && ClassToken(arg) != "all"
    ensures r == Failure(NoObjId) <==>
      && mode == NeedId && IdToken(arg) == []
      && ClassToken(arg) != [] && (ClassToken(arg) in Classes || ClassToken(arg) == "all")
    ensures r.Success? || r == Failure(NoClsName) || r == Failure(NoCls) || r == Failure(NoObjId)
    ensures r.Success? ==> r.value.cls == ClassToken(arg) && (r.value.cls in Classes || r.value.cls == "all")
    ensures r.Success? && mode == NeedId ==> r.value.id != []
    ensures mode == CreateOnly ==>
      (r.Success? <==> ClassToken(arg) != [] && (ClassToken(arg) in Classes || ClassToken(arg) == "all"))
    ensures r.Success? && mode != CreateOnly ==> r.value.id == IdToken(arg)
  {
    var parts := Partition(arg, " ");
    var cls := parts.head;
    if cls == [] then Failure(NoClsName)
    else if cls !in Classes && cls != "all" then Failure(NoCls)
    else if mode == CreateOnly then Success(Args(cls, [], parts.tail))
    else
      var rest := Partition(parts.tail, " ");
      if rest.head == [] && mode == NeedId then Failure(NoObjId)
      else Success(Args(cls, rest.head, rest.tail))
  }

  // ---------------------------------------------------------------------
  // attribute assignment shared by create and update

  /** One assignment request, or the error message that stops the handler. */
  datatype Step = Set(name: string, value: Value) | Stop(msg: string)

  /** The result of applying steps to an object: all applied, stopped by an
      error with the assignments made so far, or an uncaught exception. */
  datatype Applied = Applied(o: Obj) | Halted(o: Obj, msg: string) | Broke(fault: Fault)

  /** The `types` conversion: `int` for the integer fields (Python's `int`
      of an integer is itself), `float` for the others, the value unchanged
      for every other name. `None` where Python raises. */
  function Coerce(name: string, v: Value, toFloat: Value -> Option<Float>): (r: Option<Value>)
    ensures name !in IntFields && name !in FloatFields ==> r == Some(v)
    ensures name in IntFields && r.Some? ==> r.value.Int?
    ensures name in IntFields && v.Str? && ParseInt(v.s).Some? ==> r == Some(Int(ParseInt(v.s).value))
    ensures name in IntFields && v.Str? && ParseInt(v.s).None? ==> r.None?
    ensures name in IntFields && v.Int? ==> r == Some(v)
    ensures name in FloatFields ==> (r.Some? <==> toFloat(v).Some?)
    ensures name in FloatFields && r.Some? ==> r.value == FloatValue(toFloat(v).value)
  {
    TypesDisjoint();
    if name in IntFields then
      match v
      case Str(s) => (match ParseInt(s) case Some(i) => Some(Int(i)) case None => None)
      case Int(_) => Some(v)
      case Opaque(_, _, _) => None
    else if name in FloatFields then
      match toFloat(v)
      case Some(f) => Some(FloatValue(f))
      case None => None
    else Some(v)
  }

  /** No name is converted both ways. */
  lemma TypesDisjoint()
    ensures forall f :: f in FloatFields ==> f !in IntFields
  {
    forall f | f in FloatFields
      ensures f !in IntFields
    {
      if f == "longitude" {
        assert f[0] != "max_guest"[0];
      } else {
        assert |f| == 8;
      }
    }
  }

  /** Names that an assignment makes an ordinary attribute. */
  predicate Ordinary(name: string) {
    name != IdKey && name != CreatedKey && name != UpdatedKey
  }

  /** The ordinary attributes a run of steps assigns, each value converted
      by the `types` table, later assignments winning. Error steps and
      conversions that raise contribute nothing. */
  function Converted(steps: seq<Step>, toFloat: Value -> Option<Float>): map<string, Value> {
    if steps == [] then map[]
    else
      var rest := Converted(steps[1..], toFloat);
      match steps[0]
      case Stop(_) => rest
      case Set(name, v) =>
        if Ordinary(name) && Coerce(name, v, toFloat).Some? then map[name := Coerce(name, v, toFloat).value] + rest
        else rest
  }

  /** The steps that run before the first error step: all of them when
      there is none. */
  function BeforeStop(steps: seq<Step>): (r: seq<Step>)
    ensures r <= steps
    ensures forall i :: 0 <= i < |r| ==> r[i].Set?
    ensures |r| < |steps| ==> steps[|r|].Stop?
  {
    if steps == [] || steps[0].Stop? then [] else [steps[0]] + BeforeStop(steps[1..])
  }

  /** The value of the last assignment to `name` among the steps, if any. */
  function LastSet(steps: seq<Step>, name: string): (r: Option<Value>)
    ensures r.None? <==> forall i :: 0 <= i < |steps| && steps[i].Set? ==> steps[i].name != name
    ensures r.Some? ==> exists i :: 0 <= i < |steps| && steps[i] == Set(name, r.value)
  {
    if steps == [] then None
    else
      var rest := LastSet(steps[1..], name);
      assert forall i :: 1 <= i < |steps| ==> steps[i] == steps[1..][i - 1];
      if rest.Some? then rest
      else if steps[0].Set? && steps[0].name == name then Some(steps[0].value)
      else None
  }

  /** The id after the steps: the text of the last value assigned to `id`
      (`__dict__.update` stores the value, which `key` formats with its
      `str()`), else the id before them. */
  function IdAfter(id: string, steps: seq<Step>): string {
    match LastSet(steps, IdKey)
    case Some(v) => Render(v)
    case None => id
  }

  /** A timestamp after the steps: replaced by the last value assigned to
      its name, else as before. */
  function StampAfter(t: Stamp, steps: seq<Step>, name: string): Stamp {
    match LastSet(steps, name)
    case Some(v) => Replaced(v)
    case None => t
  }

  /** The `types` table converts none of the three named entries. */
  lemma NamedUntyped()
    ensures IdKey !in IntFields && IdKey !in FloatFields
    ensures CreatedKey !in IntFields && CreatedKey !in FloatFields
    ensures UpdatedKey !in IntFields && UpdatedKey !in FloatFields
  {
  }

  /** Applies the steps in order, stopping at the first error. A run that
      goes through adds exactly the converted assignments to the object's
      attributes; a halted run has made those before the error. The id and
      each timestamp hold the last value assigned to them, or keep theirs. */
  function ApplySteps(o: Obj, steps: seq<Step>, toFloat: Value -> Option<Float>): (r: Applied)
    requires WellFormed(o)
    ensures !r.Broke? ==> WellFormed(r.o) && r.o.cls == o.cls
    ensures !r.Broke? ==> (r.o.createdAt == o.createdAt || r.o.createdAt.Replaced?)
    ensures !r.Broke? ==> (r.o.updatedAt == o.updatedAt || r.o.updatedAt.Replaced?)
    ensures !r.Broke? ==> r.o.id == IdAfter(o.id, BeforeStop(steps))
    ensures !r.Broke? ==> r.o.createdAt == StampAfter(o.createdAt, BeforeStop(steps), CreatedKey)
    ensures !r.Broke? ==> r.o.updatedAt == StampAfter(o.updatedAt, BeforeStop(steps), UpdatedKey)
    ensures !r.Broke? ==> r.o.attrs == o.attrs + Converted(BeforeStop(steps), toFloat)
    ensures r.Halted? ==> Stop(r.msg) in steps
    ensures r.Halted? ==> |BeforeStop(steps)| < |steps| && steps[|BeforeStop(steps)|] == Stop(r.msg)
    ensures r.Applied? ==> forall i :: 0 <= i < |steps| ==> steps[i].Set?
    ensures r.Applied? ==> r.o.attrs == o.attrs + Converted(steps, toFloat)
    ensures r.Broke? ==> r.fault == BadNumber
    decreases |steps|
  {
    if steps == [] then Applied(o)
    else
      match steps[0]
      case Stop(msg) => Halted(o, msg)
      case Set(name, v) =>
        match Coerce(name, v, toFloat)
        case None => Broke(BadNumber)
        case Some(v') =>
          var a := Assign(o, name, v');
          var r := ApplySteps(a, steps[1..], toFloat);
          var front := BeforeStop(steps);
          assert front[0] == steps[0] && front[1..] == BeforeStop(steps[1..]);
          assert r.Applied? ==> forall i :: 1 <= i < |steps| ==> steps[1..][i - 1] == steps[i];
          NamedUntyped();
          if !r.Broke? && Ordinary(name) then
            MergeAfterUpdate(o.attrs, name, v', Converted(BeforeStop(steps[1..]), toFloat));
            MergeAfterUpdate(o.attrs, name, v', Converted(steps[1..], toFloat));
            r
          else r
  }

  /** Names the `types` table and the three named entries leave alone. */
  predicate PlainName(name: string) {
    name !in IntFields && name !in FloatFields && name != IdKey && name != CreatedKey && name != UpdatedKey
  }

  /** Steps that all set plain names. */
  predicate PlainSets(steps: seq<Step>) {
    forall i :: 0 <= i < |steps| ==> steps[i].Set? && PlainName(steps[i].name)
  }

  /** Steps that set only plain names apply completely: the object gains
      exactly those attributes, later assignments to a name winning. */
  lemma ApplyPlainSets(o: Obj, steps: seq<Step>, toFloat: Value -> Option<Float>)
    requires WellFormed(o)
    requires PlainSets(steps)
    ensures ApplySteps(o, steps, toFloat) == Applied(o.(attrs := o.attrs + SetsAsMap(steps)))
  {
    ApplyPlainPrefix(o, steps, [], toFloat);
    assert steps + [] == steps;
  }

  /** Plain assignments in front of further steps: those steps run on the
      object the assignments leave. */
  lemma {:induction false} ApplyPlainPrefix(o: Obj, front: seq<Step>, rest: seq<Step>,
                                            toFloat: Value -> Option<Float>)
    requires WellFormed(o)
    requires PlainSets(front)
    ensures WellFormed(o.(attrs := o.attrs + SetsAsMap(front)))
    ensures ApplySteps(o, front + rest, toFloat)
         == ApplySteps(o.(attrs := o.attrs + SetsAsMap(front)), rest, toFloat)
    decreases |front|
  {
    if front == [] {
      assert front + rest == rest;
      assert o.attrs + SetsAsMap(front) == o.attrs;
    } else {
      var o' := o.(attrs := o.attrs[front[0].name := front[0].value]);
      PlainStep(o, front, rest, toFloat);
      PlainSetsTail(front);
      ApplyPlainPrefix(o', front[1..], rest, toFloat);
      SetsAsMapCons(o.attrs, front);
    }
  }

  /** Merging the assignments of `Set(n, v)` then `rest` is assigning `n`
      first. */
  lemma SetsAsMapCons(m: map<string, Value>, steps: seq<Step>)
    requires steps != [] && steps[0].Set?
    ensures m + SetsAsMap(steps) == m[steps[0].name := steps[0].value] + SetsAsMap(steps[1..])
  {
    var n := steps[0].name;
    var v := steps[0].value;
    MergeAfterUpdate(m, n, v, SetsAsMap(steps[1..]));
  }

  lemma MergeAfterUpdate(m: map<string, Value>, n: string, v: Value, x: map<string, Value>)
    ensures m + (map[n := v] + x) == m[n := v] + x
  {
  }

  /** A first step that sets a plain name stores the value as given and
      leaves the remaining steps to the updated object. */
  lemma PlainStep(o: Obj, front: seq<Step>, rest: seq<Step>, toFloat: Value -> Option<Float>)
    requires WellFormed(o)
    requires front != [] && PlainSets(front)
    ensures WellFormed(o.(attrs := o.attrs[front[0].name := front[0].value]))
    ensures ApplySteps(o, front + rest, toFloat)
         == ApplySteps(o.(attrs := o.attrs[front[0].name := front[0].value]), front[1..] + rest, toFloat)
  {
    var steps := front + rest;
    var name := front[0].name;
    var v := front[0].value;
    assert steps[0] == Set(name, v) && PlainName(name);
    assert steps[1..] == front[1..] + rest;
    assert Coerce(name, v, toFloat) == Some(v);
    assert Assign(o, name, v) == o.(attrs := o.attrs[name := v]);
  }

  lemma PlainSetsTail(steps: seq<Step>)
    requires steps != [] && PlainSets(steps)
    ensures PlainSets(steps[1..])
  {
    forall i | 0 <= i < |steps| - 1
      ensures steps[1..][i].Set? && PlainName(steps[1..][i].name)
    {
      assert steps[1..][i] == steps[i + 1];
    }
  }

  lemma PlainSetsAppend(a: seq<Step>, b: seq<Step>)
    requires PlainSets(a) && PlainSets(b)
    ensures PlainSets(a + b)
  {
    forall i | 0 <= i < |a + b|
      ensures (a + b)[i].Set? && PlainName((a + b)[i].name)
    {
      if i < |a| {
        assert (a + b)[i] == a[i];
      } else {
        assert (a + b)[i] == b[i - |a|];
      }
    }
  }

  /** The assignments of a list of `Set` steps as a map, later ones winning. */
  function SetsAsMap(steps: seq<Step>): map<string, Value> {
    if steps == [] then map[]
    else if steps[0].Set? then map[steps[0].name := steps[0].value] + SetsAsMap(steps[1..])
    else SetsAsMap(steps[1..])
  }

  /** Every stored object keeps its three named attributes apart from the
      rest, as an instance dictionary does. */
  predicate Sound(s: Store) {
    forall k :: k in s ==> WellFormed(s[k])
  }

  // ---------------------------------------------------------------------
  // create

  /** One `create` parameter: no `=` (skipped), an empty value, or a name
      and its decoded value. */
  datatype Param = Skip | Missing | Given(name: string, text: string)

  /** Decodes `name="value"`: the name is the text before the first `=`, the
      value the text up to the next `=`, with surrounding quotes stripped,
      inner double quotes removed and underscores turned into spaces. */
  function DecodeParam(tok: string): (r: Param)
    ensures r.Skip? <==> '=' !in tok
    ensures r.Given? ==> '=' !in r.name && |r.name| < |tok| && tok[..|r.name|] == r.name && tok[|r.name|] == '='
    ensures r.Given? ==> r.text != [] && '"' !in r.text && '_' !in r.text
  {
    if '=' !in tok then Skip
    else
      var i := IndexOf(tok, '=');
      var after := tok[i + 1..];
      var raw := after[..IndexOf(after, '=')];
      var unquoted := RemoveChar(Strip(raw, Chars(IdQuotes)), '"');
      var text := ReplaceChar(unquoted, '_', ' ');
      assert forall j :: 0 <= j < |text| ==> text[j] != '"' && text[j] != '_' by {
        forall j | 0 <= j < |text| ensures text[j] != '"' && text[j] != '_' {
          assert unquoted[j] in unquoted;
        }
      }
      if text == [] then Missing else Given(tok[..i], text)
  }

  /** How a multi-word value is written on the command line. */
  function EncodeParam(name: string, value: string): string {
    name + "=\"" + ReplaceChar(value, ' ', '_') + "\""
  }

  /** A value that survives encoding: non-empty, and free of the characters
      the decoder removes or splits on. */
  predicate Encodable(value: string) {
    && value != []
    && '"' !in value && '\'' !in value && '_' !in value && '=' !in value
  }

  /** Decoding undoes encoding. */
  lemma DecodeEncodeParam(name: string, value: string)
    requires '=' !in name
    requires Encodable(value)
    ensures DecodeParam(EncodeParam(name, value)) == Given(name, value)
  {
    var tok := EncodeParam(name, value);
    var quoted := "\"" + ReplaceChar(value, ' ', '_') + "\"";
    ParamSplit(name, value);
    assert tok[|name| + 1..][..IndexOf(tok[|name| + 1..], '=')] == quoted;
    ParamText(value);
  }

  /** The encoded parameter splits at the `=` after the name, and the rest
      holds no further `=`. */
  lemma ParamSplit(name: string, value: string)
    requires '=' !in name
    requires Encodable(value)
    ensures var tok := EncodeParam(name, value);
      var quoted := "\"" + ReplaceChar(value, ' ', '_') + "\"";
      && '=' in tok
      && IndexOf(tok, '=') == |name|
      && tok[..|name|] == name
      && tok[|name| + 1..] == quoted
      && IndexOf(quoted, '=') == |quoted|
  {
    var tok := EncodeParam(name, value);
    var quoted := "\"" + ReplaceChar(value, ' ', '_') + "\"";
    EncodedLacksEq(value);
    assert tok == name + ("=" + quoted);
    IndexOfAfter(name, "=" + quoted, '=');
    assert tok[|name|] == '=';
    assert tok[|name| + 1..] == quoted;
    assert tok[..|name|] == name;
  }

  /** Encoding a value without `=` adds none. */
  lemma EncodedLacksEq(value: string)
    requires '=' !in value
    ensures '=' !in "\"" + ReplaceChar(value, ' ', '_') + "\""
  {
    var enc := ReplaceChar(value, ' ', '_');
    forall i | 0 <= i < |enc|
      ensures enc[i] != '='
    {
      assert value[i] != '=';
    }
  }

  /** Stripping the quotes from a double-quoted text without quotes of its
      own gives the text back. */
  lemma Unquoted(t: string)
    requires '"' !in t && '\'' !in t
    ensures Strip("\"" + t + "\"", Chars(IdQuotes)) == t
  {
    StripWrapped(['"'], t, ['"'], Chars(IdQuotes));
    assert ['"'] + t + ['"'] == "\"" + t + "\"";
  }

  /** Stripping the quotes, removing stray double quotes and turning
      underscores back into spaces recovers the value. */
  lemma ParamText(value: string)
    requires Encodable(value)
    ensures var enc := ReplaceChar(value, ' ', '_');
      ReplaceChar(RemoveChar(Strip("\"" + enc + "\"", Chars(IdQuotes)), '"'), '_', ' ') == value
  {
    var enc := ReplaceChar(value, ' ', '_');
    assert '"' !in enc && '\'' !in enc by {
      forall i | 0 <= i < |enc|
        ensures enc[i] != '"' && enc[i] != '\''
      {
        assert value[i] != '"' && value[i] != '\'';
      }
    }
    Unquoted(enc);
    RemoveAbsent(enc, '"');
    ReplaceCharInverse(value, ' ', '_');
  }

  /** Removing a character that does not occur changes nothing. */
  lemma {:induction false} RemoveAbsent(s: string, c: char)
    requires c !in s
    ensures RemoveChar(s, c) == s
  {
    if s != [] {
      RemoveAbsent(s[1..], c);
    }
  }

  /** The step one parameter token contributes: none when it is skipped,
      the missing-value error, or the assignment of its text. */
  function ParamStep(tok: string): (r: seq<Step>)
    ensures |r| <= 1
  {
    match DecodeParam(tok)
    case Skip => []
    case Missing => [Stop(NoAttrVal)]
    case Given(name, text) => [Set(name, Str(text))]
  }

  /** The steps `do_create` takes for its parameter tokens. */
  function CreateSteps(toks: seq<string>): seq<Step> {
    if toks == [] then [] else ParamStep(toks[0]) + CreateSteps(toks[1..])
  }

  /** The reply of a handler whose last act is `save()`: what it prints,
      or the exception `save` raised, with the file it emptied or cut short. */
  function AfterSave(out: Outcome, printed: Output): Reply {
    match out
    case Fine(w) => Done(w, printed)
    case Raised(w, NotDatetime) => Crash(StampNotDatetime, w.disk)
    case Raised(w, NotJson) => Crash(NotSerialisable, w.disk)
  }

  /** The exceptions `save` raises. */
  predicate RaisedInSave(f: Fault) {
    f == StampNotDatetime || f == NotSerialisable
  }

  /** What a successful save of a new object leaves: the object filed
      under its key, every other entry as it was, and the file rewritten
      from the store. */
  predicate Filed(w: World, w': World, k: string, o: Obj, codec: TimeCodec) {
    && k in w'.objects && w'.objects[k] == o
    && w'.objects.Keys == w.objects.Keys + {k}
    && (forall k' :: k' in w.objects && k' != k ==> w'.objects[k'] == w.objects[k'])
    && AllDated(w'.objects) && AllEncodable(w'.objects, codec)
    && w'.disk == Saved(Serialise(w'.objects, codec))
  }

  /** `do_create`: build a fresh object of the named class, apply the
      parameters, then `save` it (stamping `updated_at`, filing it and
      rewriting the file) and print its id. An empty value prints the error
      and stores nothing. The stored attributes are the parameters, each
      converted by the `types` table. */
  function DoCreate(w: World, arg: string, env: Env): (r: Reply)
    ensures Validate(arg, CreateOnly).Failure? ==> r == Done(w, Error(Validate(arg, CreateOnly).error))
    ensures ClassToken(arg) == "all" ==> r == Crash(NoSuchClass, w.disk)
    ensures r.Done? && r.out.Error? ==> r.world == w
    ensures r.Done? ==> r.out.Error? || r.out.NewId?
    ensures r.Crash? && r.fault == StampNotDatetime ==> r.disk == EmptyFile
    ensures r.Crash? && r.fault == NotSerialisable ==> r.disk == Garbled
    ensures r.Crash? && !RaisedInSave(r.fault) ==> r.disk == w.disk
    ensures r.Done? && r.out.NewId? ==>
      && Validate(arg, CreateOnly).Success?
      && r.out.id == IdAfter(env.newId, CreateSteps(SplitWs(Validate(arg, CreateOnly).value.rest)))
      && Filed(w, r.world, Key(ClassToken(arg), r.out.id),
               Obj(ClassToken(arg), r.out.id, At(env.tNew), At(env.tSave),
                   Converted(CreateSteps(SplitWs(Validate(arg, CreateOnly).value.rest)), env.toFloat)),
               env.codec)
    ensures Sound(w.objects) && r.Done? ==> Sound(r.world.objects)
  {
    AllUnregistered();
    match Validate(arg, CreateOnly)
    case Failure(msg) => Done(w, Error(msg))
    case Success(a) => CreateValidated(w, a, env)
  }

  /** `do_create` once `validate` has passed: `classes[name]` raises for
      the name `all`; any other name is built and saved. */
  function CreateValidated(w: World, a: Args, env: Env): (r: Reply)
    ensures a.cls !in Classes ==> r == Crash(NoSuchClass, w.disk)
    ensures r.Done? && r.out.Error? ==> r.world == w
    ensures r.Done? ==> r.out.Error? || r.out.NewId?
    ensures r.Crash? && r.fault == StampNotDatetime ==> r.disk == EmptyFile
    ensures r.Crash? && r.fault == NotSerialisable ==> r.disk == Garbled
    ensures r.Crash? && !RaisedInSave(r.fault) ==> r.disk == w.disk
    ensures r.Done? && r.out.NewId? ==> r.out.id == IdAfter(env.newId, CreateSteps(SplitWs(a.rest)))
    ensures r.Done? && r.out.NewId? ==>
      Filed(w, r.world, Key(a.cls, r.out.id),
            Obj(a.cls, r.out.id, At(env.tNew), At(env.tSave), Converted(CreateSteps(SplitWs(a.rest)), env.toFloat)),
            env.codec)
    ensures Sound(w.objects) && r.Done? ==> Sound(r.world.objects)
  {
    if a.cls !in Classes then Crash(NoSuchClass, w.disk)
    else
      var steps := CreateSteps(SplitWs(a.rest));
      assert map[] + Converted(steps, env.toFloat) == Converted(steps, env.toFloat);
      SaveCreated(w, Fresh(a.cls, env.newId, env.tNew), steps, env)
  }

  /** The part of `do_create` after the instance is built: apply the
      parameters, then save it and report its id. */
  function SaveCreated(w: World, made: Obj, steps: seq<Step>, env: Env): (r: Reply)
    requires WellFormed(made) && Dated(made)
    ensures r.Done? || r.Crash?
    ensures r.Done? && r.out.Error? ==> r.world == w
    ensures r.Done? ==> r.out.Error? || r.out.NewId?
    ensures r.Crash? && r.fault == StampNotDatetime ==> r.disk == EmptyFile
    ensures r.Crash? && r.fault == NotSerialisable ==> r.disk == Garbled
    ensures r.Crash? && !RaisedInSave(r.fault) ==> r.disk == w.disk
    ensures r.Done? && r.out.NewId? ==> r.out.id == IdAfter(made.id, steps)
    ensures r.Done? && r.out.NewId? ==>
      Filed(w, r.world, Key(made.cls, r.out.id),
            Obj(made.cls, r.out.id, made.createdAt, At(env.tSave), made.attrs + Converted(steps, env.toFloat)),
            env.codec)
    ensures Sound(w.objects) && r.Done? ==> Sound(r.world.objects)
  {
    match ApplySteps(made, steps, env.toFloat)
    case Broke(f) => Crash(f, w.disk)
    case Halted(_, msg) => Done(w, Error(msg))
    case Applied(o) =>
      assert BeforeStop(steps) == steps;
      SavedStore(w, o, env.tSave, env.codec);
      if Sound(w.objects) then SoundPut(w.objects, KeyOf(o), Touch(o, env.tSave)); AfterSave(SaveInstance(w, o, env.tSave, env.codec), NewId(o.id))
      else AfterSave(SaveInstance(w, o, env.tSave, env.codec), NewId(o.id))
  }

  // ---------------------------------------------------------------------
  // show, destroy, all, count

  /** `do_show`: print the object stored under `"<Class>.<id>"`. */
  function DoShow(w: World, arg: string): (r: Reply)
    ensures r.Done? && r.world == w
    ensures Validate(arg, NeedId).Failure? ==> r.out == Error(Validate(arg, NeedId).error)
    ensures Validate(arg, NeedId).Success? ==>
      var k := Key(ClassToken(arg), IdToken(arg));
      && (k in w.objects ==> r.out == Shown(w.objects[k]))
      && (k !in w.objects ==> r.out == Error(NoObj))
  {
    match Validate(arg, NeedId)
    case Failure(msg) => Done(w, Error(msg))
    case Success(a) =>
      var k := Key(a.cls, a.id);
      if k in w.objects then Done(w, Shown(w.objects[k])) else Done(w, Error(NoObj))
  }

  /** `do_destroy`: remove exactly the key `"<Class>.<id>"` and rewrite the
      file; a missing key prints the error and changes nothing. The rewrite
      raises, leaving the file empty, when a remaining object has a
      timestamp that is not a `datetime`, and leaving it cut short when a
      remaining object holds a value JSON cannot encode. */
  function DoDestroy(w: World, arg: string, codec: TimeCodec): (r: Reply)
    ensures r.Done? || r.Crash?
    ensures r.Done? && r.out.Error? ==> r.world == w
    ensures Validate(arg, NeedId).Failure? ==> r == Done(w, Error(Validate(arg, NeedId).error))
    ensures Validate(arg, NeedId).Success? ==>
      var k := Key(ClassToken(arg), IdToken(arg));
      && (k !in w.objects ==> r == Done(w, Error(NoObj)))
      && (k in w.objects && AllDated(w.objects - {k}) && AllEncodable(w.objects - {k}, codec) ==>
            && r.Done? && r.out == Silent
            && r.world.objects == w.objects - {k}
            && r.world.disk == Saved(Serialise(r.world.objects, codec)))
      && (k in w.objects && !AllDated(w.objects - {k}) ==> r == Crash(StampNotDatetime, EmptyFile))
      && (k in w.objects && AllDated(w.objects - {k}) && !AllEncodable(w.objects - {k}, codec) ==> r == Crash(NotSerialisable, Garbled))
    ensures r.Done? && Sound(w.objects) ==> Sound(r.world.objects)
  {
    match Validate(arg, NeedId)
    case Failure(msg) => Done(w, Error(msg))
    case Success(a) =>
      var k := Key(a.cls, a.id);
      if k in w.objects then AfterSave(Commit(w.(objects := w.objects - {k}), codec), Silent)
      else Done(w, Error(NoObj))
  }

  /** The class name `do_all` reads: the first word, quotes stripped. */
  function AllClassName(arg: string): string {
    var words := SplitWs(arg);
    if words == [] then [] else Strip(words[0], Chars(IdQuotes))
  }

  /** `do_all`: list every object, or, given a registered class name, what
      `storage.all` returns for that name passed as a string, which is
      nothing: in file mode `all <Class>` lists no objects. */
  function DoAll(w: World, arg: string): (r: Reply)
    ensures r.Done? && r.world == w
    ensures AllClassName(arg) == [] ==> r.out == Listing(w.objects)
    ensures AllClassName(arg) != [] && AllClassName(arg) !in Classes ==> r.out == Error(NoCls)
    ensures AllClassName(arg) in Classes ==> r.out == Listing(map[])
  {
    Done(w, AllOutput(w.objects, AllClassName(arg)))
  }

  /** What `do_all` prints for the class name it read. */
  function AllOutput(s: Store, c: string): (out: Output)
    ensures c == [] ==> out == Listing(s)
    ensures c != [] && c !in Classes ==> out == Error(NoCls)
    ensures c in Classes ==> out == Listing(map[])
  {
    if c == [] then Listing(All(s, AnyClass))
    else if c !in Classes then Error(NoCls)
    else Listing(All(s, NameText(c)))
  }

  /** The keys `do_count` counts: every key for the argument `all`, else the
      keys whose object's class name is the validated class. */
  function CountedKeys(s: Store, arg: string, cls: string): set<string> {
    set k | k in s && (arg == "all" || s[k].cls == cls)
  }

  /** `do_count`: the number of stored objects of the class, or of all
      objects when the argument is exactly `all`. */
  function DoCount(w: World, arg: string): (r: Reply)
    ensures r.Done? && r.world == w
    ensures Validate(arg, Plain).Failure? ==> r.out == Error(Validate(arg, Plain).error)
    ensures Validate(arg, Plain).Success? && arg == "all" ==> r.out == Counted(|w.objects|)
    ensures Validate(arg, Plain).Success? && arg != "all" ==>
      r.out == Counted(|All(w.objects, ClassObj(ClassToken(arg)))|)
  {
    match Validate(arg, Plain)
    case Failure(msg) => Done(w, Error(msg))
    case Success(a) =>
      var keys := CountedKeys(w.objects, arg, a.cls);
      if arg == "all" then
        assert keys == w.objects.Keys;
        Done(w, Counted(|keys|))
      else
        assert keys == All(w.objects, ClassObj(a.cls)).Keys;
        Done(w, Counted(|keys|))
  }

  // ---------------------------------------------------------------------
  // update

  /** Strips the quotes and commas `do_update` trims from each word. */
  function Trim(t: string): string {
    Strip(t, Chars(TokenQuotes))
  }

  /** Every word trimmed. */
  function TrimAll(words: seq<string>): (r: seq<string>)
    ensures |r| == |words|
    ensures forall i :: 0 <= i < |words| ==> r[i] == Trim(words[i])
  {
    seq(|words|, i requires 0 <= i < |words| => Trim(words[i]))
  }

  /** The positional loop of `do_update` from word `i` on, over the trimmed
      words: an even-indexed word takes the next word as its value (or
      `""`), an odd-indexed one keeps the value carried from before; the
      pair is appended unless both halves already occur in the list built
      so far. The list only grows, and by whole pairs. */
  function PositionalLoop(words: seq<string>, i: nat, carried: string, acc: seq<string>): (r: seq<string>)
    requires |acc| % 2 == 0
    ensures |r| % 2 == 0 && |acc| <= |r|
    ensures r[..|acc|] == acc
    decreases |words| - i
  {
    if i >= |words| then acc
    else
      var name := words[i];
      var value := if i % 2 == 0 then (if i + 1 < |words| then words[i + 1] else "") else carried;
      var acc' := if name !in acc || value !in acc then acc + [name, value] else acc;
      var r := PositionalLoop(words, i + 1, value, acc');
      assert r[..|acc|] == r[..|acc'|][..|acc|];
      r
  }

  /** From index `from` on, `r` holds only words, `""` and `carried`. */
  predicate AddsOnly(r: seq<string>, from: nat, words: seq<string>, carried: string) {
    forall j :: from <= j < |r| ==> r[j] in words || r[j] == "" || r[j] == carried
  }

  /** What the positional loop adds is drawn from the words, `""` and the
      value carried in. */
  lemma {:induction false} LoopAddsWords(words: seq<string>, i: nat, carried: string, acc: seq<string>)
    requires |acc| % 2 == 0
    ensures AddsOnly(PositionalLoop(words, i, carried, acc), |acc|, words, carried)
    decreases |words| - i
  {
    if i < |words| {
      var name := words[i];
      var value := if i % 2 == 0 then (if i + 1 < |words| then words[i + 1] else "") else carried;
      var acc' := if name !in acc || value !in acc then acc + [name, value] else acc;
      LoopAddsWords(words, i + 1, value, acc');
      assert words[i] in words;
      assert value in words || value == "" || value == carried by {
        if i % 2 == 0 && i + 1 < |words| {
          assert words[i + 1] in words;
        }
      }
      LoopStep(words, carried, name, value, acc, acc', PositionalLoop(words, i + 1, value, acc'));
    }
  }

  /** One round of the positional loop keeps what the list held and adds
      only words, `""` or the value carried in. */
  lemma LoopStep(words: seq<string>, carried: string, name: string, value: string,
                 acc: seq<string>, acc': seq<string>, r: seq<string>)
    requires name in words
    requires value in words || value == "" || value == carried
    requires acc' == acc || acc' == acc + [name, value]
    requires |acc'| <= |r| && r[..|acc'|] == acc'
    requires AddsOnly(r, |acc'|, words, value)
    ensures AddsOnly(r, |acc|, words, carried)
  {
    forall j | |acc| <= j < |r|
      ensures r[j] in words || r[j] == "" || r[j] == carried
    {
      if j < |acc'| {
        assert r[j] == r[..|acc'|][j] == acc'[j];
      }
    }
  }

  /** The flat name/value list of the positional form: `["", ""]` when the
      loop yields nothing. */
  function PositionalArgs(text: string): (r: seq<string>)
    ensures r != [] && |r| % 2 == 0
  {
    var flat := PositionalLoop(TrimAll(SplitWs(text)), 0, "", []);
    if flat == [] then ["", ""] else flat
  }

  /** Pairs up a flat list of even length. */
  function Pairs(flat: seq<string>): (r: seq<(string, Value)>)
    requires |flat| % 2 == 0
    ensures |r| * 2 == |flat|
  {
    if flat == [] then [] else [(flat[0], Str(flat[1]))] + Pairs(flat[2..])
  }

  /** The checks `do_update` makes on each pair in turn: an empty name, then
      a falsy value, ends the command with an error. Every assignment thus
      has a name and a truthy value. */
  function PairSteps(pairs: seq<(string, Value)>): (r: seq<Step>)
    ensures |r| == |pairs|
    ensures forall i :: 0 <= i < |r| ==> (r[i] == Stop(NoAttrName) <==> pairs[i].0 == [])
    ensures forall i :: 0 <= i < |r| ==> (r[i] == Stop(NoAttrVal) <==> pairs[i].0 != [] && !Truthy(pairs[i].1))
    ensures forall i :: 0 <= i < |r| && r[i].Set? ==> r[i] == Set(pairs[i].0, pairs[i].1)
    ensures forall i :: 0 <= i < |r| && r[i].Stop? ==> r[i].msg == NoAttrName || r[i].msg == NoAttrVal
  {
    if pairs == [] then []
    else
      var (name, v) := pairs[0];
      var step := if name == [] then Stop(NoAttrName) else if !Truthy(v) then Stop(NoAttrVal) else Set(name, v);
      [step] + PairSteps(pairs[1..])
  }

  /** The steps `do_update` takes for the text after the id: the dictionary
      form when the text holds both braces and evaluates to a `dict`, the
      positional form otherwise; `None` when `eval` raises. */
  function UpdateSteps(text: string, eval: string -> EvalOutcome): (r: Option<seq<Step>>)
    ensures r.None? <==> '{' in text && '}' in text && eval(text).EvRaises?
    ensures '{' in text && '}' in text && eval(text).EvDict? ==> r.Some? && |r.value| == |eval(text).items|
    ensures !('{' in text && '}' in text && eval(text).EvDict?) && r.Some? ==> r.value != []
    ensures r.Some? ==> forall i :: 0 <= i < |r.value| && r.value[i].Set? ==>
      r.value[i].name != [] && Truthy(r.value[i].value)
    ensures r.Some? ==> forall i :: 0 <= i < |r.value| && r.value[i].Stop? ==>
      r.value[i].msg == NoAttrName || r.value[i].msg == NoAttrVal
  {
    var dictForm := '{' in text && '}' in text;
    if dictForm && eval(text).EvRaises? then None
    else if dictForm && eval(text).EvDict? then Some(PairSteps(eval(text).items))
    else Some(PairSteps(Pairs(PositionalArgs(text))))
  }

  /** `do_update`: after validation, the key must be stored; then the pairs
      are applied to the stored object in place, in order. An error message
      leaves the assignments made before it in memory but not on disk;
      success saves the object (stamping `updated_at`, filing it under its
      possibly new key and rewriting the file). */
  function DoUpdate(w: World, arg: string, env: Env): (r: Reply)
    requires Sound(w.objects)
    ensures Validate(arg, NeedId).Failure? ==> r == Done(w, Error(Validate(arg, NeedId).error))
    ensures Validate(arg, NeedId).Success? && Key(ClassToken(arg), IdToken(arg)) !in w.objects ==>
      r == Done(w, Error(NoObj))
    ensures r.Done? || r.Crash?
    ensures r.Done? ==> r.out.Error? || r.out.Silent?
    ensures r.Crash? && r.fault == StampNotDatetime ==> r.disk == EmptyFile
    ensures r.Crash? && r.fault == NotSerialisable ==> r.disk == Garbled
    ensures r.Crash? && !RaisedInSave(r.fault) ==> r.disk == w.disk
    ensures r.Done? && r.out.Error? ==>
      && r.world.disk == w.disk && r.world.objects.Keys == w.objects.Keys
      && forall k' :: k' in w.objects && k' != Key(ClassToken(arg), IdToken(arg)) ==> r.world.objects[k'] == w.objects[k']
    ensures r.Done? && r.out.Silent? ==>
      var k := Key(ClassToken(arg), IdToken(arg));
      && Validate(arg, NeedId).Success?
      && UpdateSteps(Validate(arg, NeedId).value.rest, env.eval).Some?
      && k in w.objects && k in r.world.objects
      && r.world.objects[k].cls == w.objects[k].cls
      && r.world.objects[k].id == IdAfter(w.objects[k].id, UpdateSteps(Validate(arg, NeedId).value.rest, env.eval).value)
      && r.world.objects[k].createdAt == w.objects[k].createdAt
      && r.world.objects[k].updatedAt == At(env.tSave)
      && r.world.objects[k].attrs == w.objects[k].attrs + Converted(UpdateSteps(Validate(arg, NeedId).value.rest, env.eval).value, env.toFloat)
      && KeyOf(r.world.objects[k]) in r.world.objects && r.world.objects[KeyOf(r.world.objects[k])] == r.world.objects[k]
      && r.world.objects.Keys == w.objects.Keys + {KeyOf(r.world.objects[k])}
      && (forall k' :: k' in w.objects && k' != k && k' != KeyOf(r.world.objects[k]) ==> r.world.objects[k'] == w.objects[k'])
      && AllDated(r.world.objects) && AllEncodable(r.world.objects, env.codec)
      && r.world.disk == Saved(Serialise(r.world.objects, env.codec))
    ensures r.Done? ==> Sound(r.world.objects)
  {
    match Validate(arg, NeedId)
    case Failure(msg) => Done(w, Error(msg))
    case Success(a) =>
      var k := Key(a.cls, a.id);
      if k !in w.objects then Done(w, Error(NoObj))
      else
        match UpdateSteps(a.rest, env.eval)
        case None => Crash(EvalRaised, w.disk)
        case Some(steps) => UpdateStored(w, k, steps, env)
  }

  /** The loop of `do_update` over its steps on the object stored under
      `k`, then the save when every step went through. */
  function UpdateStored(w: World, k: string, steps: seq<Step>, env: Env): (r: Reply)
    requires Sound(w.objects) && k in w.objects
    ensures r.Done? || r.Crash?
    ensures r.Done? ==> r.out.Error? || r.out.Silent?
    ensures r.Crash? && r.fault == StampNotDatetime ==> r.disk == EmptyFile
    ensures r.Crash? && r.fault == NotSerialisable ==> r.disk == Garbled
    ensures r.Crash? && !RaisedInSave(r.fault) ==> r.disk == w.disk
    ensures r.Done? && r.out.Error? ==>
      && r.world.disk == w.disk && r.world.objects.Keys == w.objects.Keys
      && r.world.objects[k].cls == w.objects[k].cls
      && r.world.objects[k].id == IdAfter(w.objects[k].id, BeforeStop(steps))
      && r.world.objects[k].attrs == w.objects[k].attrs + Converted(BeforeStop(steps), env.toFloat)
      && forall k' :: k' in w.objects && k' != k ==> r.world.objects[k'] == w.objects[k']
    ensures r.Done? && r.out.Silent? ==>
      && k in r.world.objects
      && r.world.objects[k].cls == w.objects[k].cls
      && r.world.objects[k].id == IdAfter(w.objects[k].id, steps)
      && r.world.objects[k].createdAt == w.objects[k].createdAt
      && r.world.objects[k].updatedAt == At(env.tSave)
      && r.world.objects[k].attrs == w.objects[k].attrs + Converted(steps, env.toFloat)
      && KeyOf(r.world.objects[k]) in r.world.objects && r.world.objects[KeyOf(r.world.objects[k])] == r.world.objects[k]
      && r.world.objects.Keys == w.objects.Keys + {KeyOf(r.world.objects[k])}
      && (forall k' :: k' in w.objects && k' != k && k' != KeyOf(r.world.objects[k]) ==> r.world.objects[k'] == w.objects[k'])
      && AllDated(r.world.objects) && AllEncodable(r.world.objects, env.codec)
      && r.world.disk == Saved(Serialise(r.world.objects, env.codec))
    ensures r.Done? ==> Sound(r.world.objects)
  {
    match ApplySteps(w.objects[k], steps, env.toFloat)
    case Broke(f) => Crash(f, w.disk)
    case Halted(partial, msg) =>
      SoundPut(w.objects, k, partial);
      Done(w.(objects := w.objects[k := partial]), Error(msg))
    case Applied(o) =>
      assert BeforeStop(steps) == steps;
      AfterSave(SaveUpdated(w, k, o, env), Silent)
  }

  /** The successful end of `do_update`: the stamped object replaces the
      stored one in place, then `save` files it under its (possibly new) key
      and rewrites the file. */
  function SaveUpdated(w: World, k: string, o: Obj, env: Env): (r: Outcome)
    requires Sound(w.objects) && k in w.objects && WellFormed(o)
    ensures k in r.world.objects && KeyOf(o) in r.world.objects
    ensures r.world.objects[k] == r.world.objects[KeyOf(o)] == Touch(o, env.tSave)
    ensures r.world.objects.Keys == w.objects.Keys + {KeyOf(o)}
    ensures forall k' :: k' in w.objects && k' != k && k' != KeyOf(o) ==> r.world.objects[k'] == w.objects[k']
    ensures Rewritten(r, r.world.objects, env.codec)
    ensures Sound(r.world.objects)
  {
    var t := Touch(o, env.tSave);
    var placed := w.(objects := w.objects[k := t]);
    SoundPut(w.objects, k, t);
    SoundPut(placed.objects, KeyOf(t), t);
    PutTwice(w.objects, k, KeyOf(o), t);
    var out := SaveInstance(placed, o, env.tSave, env.codec);
    assert out.world.objects == placed.objects[KeyOf(o) := t] by { SavedStore(placed, o, env.tSave, env.codec); }
    out
  }

  /** Filing one object under two keys, the first already present. */
  lemma PutTwice(s: Store, k: string, k': string, t: Obj)
    requires k in s
    ensures var s' := s[k := t][k' := t];
      k in s' && k' in s' && s'[k] == t && s'[k'] == t && s'.Keys == s.Keys + {k'}
  {
  }

  /** Filing a well-formed object keeps a store sound. */
  lemma SoundPut(s: Store, k: string, o: Obj)
    requires Sound(s) && WellFormed(o)
    ensures Sound(s[k := o])
  {
  }

  // ---------------------------------------------------------------------
  // one line of input

  /** One line through the interpreter: `precmd`, then the split into
      command and argument, then the handler. A method call with an unknown
      verb prints its message and changes nothing. */
  function Execute(w: World, line: string, env: Env): (r: Reply)
    requires Sound(w.objects)
    ensures Precmd(line, env.eval).message.Some? ==> r == Done(w, Error(Precmd(line, env.eval).message.value))
    ensures r.Done? ==> Sound(r.world.objects)
  {
    var n := Precmd(line, env.eval);
    Run(w, ParseLine(n.line), n.message, env)
  }

  /** Runs a command. A blank line does nothing beyond printing what
      `precmd` printed; lines the interpreter loop handles itself, and verbs
      without a handler here, are `Plumbing`. */
  function Run(w: World, c: Command, message: Option<string>, env: Env): (r: Reply)
    requires Sound(w.objects)
    ensures c.Blank? ==> r.Done? && r.world == w
    ensures r.Done? ==> Sound(r.world.objects)
  {
    match c
    case Blank => Done(w, if message.Some? then Error(message.value) else Silent)
    case Other(_) => Plumbing
    case Call(verb, arg) =>
      if verb == "create" then DoCreate(w, arg, env)
      else if verb == "show" then DoShow(w, arg)
      else if verb == "destroy" then DoDestroy(w, arg, env.codec)
      else if verb == "all" then DoAll(w, arg)
      else if verb == "count" then DoCount(w, arg)
      else if verb == "update" then DoUpdate(w, arg, env)
      else Plumbing
  }
}

=== FILE: console_laws.dfy ===
/**
 * What the interpreter promises across its parts: the method-call syntax
 * means the same as the verb-first line, `validate` reads back the fields a
 * line is built from, and `update` pairs its tokens.
 */
module ConsoleLaws {
  import opened Common
  import opened Values
  import opened PyStr
  import opened BaseModel
  import opened FileStorage
  import opened Console

  // ---------------------------------------------------------------------
  // precmd

  /** The method-call line `Class.verb(inner)trailer`. */
  function CallLine(cls: string, verb: string, inner: string, trailer: string): string {
    cls + ("." + (verb + ("(" + (inner + (")" + trailer)))))
  }

  /** The first `c` of `a + [c] + b` is the one after `a` when `a` lacks `c`. */
  lemma FirstAfter(a: string, c: char, b: string)
    requires c !in a
    ensures IndexOf(a + ([c] + b), c) == |a|
  {
    IndexOfAfter(a, [c] + b, c);
  }

  /** A separator whose first character is absent occurs nowhere. */
  lemma NoSepWithout(s: string, sep: string)
    requires sep != [] && sep[0] !in s
    ensures forall j :: 0 <= j <= |s| ==> !IsAt(s, sep, j)
  {
  }

  /** `precmd` finds the class, the method and the argument text of a
      method-call line where they are delimited by the first `.`, `(` and
      `)`; whatever follows the `)` is ignored. */
  lemma CallLineParts(cls: string, verb: string, inner: string, trailer: string)
    requires '.' !in cls && '(' !in cls && ')' !in cls
    requires '(' !in verb && ')' !in verb
    requires ')' !in inner
    ensures var line := CallLine(cls, verb, inner, trailer);
      && CallShaped(line)
      && ClassPart(line) == cls
      && MethodPart(line) == verb
      && ArgPart(line) == inner
  {
    var dot := |cls|;
    var open := dot + 1 + |verb|;
    var close := open + 1 + |inner|;
    CallLineIndices(cls, verb, inner, trailer);
    CallLineSlices(cls, verb, inner, trailer);
    PartsAt(CallLine(cls, verb, inner, trailer), dot, open, close, cls, verb, inner);
  }

  /** The parts of a line once its first `.`, `(` and `)` are located. */
  lemma PartsAt(line: string, dot: nat, open: nat, close: nat, cls: string, verb: string, inner: string)
    requires dot < open < close < |line|
    requires IndexOf(line, '.') == dot && IndexOf(line, '(') == open && IndexOf(line, ')') == close
    requires line[..dot] == cls && Slice(line, dot + 1, open) == verb && Slice(line, open + 1, close) == inner
    ensures CallShaped(line)
    ensures ClassPart(line) == cls && MethodPart(line) == verb && ArgPart(line) == inner
  {
  }

  /** Where the first `.`, `(` and `)` of a method-call line are. */
  lemma CallLineIndices(cls: string, verb: string, inner: string, trailer: string)
    requires '.' !in cls && '(' !in cls && ')' !in cls
    requires '(' !in verb && ')' !in verb
    requires ')' !in inner
    ensures var line := CallLine(cls, verb, inner, trailer);
      && IndexOf(line, '.') == |cls|
      && IndexOf(line, '(') == |cls| + 1 + |verb|
      && IndexOf(line, ')') == |cls| + 1 + |verb| + 1 + |inner|
      && |line| == |cls| + 1 + |verb| + 1 + |inner| + 1 + |trailer|
  {
    var line := CallLine(cls, verb, inner, trailer);
    FirstAfter(cls, '.', verb + ("(" + (inner + (")" + trailer))));
    var head := cls + "." + verb;
    assert line == head + ("(" + (inner + (")" + trailer)));
    FirstAfter(head, '(', inner + (")" + trailer));
    var front := head + "(" + inner;
    assert line == front + (")" + trailer);
    FirstAfter(front, ')', trailer);
  }

  /** The pieces between the delimiters of a method-call line. */
  lemma CallLineSlices(cls: string, verb: string, inner: string, trailer: string)
    ensures var line := CallLine(cls, verb, inner, trailer);
      var dot := |cls|;
      var open := dot + 1 + |verb|;
      var close := open + 1 + |inner|;
      && |line| == close + 1 + |trailer|
      && line[..dot] == cls
      && Slice(line, dot + 1, open) == verb
      && Slice(line, open + 1, close) == inner
  {
    var rest := "(" + (inner + (")" + trailer));
    NestedSlice(cls, ".", verb, rest);
    NestedSlice(cls + ("." + verb), "(", inner, ")" + trailer);
    Regroup3(cls, ".", verb, rest);
  }

  lemma Regroup3(a: string, b: string, c: string, d: string)
    ensures (a + (b + c)) + d == a + (b + (c + d))
  {
  }

  /** The piece after a prefix and a separator, cut out again. */
  lemma NestedSlice(a: string, sep: string, m: string, b: string)
    ensures var s := a + (sep + (m + b));
      && s[..|a|] == a
      && Slice(s, |a| + |sep|, |a| + |sep| + |m|) == m
  {
    var s := a + (sep + (m + b));
    assert s[|a| + |sep|..|a| + |sep| + |m|] == m;
  }

  /** A method call with an allowed verb becomes `verb Class id args`,
      the four fields `CallArgs` and the line's parts supply. */
  lemma PrecmdRewritesCall(cls: string, verb: string, inner: string, trailer: string,
                           eval: string -> EvalOutcome, id: string, args: string)
    requires '.' !in cls && '(' !in cls && ')' !in cls
    requires verb in AllowedMethods
    requires ')' !in inner
    requires CallArgs(inner, eval) == Some((id, args))
    ensures Precmd(CallLine(cls, verb, inner, trailer), eval) == Normalised(Join([verb, cls, id, args], " "), None)
  {
    VerbPlain(verb);
    CallLineParts(cls, verb, inner, trailer);
    PrecmdOfParts(CallLine(cls, verb, inner, trailer), eval, id, args);
  }

  /** The allowed verbs are non-empty runs of lower-case letters. */
  lemma VerbPlain(verb: string)
    requires verb in AllowedMethods
    ensures verb != [] && forall i :: 0 <= i < |verb| ==> 'a' <= verb[i] <= 'z'
    ensures '(' !in verb && ')' !in verb
  {
    if verb == "create" {
    } else if verb == "all" {
    } else if verb == "count" {
    } else if verb == "show" {
    } else if verb == "destroy" {
    } else {
      assert verb == "update";
    }
  }

  lemma PrecmdOfParts(line: string, eval: string -> EvalOutcome, id: string, args: string)
    requires CallShaped(line) && MethodPart(line) in AllowedMethods
    requires CallArgs(ArgPart(line), eval) == Some((id, args))
    ensures Precmd(line, eval) == Normalised(Join([MethodPart(line), ClassPart(line), id, args], " "), None)
  {
  }

  /** A quoted id alone: the id without its quotes, and no attribute text. */
  lemma CallArgsIdOnly(id: string, eval: string -> EvalOutcome)
    requires '"' !in id && '\'' !in id && ',' !in id
    ensures CallArgs("\"" + id + "\"", eval) == Some((id, []))
  {
    var inner := "\"" + id + "\"";
    assert ',' !in inner;
    NoSepWithout(inner, ", ");
    PartitionAbsent(inner, ", ");
    Unquoted(id);
  }

  /** A quoted id and a dictionary literal: the literal is passed on whole. */
  lemma CallArgsIdDict(id: string, dict: string, eval: string -> EvalOutcome)
    requires '"' !in id && '\'' !in id && ',' !in id
    requires |dict| >= 2 && dict[0] == '{' && dict[|dict| - 1] == '}'
    requires eval(dict).EvDict?
    ensures CallArgs("\"" + id + "\", " + dict, eval) == Some((id, dict))
  {
    var quoted := "\"" + id + "\"";
    IdDictParts(quoted, id, dict);
    Unquoted(id);
    CallArgsOfDict(quoted + ", " + dict, eval, quoted, id, dict);
  }

  /** A text starting with `{` and ending with `}` has no surrounding
      whitespace. */
  lemma BracedStripped(dict: string)
    requires |dict| >= 2 && dict[0] == '{' && dict[|dict| - 1] == '}'
    ensures StripWs(dict) == dict
  {
    StripWrapped([], dict, [], Spaces);
    assert [] + dict + [] == dict;
  }

  lemma IdDictParts(quoted: string, id: string, dict: string)
    requires quoted == "\"" + id + "\"" && ',' !in id
    ensures Partition(quoted + ", " + dict, ", ") == Parted(quoted, ", ", dict)
    ensures "\"" + id + "\", " + dict == quoted + ", " + dict
  {
    var inner := quoted + ", " + dict;
    assert ',' !in quoted;
    forall j | 0 <= j < |quoted|
      ensures !IsAt(inner, ", ", j)
    {
      assert inner[j] == quoted[j];
    }
    PartitionAt(quoted, ", ", dict);
  }

  lemma CallArgsOfDict(inner: string, eval: string -> EvalOutcome, quoted: string, id: string, dict: string)
    requires Partition(inner, ", ") == Parted(quoted, ", ", dict)
    requires Strip(quoted, Chars(IdQuotes)) == id
    requires |dict| >= 2 && dict[0] == '{' && dict[|dict| - 1] == '}'
    requires eval(dict).EvDict?
    ensures CallArgs(inner, eval) == Some((id, dict))
  {
    BracedStripped(dict);
  }

  // ---------------------------------------------------------------------
  // the two syntaxes agree

  /** The identifier run of `a + b` is `a` when `a` is all identifier
      characters and `b` does not start with one. */
  lemma {:induction false} IdentEndAt(a: string, b: string)
    requires forall i :: 0 <= i < |a| ==> IsIdentChar(a[i])
    requires b != [] && !IsIdentChar(b[0])
    ensures IdentEnd(a + b) == |a|
    decreases |a|
  {
    if a == [] {
      assert a + b == b;
    } else {
      assert (a + b)[1..] == a[1..] + b;
      IdentEndAt(a[1..], b);
    }
  }

  /** The interpreter reads `verb body` (with or without one trailing space)
      as the command `verb` with argument `body`. */
  lemma ParseVerbLine(verb: string, body: string, pad: string)
    requires verb != [] && forall i :: 0 <= i < |verb| ==> 'a' <= verb[i] <= 'z'
    requires body != [] && !IsSpace(body[0]) && !IsSpace(body[|body| - 1])
    requires pad == [] || pad == " "
    ensures ParseLine(verb + " " + body + pad) == Call(verb, body)
  {
    var t := verb + " " + body;
    StripPad(t, pad);
    VerbSplit(verb, body);
    ParseLineOf(t + pad, t, |verb|);
  }

  lemma ParseLineOf(line: string, t: string, i: nat)
    requires StripWs(line) == t && 0 < i <= |t|
    requires 'a' <= t[0] <= 'z' && IdentEnd(t) == i
    ensures ParseLine(line) == Call(t[..i], StripWs(t[i..]))
  {
  }

  lemma StripPad(t: string, pad: string)
    requires t != [] && !IsSpace(t[0]) && !IsSpace(t[|t| - 1])
    requires pad == [] || pad == " "
    ensures StripWs(t + pad) == t
  {
    StripWrapped([], t, pad, Spaces);
    assert [] + t + pad == t + pad;
  }

  lemma VerbSplit(verb: string, body: string)
    requires verb != [] && forall i :: 0 <= i < |verb| ==> 'a' <= verb[i] <= 'z'
    requires body != [] && !IsSpace(body[0]) && !IsSpace(body[|body| - 1])
    ensures var t := verb + " " + body;
      IdentEnd(t) == |verb| && t[..|verb|] == verb && StripWs(t[|verb|..]) == body
  {
    var t := verb + " " + body;
    assert t == verb + (" " + body);
    IdentEndAt(verb, " " + body);
    assert t[|verb|..] == " " + body;
    StripWrapped(" ", body, [], Spaces);
    assert " " + body + [] == " " + body;
  }

  /** `Class.verb("id")` prints nothing of its own and becomes
      `verb Class id ` (the empty argument field leaves a trailing space). */
  lemma PrecmdIdCall(cls: string, verb: string, id: string, eval: string -> EvalOutcome)
    requires '.' !in cls && '(' !in cls && ')' !in cls
    requires verb in AllowedMethods
    requires '"' !in id && '\'' !in id && ',' !in id && ')' !in id
    ensures Precmd(CallLine(cls, verb, "\"" + id + "\"", []), eval) == Normalised(verb + " " + cls + " " + id + " ", None)
  {
    var inner := "\"" + id + "\"";
    assert ')' !in inner;
    CallArgsIdOnly(id, eval);
    PrecmdRewritesCall(cls, verb, inner, [], eval, id, []);
    JoinFour(verb, cls, id, []);
    assert verb + " " + cls + " " + id + " " + [] == verb + " " + cls + " " + id + " ";
  }

  /** Joining four fields with spaces. */
  lemma JoinFour(a: string, b: string, c: string, d: string)
    ensures Join([a, b, c, d], " ") == a + " " + b + " " + c + " " + d
  {
    assert [a, b, c, d][1..] == [b, c, d];
    assert [b, c, d][1..] == [c, d];
    assert [c, d][1..] == [d];
    assert Join([c, d], " ") == c + " " + d;
    assert Join([b, c, d], " ") == b + " " + (c + " " + d);
    assert Join([a, b, c, d], " ") == a + " " + (b + " " + (c + " " + d));
  }

  /** A line without `(` passes `precmd` unchanged. */
  lemma PlainLineKept(line: string, eval: string -> EvalOutcome)
    requires '(' !in line
    ensures Precmd(line, eval) == Normalised(line, None)
  {
  }

  /** Two lines that `precmd` and the command split reduce to the same
      command run the same way. */
  lemma SameCommand(w: World, a: string, b: string, env: Env)
    requires Sound(w.objects)
    requires Precmd(a, env.eval).message == Precmd(b, env.eval).message
    requires ParseLine(Precmd(a, env.eval).line) == ParseLine(Precmd(b, env.eval).line)
    ensures Execute(w, a, env) == Execute(w, b, env)
  {
  }

  /** `Class.verb("id")` and `verb Class id` are the same command. */
  lemma MethodCallMeansCommand(w: World, cls: string, verb: string, id: string, env: Env)
    requires Sound(w.objects)
    requires cls != [] && Spaceless(cls) && '.' !in cls && '(' !in cls && ')' !in cls
    requires id != [] && Spaceless(id) && '"' !in id && '\'' !in id && ',' !in id && '(' !in id && ')' !in id
    requires verb in AllowedMethods
    ensures Execute(w, CallLine(cls, verb, "\"" + id + "\"", []), env) == Execute(w, verb + " " + cls + " " + id, env)
  {
    IdCallCommand(cls, verb, id, env.eval);
    SameCommand(w, CallLine(cls, verb, "\"" + id + "\"", []), verb + " " + cls + " " + id, env);
  }

  /** Both forms reach the command split as `verb` with argument `Class id`. */
  lemma IdCallCommand(cls: string, verb: string, id: string, eval: string -> EvalOutcome)
    requires cls != [] && Spaceless(cls) && '.' !in cls && '(' !in cls && ')' !in cls
    requires id != [] && Spaceless(id) && '"' !in id && '\'' !in id && ',' !in id && '(' !in id && ')' !in id
    requires verb in AllowedMethods
    ensures var a := Precmd(CallLine(cls, verb, "\"" + id + "\"", []), eval);
      var b := Precmd(verb + " " + cls + " " + id, eval);
      && a.message == None && b.message == None
      && ParseLine(a.line) == ParseLine(b.line) == Call(verb, cls + " " + id)
  {
    VerbPlain(verb);
    var body := cls + " " + id;
    PrecmdIdCall(cls, verb, id, eval);
    Regroup(verb, cls, id);
    BodyEnds(cls, id);
    ParseVerbLine(verb, body, " ");
    ParseVerbLine(verb, body, []);
    NoOpenParen(verb, cls, id);
    PlainLineKept(verb + " " + cls + " " + id, eval);
  }

  lemma Regroup(v: string, c: string, i: string)
    ensures v + " " + c + " " + i + " " == v + " " + (c + " " + i) + " "
    ensures v + " " + c + " " + i == v + " " + (c + " " + i) + []
  {
  }

  lemma BodyEnds(c: string, i: string)
    requires c != [] && Spaceless(c) && i != [] && Spaceless(i)
    ensures var b := c + " " + i; b != [] && !IsSpace(b[0]) && !IsSpace(b[|b| - 1])
  {
    var b := c + " " + i;
    assert b[0] == c[0];
    assert b[|b| - 1] == i[|i| - 1];
  }

  lemma NoOpenParen(v: string, c: string, i: string)
    requires '(' !in v && '(' !in c && '(' !in i
    ensures '(' !in v + " " + c + " " + i
  {
  }

  // ---------------------------------------------------------------------
  // validate

  /** The registered class names are single words without `.`, `(`, `)`. */
  lemma ClassPlain(cls: string)
    requires cls in Classes
    ensures cls != [] && Spaceless(cls)
    ensures ' ' !in cls && '.' !in cls && '(' !in cls && ')' !in cls
  {
    ClassLetters(cls);
    LettersPlain(cls);
  }

  /** A non-empty run of ASCII letters. */
  predicate Letters(t: string) {
    t != [] && forall i :: 0 <= i < |t| ==> 'A' <= t[i] <= 'Z' || 'a' <= t[i] <= 'z'
  }

  lemma ClassLetters(cls: string)
    requires cls in Classes
    ensures Letters(cls)
  {
    if cls == "BaseModel" {
    } else if cls == "User" {
    } else if cls == "Place" {
    } else if cls == "State" {
    } else if cls == "City" {
    } else if cls == "Amenity" {
    } else {
      assert cls == "Review";
    }
  }

  lemma LettersPlain(t: string)
    requires Letters(t)
    ensures t != [] && Spaceless(t)
    ensures ' ' !in t && '.' !in t && '(' !in t && ')' !in t
  {
  }

  /** `partition(" ")` of `a + " " + b` splits after `a` when `a` has no space. */
  lemma SplitAtSpace(a: string, b: string)
    requires ' ' !in a
    ensures Partition(a + " " + b, " ") == Parted(a, " ", b)
  {
    var s := a + " " + b;
    forall j | 0 <= j < |a|
      ensures !IsAt(s, " ", j)
    {
      assert s[j] == a[j];
    }
    PartitionAt(a, " ", b);
  }

  /** `validate` reads back the class, id and remaining text a line was
      built from. */
  lemma ValidateFields(cls: string, id: string, rest: string)
    requires cls in Classes
    requires id != [] && ' ' !in id
    ensures Validate(cls + " " + id + " " + rest, NeedId) == Success(Args(cls, id, rest))
    ensures Validate(cls + " " + id + " " + rest, Plain) == Success(Args(cls, id, rest))
  {
    ClassPlain(cls);
    assert cls + " " + id + " " + rest == cls + " " + (id + " " + rest);
    SplitAtSpace(cls, id + " " + rest);
    SplitAtSpace(id, rest);
  }

  /** With nothing after the id, the remaining text is empty. */
  lemma ValidateIdOnly(cls: string, id: string)
    requires cls in Classes
    requires id != [] && ' ' !in id
    ensures Validate(cls + " " + id, NeedId) == Success(Args(cls, id, []))
  {
    ClassPlain(cls);
    SplitAtSpace(cls, id);
    NoSepWithout(id, " ");
    PartitionAbsent(id, " ");
  }

  /** `create` takes everything after the class name as its parameters. */
  lemma ValidateCreate(cls: string, rest: string)
    requires cls in Classes
    ensures Validate(cls + " " + rest, CreateOnly) == Success(Args(cls, [], rest))
  {
    ClassPlain(cls);
    SplitAtSpace(cls, rest);
  }

  // ---------------------------------------------------------------------
  // all and count

  /** `count all` counts exactly what a bare `all` lists. */
  lemma CountAllMatchesListing(w: World)
    ensures DoAll(w, []).out == Listing(w.objects)
    ensures DoCount(w, "all") == Done(w, Counted(|DoAll(w, []).out.objs|))
  {
    assert SplitWs([]) == [];
    NoSepWithout("all", " ");
    PartitionAbsent("all", " ");
    AllUnregistered();
  }

  /** `count C` counts exactly what `storage.all(C)` holds for the class. */
  lemma CountClassMatchesStorage(w: World, cls: string)
    requires cls in Classes
    ensures DoCount(w, cls) == Done(w, Counted(|All(w.objects, ClassObj(cls)).Keys|))
  {
    ClassPlain(cls);
    NoSepWithout(cls, " ");
    PartitionAbsent(cls, " ");
    AllUnregistered();
  }

  // ---------------------------------------------------------------------
  // update: the positional form

  /** No word occurs twice. */
  predicate Distinct(words: seq<string>) {
    forall i, j :: 0 <= i < j < |words| ==> words[i] != words[j]
  }

  /** Words that trimming leaves alone and splitting keeps whole. */
  predicate PlainWords(words: seq<string>) {
    forall i :: 0 <= i < |words| ==> words[i] != [] && Spaceless(words[i]) && Trim(words[i]) == words[i]
  }

  /** Words that the positional form of `update` reads back unchanged:
      some words, none twice, each plain and free of `{`. */
  predicate PositionalText(words: seq<string>) {
    && words != [] && Distinct(words) && PlainWords(words)
    && forall i :: 0 <= i < |words| ==> '{' !in words[i]
  }

  /** Positional words whose names (the words at even places) are ordinary
      attribute names. */
  predicate NamedPairs(words: seq<string>) {
    PositionalText(words) && forall i :: 0 <= i < |words| && i % 2 == 0 ==> PlainName(words[i])
  }

  lemma NamedPairsWords(words: seq<string>)
    requires NamedPairs(words)
    ensures NamedWords(words)
  {
  }

  lemma PaddedEven(words: seq<string>)
    ensures |Padded(words)| % 2 == 0
  {
  }

  /** The word list, completed with an empty value when a name is last. */
  function Padded(words: seq<string>): seq<string> {
    if |words| % 2 == 0 then words else words + [""]
  }

  /** Each name paired with the value after it, later pairs winning. */
  function PairMap(flat: seq<string>): map<string, Value>
    decreases |flat|
  {
    if |flat| < 2 then map[] else map[flat[0] := Str(flat[1])] + PairMap(flat[2..])
  }

  /** The positional loop on distinct words keeps every word, in order,
      and pads a final name with an empty value. */
  lemma {:induction false} LoopDistinct(words: seq<string>, i: nat, carried: string)
    requires i % 2 == 0 && i <= |words|
    requires Distinct(words)
    ensures PositionalLoop(words, i, carried, words[..i]) == Padded(words)
    decreases |words| - i
  {
    if i == |words| {
      LoopDone(words, i, carried);
    } else if i + 1 == |words| {
      LoopLast(words, i, carried);
    } else {
      LoopPair(words, i, carried);
      LoopDistinct(words, i + 2, words[i + 1]);
    }
  }

  lemma LoopLast(words: seq<string>, i: nat, carried: string)
    requires i % 2 == 0 && i + 1 == |words| && Distinct(words)
    ensures PositionalLoop(words, i, carried, words[..i]) == Padded(words)
  {
    NameIsNew(words, i);
    LastPadded(words, i);
  }

  lemma LoopPair(words: seq<string>, i: nat, carried: string)
    requires i % 2 == 0 && i + 1 < |words| && Distinct(words)
    ensures PositionalLoop(words, i, carried, words[..i]) == PositionalLoop(words, i + 2, words[i + 1], words[..i + 2])
  {
    NameIsNew(words, i);
    LoopTwoSteps(words, i, carried);
  }

  lemma NameIsNew(words: seq<string>, i: nat)
    requires i < |words| && Distinct(words)
    ensures words[i] !in words[..i]
  {
    forall j | 0 <= j < i
      ensures words[..i][j] != words[i]
    {
      assert words[j] != words[i];
    }
  }

  /** A name and its value: the pair is appended, then the value's own
      step adds nothing. */
  lemma LoopTwoSteps(words: seq<string>, i: nat, carried: string)
    requires i % 2 == 0 && i + 1 < |words|
    requires words[i] !in words[..i]
    ensures PositionalLoop(words, i, carried, words[..i]) == PositionalLoop(words, i + 2, words[i + 1], words[..i + 2])
  {
    var acc := words[..i] + [words[i], words[i + 1]];
    PairAppended(words, i);
    LoopNameStep(words, i, carried, words[..i]);
    LoopValueStep(words, i + 1, acc);
  }

  /** A name not yet in the list is appended with the word after it. */
  lemma LoopNameStep(words: seq<string>, i: nat, carried: string, acc: seq<string>)
    requires i % 2 == 0 && i + 1 < |words| && |acc| % 2 == 0
    requires words[i] !in acc
    ensures PositionalLoop(words, i, carried, acc)
         == PositionalLoop(words, i + 1, words[i + 1], acc + [words[i], words[i + 1]])
  {
  }

  /** A value already in the list, carried as itself, adds nothing. */
  lemma LoopValueStep(words: seq<string>, i: nat, acc: seq<string>)
    requires i % 2 == 1 && i < |words| && |acc| % 2 == 0
    requires words[i] in acc
    ensures PositionalLoop(words, i, words[i], acc) == PositionalLoop(words, i + 1, words[i], acc)
  {
  }

  lemma PairAppended(words: seq<string>, i: nat)
    requires i % 2 == 0 && i + 1 < |words|
    ensures var acc := words[..i] + [words[i], words[i + 1]];
      acc == words[..i + 2] && words[i + 1] in acc && |acc| % 2 == 0
  {
    var acc := words[..i] + [words[i], words[i + 1]];
    assert acc[i + 1] == words[i + 1];
  }

  lemma LoopDone(words: seq<string>, i: nat, carried: string)
    requires i % 2 == 0 && i == |words|
    ensures PositionalLoop(words, i, carried, words[..i]) == Padded(words)
  {
    assert words[..i] == words;
  }

  /** A new name as the last word is paired with the empty value. */
  lemma LastPadded(words: seq<string>, i: nat)
    requires i % 2 == 0 && i + 1 == |words|
    requires words[i] !in words[..i]
    ensures forall c :: PositionalLoop(words, i, c, words[..i]) == Padded(words)
  {
    assert words[..i] + [words[i], ""] == words + [""];
  }

  /** Trimming words that are already trimmed changes nothing. */
  lemma TrimAllPlain(words: seq<string>)
    requires PlainWords(words)
    ensures TrimAll(words) == words
  {
  }

  /** `update C id n1 v1 n2 v2 ...` with distinct plain words yields the
      words themselves as the name/value list. */
  lemma PositionalWords(words: seq<string>)
    requires words != [] && Distinct(words) && PlainWords(words)
    ensures PositionalArgs(Join(words, " ")) == Padded(words)
  {
    SplitJoin(words);
    TrimAllPlain(words);
    assert words[..0] == [];
    LoopDistinct(words, 0, "");
  }

  /** Quoted words: the loop reads each word with its surrounding quotes
      and commas trimmed, so `name "Nevada",` reads as `name Nevada`, as
      long as the trimmed words are distinct. */
  lemma PositionalTrimmed(words: seq<string>)
    requires words != [] && Tokens(words) && Distinct(TrimAll(words))
    ensures PositionalArgs(Join(words, " ")) == Padded(TrimAll(words))
  {
    SplitJoin(words);
    assert TrimAll(words)[..0] == [];
    LoopDistinct(TrimAll(words), 0, "");
  }

  /** Without a `{` the text takes the positional path. */
  lemma PositionalPath(text: string, eval: string -> EvalOutcome)
    requires '{' !in text
    ensures UpdateSteps(text, eval) == Some(PairSteps(Pairs(PositionalArgs(text))))
  {
  }

  /** A character in none of the words and not the separator is not in
      their join. */
  lemma {:induction false} JoinLacks(ts: seq<string>, c: char)
    requires c != ' '
    requires forall i :: 0 <= i < |ts| ==> c !in ts[i]
    ensures c !in Join(ts, " ")
  {
    if |ts| > 1 {
      JoinLacks(ts[1..], c);
    }
  }

  /** Pairs of plain names and non-empty values all become assignments,
      which taken together assign `PairMap`. */
  lemma {:induction false} PairsAssign(flat: seq<string>)
    requires |flat| % 2 == 0 && NamedWords(flat)
    ensures PlainSets(PairSteps(Pairs(flat)))
    ensures SetsAsMap(PairSteps(Pairs(flat))) == PairMap(flat)
    decreases |flat|
  {
    if flat != [] {
      var rest := flat[2..];
      forall i | 0 <= i < |rest|
        ensures rest[i] != [] && (i % 2 == 0 ==> PlainName(rest[i]))
      {
        assert rest[i] == flat[i + 2];
      }
      PairsAssign(rest);
      assert Pairs(flat) == [(flat[0], Str(flat[1]))] + Pairs(rest);
      assert PairSteps(Pairs(flat)) == [Set(flat[0], Str(flat[1]))] + PairSteps(Pairs(rest));
      assert PlainSets([Set(flat[0], Str(flat[1]))]);
      PlainSetsAppend([Set(flat[0], Str(flat[1]))], PairSteps(Pairs(rest)));
    }
  }

  /** Non-empty words whose names, at the even places, are ordinary
      attribute names. */
  predicate NamedWords(flat: seq<string>) {
    forall i :: 0 <= i < |flat| ==> flat[i] != [] && (i % 2 == 0 ==> PlainName(flat[i]))
  }

  /** Pairing distributes over a concatenation of even-length lists. */
  lemma {:induction false} PairsAppend(a: seq<string>, b: seq<string>)
    requires |a| % 2 == 0 && |b| % 2 == 0
    ensures Pairs(a + b) == Pairs(a) + Pairs(b)
    decreases |a|
  {
    if a == [] {
      assert a + b == b;
    } else {
      assert (a + b)[2..] == a[2..] + b;
      PairsAppend(a[2..], b);
    }
  }

  /** The checks distribute over a concatenation. */
  lemma {:induction false} PairStepsAppend(a: seq<(string, Value)>, b: seq<(string, Value)>)
    ensures PairSteps(a + b) == PairSteps(a) + PairSteps(b)
    decreases |a|
  {
    if a == [] {
      assert a + b == b;
    } else {
      assert (a + b)[1..] == a[1..] + b;
      PairStepsAppend(a[1..], b);
    }
  }

  /** Distinct plain words without braces: the steps are the pairs' checks. */
  lemma UpdateStepsOfWords(words: seq<string>, eval: string -> EvalOutcome)
    requires PositionalText(words)
    ensures UpdateSteps(Join(words, " "), eval) == Some(PairSteps(Pairs(Padded(words))))
  {
    JoinLacks(words, '{');
    PositionalPath(Join(words, " "), eval);
    PositionalWords(words);
  }

  /** Plain assignments followed by an error: the assignments are made and
      the error stops the handler. */
  lemma ApplyPlainThenStop(o: Obj, steps: seq<Step>, toFloat: Value -> Option<Float>)
    requires WellFormed(o)
    requires steps != [] && steps[|steps| - 1].Stop?
    requires PlainSets(steps[..|steps| - 1])
    ensures ApplySteps(o, steps, toFloat)
         == Halted(o.(attrs := o.attrs + SetsAsMap(steps[..|steps| - 1])), steps[|steps| - 1].msg)
  {
    var n := |steps| - 1;
    assert steps == steps[..n] + [steps[n]];
    ApplyPlainPrefix(o, steps[..n], [steps[n]], toFloat);
  }

  /** `do_update` once its steps have all been applied. */
  lemma DoUpdateApplied(w: World, arg: string, env: Env, a: Args, steps: seq<Step>, o': Obj)
    requires Sound(w.objects)
    requires Validate(arg, NeedId) == Success(a)
    requires Key(a.cls, a.id) in w.objects
    requires UpdateSteps(a.rest, env.eval) == Some(steps)
    requires ApplySteps(w.objects[Key(a.cls, a.id)], steps, env.toFloat) == Applied(o')
    ensures DoUpdate(w, arg, env)
         == AfterSave(SaveUpdated(w, Key(a.cls, a.id), o', env), Silent)
  {
  }

  /** `do_update` once a step has stopped it. */
  lemma DoUpdateHalted(w: World, arg: string, env: Env, a: Args, steps: seq<Step>, partial: Obj, msg: string)
    requires Sound(w.objects)
    requires Validate(arg, NeedId) == Success(a)
    requires Key(a.cls, a.id) in w.objects
    requires UpdateSteps(a.rest, env.eval) == Some(steps)
    requires ApplySteps(w.objects[Key(a.cls, a.id)], steps, env.toFloat) == Halted(partial, msg)
    ensures DoUpdate(w, arg, env) == Done(w.(objects := w.objects[Key(a.cls, a.id) := partial]), Error(msg))
  {
  }

  /** `update C id n1 v1 ... nk vk` with distinct plain words assigns each
      name its value, stamps `updated_at` and rewrites the file; nothing
      else changes. */
  lemma UpdateAssignsPairs(w: World, cls: string, id: string, words: seq<string>, env: Env)
    requires Sound(w.objects)
    requires cls in Classes && id != [] && ' ' !in id
    requires Key(cls, id) in w.objects && KeyOf(w.objects[Key(cls, id)]) == Key(cls, id)
    requires |words| % 2 == 0 && NamedPairs(words)
    ensures var k := Key(cls, id);
      var o := w.objects[k];
      DoUpdate(w, cls + " " + id + " " + Join(words, " "), env)
        == AfterSave(Commit(w.(objects := w.objects[k := o.(attrs := o.attrs + PairMap(words), updatedAt := At(env.tSave))]), env.codec), Silent)
  {
    var k := Key(cls, id);
    var o := w.objects[k];
    var text := Join(words, " ");
    assert WellFormed(o);
    ValidateFields(cls, id, text);
    AssignPlan(o, words, env);
    var o' := o.(attrs := o.attrs + PairMap(words));
    DoUpdateApplied(w, cls + " " + id + " " + text, env, Args(cls, id, text), PairSteps(Pairs(words)), o');
    SaveUnderSameKey(w, k, o', env);
  }

  /** The steps of distinct plain pairs, and what applying them does. */
  lemma AssignPlan(o: Obj, words: seq<string>, env: Env)
    requires WellFormed(o)
    requires |words| % 2 == 0 && NamedPairs(words)
    ensures UpdateSteps(Join(words, " "), env.eval) == Some(PairSteps(Pairs(words)))
    ensures ApplySteps(o, PairSteps(Pairs(words)), env.toFloat)
         == Applied(o.(attrs := o.attrs + PairMap(words)))
  {
    UpdateStepsOfWords(words, env.eval);
    assert Padded(words) == words;
    NamedPairsWords(words);
    PairsAssign(words);
    ApplyPlainSets(o, PairSteps(Pairs(words)), env.toFloat);
  }

  /** The same with quoted words: each word is read with its surrounding
      quotes and commas trimmed, so `update State S1 name "Nevada"` assigns
      `Nevada` to `name`. */
  lemma {:induction false} UpdateAssignsQuoted(w: World, cls: string, id: string, words: seq<string>, env: Env)
    requires Sound(w.objects)
    requires cls in Classes && id != [] && ' ' !in id
    requires Key(cls, id) in w.objects && KeyOf(w.objects[Key(cls, id)]) == Key(cls, id)
    requires words != [] && |words| % 2 == 0 && Tokens(words)
    requires forall i :: 0 <= i < |words| ==> '{' !in words[i]
    requires Distinct(TrimAll(words)) && NamedWords(TrimAll(words))
    ensures var k := Key(cls, id);
      var o := w.objects[k];
      DoUpdate(w, cls + " " + id + " " + Join(words, " "), env)
        == AfterSave(Commit(w.(objects := w.objects[k := o.(attrs := o.attrs + PairMap(TrimAll(words)), updatedAt := At(env.tSave))]), env.codec), Silent)
  {
    var o := w.objects[Key(cls, id)];
    var flat := TrimAll(words);
    assert WellFormed(o);
    QuotedPlan(o, words, env);
    assert |flat| % 2 == 0;
    UpdateByPlan(w, cls, id, Join(words, " "), flat, env);
  }

  /** `update C id text` whose text yields the checks of `flat` and whose
      assignments all go through: the pairs are assigned and the object is
      saved under its key. */
  lemma UpdateByPlan(w: World, cls: string, id: string, text: string, flat: seq<string>, env: Env)
    requires Sound(w.objects)
    requires cls in Classes && id != [] && ' ' !in id
    requires Key(cls, id) in w.objects && KeyOf(w.objects[Key(cls, id)]) == Key(cls, id)
    requires |flat| % 2 == 0
    requires UpdateSteps(text, env.eval) == Some(PairSteps(Pairs(flat)))
    requires var o := w.objects[Key(cls, id)];
      ApplySteps(o, PairSteps(Pairs(flat)), env.toFloat) == Applied(o.(attrs := o.attrs + PairMap(flat)))
    ensures var k := Key(cls, id);
      var o := w.objects[k];
      DoUpdate(w, cls + " " + id + " " + text, env)
        == AfterSave(Commit(w.(objects := w.objects[k := o.(attrs := o.attrs + PairMap(flat), updatedAt := At(env.tSave))]), env.codec), Silent)
  {
    var k := Key(cls, id);
    var o := w.objects[k];
    ValidateFields(cls, id, text);
    var o' := o.(attrs := o.attrs + PairMap(flat));
    DoUpdateApplied(w, cls + " " + id + " " + text, env, Args(cls, id, text), PairSteps(Pairs(flat)), o');
    SaveUnderSameKey(w, k, o', env);
  }

  /** The steps of quoted pairs, and what applying them does. */
  lemma {:induction false} QuotedPlan(o: Obj, words: seq<string>, env: Env)
    requires WellFormed(o)
    requires words != [] && |words| % 2 == 0 && Tokens(words)
    requires forall i :: 0 <= i < |words| ==> '{' !in words[i]
    requires Distinct(TrimAll(words)) && NamedWords(TrimAll(words))
    ensures UpdateSteps(Join(words, " "), env.eval) == Some(PairSteps(Pairs(TrimAll(words))))
    ensures ApplySteps(o, PairSteps(Pairs(TrimAll(words))), env.toFloat)
         == Applied(o.(attrs := o.attrs + PairMap(TrimAll(words))))
  {
    var flat := TrimAll(words);
    JoinLacks(words, '{');
    PositionalPath(Join(words, " "), env.eval);
    PositionalTrimmed(words);
    assert Padded(flat) == flat;
    PairsAssign(flat);
    ApplyPlainSets(o, PairSteps(Pairs(flat)), env.toFloat);
  }

  /** Saving an object that is already stored under its own key. */
  lemma SaveUnderSameKey(w: World, k: string, o: Obj, env: Env)
    requires Sound(w.objects) && k in w.objects && WellFormed(o)
    requires KeyOf(o) == k
    ensures SaveUpdated(w, k, o, env) == Commit(w.(objects := w.objects[k := o.(updatedAt := At(env.tSave))]), env.codec)
  {
    var t := Touch(o, env.tSave);
    SavedStore(w.(objects := w.objects[k := t]), o, env.tSave, env.codec);
    assert w.objects[k := t][k := t] == w.objects[k := t];
  }

  /** No attribute text gives the single step "name missing". */
  lemma EmptyTextSteps(eval: string -> EvalOutcome)
    ensures UpdateSteps([], eval) == Some([Stop(NoAttrName)])
  {
    assert StripLeft([], Spaces) == [];
    assert SplitWs([]) == [];
    assert TrimAll([]) == [];
    assert PositionalArgs([]) == ["", ""];
    assert Pairs(["", ""]) == [("", Str(""))];
    assert PairSteps([("", Str(""))]) == [Stop(NoAttrName)];
  }

  /** `update C id` with no attribute text reports the missing name and
      changes nothing. */
  lemma UpdateWithoutName(w: World, cls: string, id: string, env: Env)
    requires Sound(w.objects)
    requires cls in Classes && id != [] && ' ' !in id
    requires Key(cls, id) in w.objects
    ensures DoUpdate(w, cls + " " + id, env) == Done(w, Error(NoAttrName))
  {
    var k := Key(cls, id);
    ValidateIdOnly(cls, id);
    EmptyTextSteps(env.eval);
    DoUpdateHalted(w, cls + " " + id, env, Args(cls, id, []), [Stop(NoAttrName)], w.objects[k], NoAttrName);
    assert w.objects[k := w.objects[k]] == w.objects;
  }

  /** `update C id created_at v n` (or `updated_at`) assigns the timestamp
      the text `v`, then stops at the missing value of `n`: the reply is the
      error, the file is untouched, but the object in memory keeps the text
      in place of its `datetime`. From then on every `save` of another
      object raises and leaves the file empty. */
  lemma HaltedStampBreaksLaterSaves(w: World, cls: string, id: string, stamp: string, v: string, n: string,
                                    env: Env, o: Obj)
    requires Sound(w.objects)
    requires cls in Classes && id != [] && ' ' !in id
    requires Key(cls, id) in w.objects
    requires stamp == CreatedKey || stamp == UpdatedKey
    requires PositionalText([stamp, v, n])
    requires KeyOf(o) != Key(cls, id)
    ensures var r := DoUpdate(w, cls + " " + id + " " + Join([stamp, v, n], " "), env);
      && r.Done? && r.out == Error(NoAttrVal)
      && r.world.disk == w.disk
      && Key(cls, id) in r.world.objects
      && (stamp == CreatedKey ==> r.world.objects[Key(cls, id)].createdAt == Replaced(Str(v)))
      && (stamp == UpdatedKey ==> r.world.objects[Key(cls, id)].updatedAt == Replaced(Str(v)))
      && SaveInstance(r.world, o, env.tSave, env.codec).Raised?
      && SaveInstance(r.world, o, env.tSave, env.codec).error == NotDatetime
      && SaveInstance(r.world, o, env.tSave, env.codec).world.disk == EmptyFile
  {
    var k := Key(cls, id);
    var words := [stamp, v, n];
    var text := Join(words, " ");
    assert WellFormed(w.objects[k]);
    ValidateFields(cls, id, text);
    var steps := [Set(stamp, Str(v)), Stop(NoAttrVal)];
    var partial := StampPlan(w.objects[k], stamp, v, n, env);
    DoUpdateHalted(w, cls + " " + id + " " + text, env, Args(cls, id, text), steps, partial, NoAttrVal);
    StaleStampBreaksSave(w.(objects := w.objects[k := partial]), o, env.tSave, env.codec, k);
  }

  /** `update C id {"n": v}` where `v` is a value `json.dump` rejects (a
      set, say): the object takes the value, then `save` raises and leaves
      the file cut short. */
  lemma UnencodableUpdateCrashes(w: World, cls: string, id: string, dict: string, name: string, v: Value, env: Env)
    requires Sound(w.objects) && AllDated(w.objects)
    requires cls in Classes && id != [] && ' ' !in id && Key(cls, id) in w.objects
    requires '{' in dict && '}' in dict
    requires env.eval(dict) == EvDict([(name, v)])
    requires name != [] && PlainName(name) && name != ClassTag && name != SaState
    requires v.Opaque? && v.truthy && v.json.Refused?
    ensures DoUpdate(w, cls + " " + id + " " + dict, env) == Crash(NotSerialisable, Garbled)
  {
    var k := Key(cls, id);
    var steps := [Set(name, v)];
    ValidateFields(cls, id, dict);
    OnePairSteps(dict, name, v, env.eval);
    var o := w.objects[k];
    assert WellFormed(o);
    ApplyPlainSets(o, steps, env.toFloat);
    var o' := o.(attrs := o.attrs + SetsAsMap(steps));
    DoUpdateApplied(w, cls + " " + id + " " + dict, env, Args(cls, id, dict), steps, o');
    assert o'.attrs[name] == v;
    UnencodableSaveUpdated(w, k, o', env, name);
  }

  /** A dictionary of one pair with a name and a truthy value gives the one
      assignment. */
  lemma OnePairSteps(dict: string, name: string, v: Value, eval: string -> EvalOutcome)
    requires '{' in dict && '}' in dict
    requires eval(dict) == EvDict([(name, v)])
    requires name != [] && Truthy(v)
    ensures UpdateSteps(dict, eval) == Some([Set(name, v)])
  {
    assert PairSteps([(name, v)]) == [Set(name, v)];
  }

  /** Saving an updated object that holds a value `json.dump` rejects raises
      and leaves the file cut short. */
  lemma UnencodableSaveUpdated(w: World, k: string, o: Obj, env: Env, name: string)
    requires Sound(w.objects) && k in w.objects && WellFormed(o)
    requires AllDated(w.objects) && o.createdAt.At?
    requires name in o.attrs && name !in {IdKey, CreatedKey, UpdatedKey, ClassTag, SaState}
    requires !JsonEncodable(o.attrs[name])
    ensures SaveUpdated(w, k, o, env).Raised?
    ensures SaveUpdated(w, k, o, env).error == NotJson
    ensures SaveUpdated(w, k, o, env).world.disk == Garbled
  {
    var s := SaveUpdated(w, k, o, env).world.objects;
    assert AllDated(s);
    assert ToDict(s[k], env.codec)[name] == o.attrs[name];
  }

  /** The steps of `stamp v n`, and what applying them does: the stamp is
      replaced by the text, then the missing value stops the loop. */
  lemma StampPlan(o: Obj, stamp: string, v: string, n: string, env: Env) returns (partial: Obj)
    requires WellFormed(o)
    requires stamp == CreatedKey || stamp == UpdatedKey
    requires PositionalText([stamp, v, n])
    ensures UpdateSteps(Join([stamp, v, n], " "), env.eval) == Some([Set(stamp, Str(v)), Stop(NoAttrVal)])
    ensures ApplySteps(o, [Set(stamp, Str(v)), Stop(NoAttrVal)], env.toFloat) == Halted(partial, NoAttrVal)
    ensures !Dated(partial)
    ensures stamp == CreatedKey ==> partial == o.(createdAt := Replaced(Str(v)))
    ensures stamp == UpdatedKey ==> partial == o.(updatedAt := Replaced(Str(v)))
  {
    StampSteps(stamp, v, n, env.eval);
    partial := StampApply(o, stamp, v, env);
  }

  /** The positional words `stamp v n` give an assignment, then the missing
      value. */
  lemma StampSteps(stamp: string, v: string, n: string, eval: string -> EvalOutcome)
    requires PositionalText([stamp, v, n])
    ensures UpdateSteps(Join([stamp, v, n], " "), eval) == Some([Set(stamp, Str(v)), Stop(NoAttrVal)])
  {
    UpdateStepsOfWords([stamp, v, n], eval);
    ThreeWords(stamp, v, n);
    PairsFour(stamp, v, n, "");
    PairStepsTwo(stamp, v, n);
  }

  /** Three positional words are non-empty and are padded with one `""`. */
  lemma ThreeWords(a: string, b: string, c: string)
    requires PlainWords([a, b, c])
    ensures a != [] && b != [] && c != []
    ensures Padded([a, b, c]) == [a, b, c, ""]
  {
    assert [a, b, c][0] == a && [a, b, c][1] == b && [a, b, c][2] == c;
    PadThree(a, b, c);
  }

  lemma PadThree(a: string, b: string, c: string)
    ensures Padded([a, b, c]) == [a, b, c, ""]
  {
    assert [a, b, c] + [""] == [a, b, c, ""];
  }

  /** A complete pair, then a name without a value. */
  lemma PairStepsTwo(a: string, b: string, c: string)
    requires a != [] && b != [] && c != []
    ensures PairSteps([(a, Str(b)), (c, Str(""))]) == [Set(a, Str(b)), Stop(NoAttrVal)]
  {
    var ps := [(a, Str(b)), (c, Str(""))];
    assert ps[1..] == [(c, Str(""))];
    assert ps[1..][1..] == [];
    assert PairSteps([(c, Str(""))]) == [Stop(NoAttrVal)] + PairSteps([]);
  }

  /** Assigning a timestamp, then stopping. */
  lemma StampApply(o: Obj, stamp: string, v: string, env: Env) returns (partial: Obj)
    requires WellFormed(o)
    requires stamp == CreatedKey || stamp == UpdatedKey
    ensures ApplySteps(o, [Set(stamp, Str(v)), Stop(NoAttrVal)], env.toFloat) == Halted(partial, NoAttrVal)
    ensures !Dated(partial)
    ensures stamp == CreatedKey ==> partial == o.(createdAt := Replaced(Str(v)))
    ensures stamp == UpdatedKey ==> partial == o.(updatedAt := Replaced(Str(v)))
  {
    partial := Assign(o, stamp, Str(v));
    var steps := [Set(stamp, Str(v)), Stop(NoAttrVal)];
    StampUntyped(stamp);
    assert steps[1..] == [Stop(NoAttrVal)];
    assert ApplySteps(partial, [Stop(NoAttrVal)], env.toFloat) == Halted(partial, NoAttrVal);
  }

  /** The timestamp names are not in the `types` table. */
  lemma StampUntyped(stamp: string)
    requires stamp == CreatedKey || stamp == UpdatedKey
    ensures stamp !in IntFields && stamp !in FloatFields
  {
    assert |stamp| == 10;
    assert forall f :: f in IntFields ==> |f| != 10;
    assert forall f :: f in FloatFields ==> |f| != 10;
  }

  lemma PairsFour(a: string, b: string, c: string, d: string)
    ensures Pairs([a, b, c, d]) == [(a, Str(b)), (c, Str(d))]
  {
    assert [a, b, c, d][2..] == [c, d];
    assert [c, d][2..] == [];
  }

  /** The steps for words ending in a name: those of the complete pairs,
      then the missing value. */
  lemma TrailingSteps(words: seq<string>)
    requires |words| % 2 == 1 && words[|words| - 1] != []
    ensures var steps := PairSteps(Pairs(Padded(words)));
      && steps != [] && steps[|steps| - 1] == Stop(NoAttrVal)
      && steps[..|steps| - 1] == PairSteps(Pairs(words[..|words| - 1]))
  {
    var init := words[..|words| - 1];
    var last := words[|words| - 1];
    assert Padded(words) == init + [last, ""];
    PairsAppend(init, [last, ""]);
    assert Pairs([last, ""]) == [(last, Str(""))];
    PairStepsAppend(Pairs(init), [(last, Str(""))]);
    assert PairSteps([(last, Str(""))]) == [Stop(NoAttrVal)];
  }

  /** The steps for words ending in a name, in the form the assignment
      lemmas take. */
  lemma TrailingPlan(words: seq<string>)
    requires |words| % 2 == 1 && NamedWords(words)
    ensures |Padded(words)| % 2 == 0
    ensures var steps := PairSteps(Pairs(Padded(words)));
      && steps != [] && steps[|steps| - 1] == Stop(NoAttrVal)
      && PlainSets(steps[..|steps| - 1])
      && SetsAsMap(steps[..|steps| - 1]) == PairMap(words[..|words| - 1])
  {
    var init := words[..|words| - 1];
    PaddedEven(words);
    TrailingSteps(words);
    FrontPairs(words);
    PairsAssign(init);
  }

  /** The words before a trailing name are complete pairs of the same kind. */
  lemma FrontPairs(words: seq<string>)
    requires |words| % 2 == 1 && NamedWords(words)
    ensures |words[..|words| - 1]| % 2 == 0 && NamedWords(words[..|words| - 1])
  {
    var init := words[..|words| - 1];
    forall i | 0 <= i < |init|
      ensures init[i] != [] && (i % 2 == 0 ==> PlainName(init[i]))
    {
      assert init[i] == words[i];
    }
  }

  /** `update C id n1 v1 ... n` ending in a name: the pairs before it are
      assigned in memory, the missing value is reported, and the file is
      not rewritten. */
  lemma UpdateTrailingName(w: World, cls: string, id: string, words: seq<string>, env: Env)
    requires Sound(w.objects)
    requires cls in Classes && id != [] && ' ' !in id
    requires Key(cls, id) in w.objects
    requires |words| % 2 == 1 && NamedPairs(words)
    ensures var k := Key(cls, id);
      var o := w.objects[k];
      DoUpdate(w, cls + " " + id + " " + Join(words, " "), env)
        == Done(w.(objects := w.objects[k := o.(attrs := o.attrs + PairMap(words[..|words| - 1]))]), Error(NoAttrVal))
  {
    var k := Key(cls, id);
    var o := w.objects[k];
    var text := Join(words, " ");
    assert WellFormed(o);
    ValidateFields(cls, id, text);
    TrailingApply(o, words, env);
    DoUpdateHalted(w, cls + " " + id + " " + text, env, Args(cls, id, text), PairSteps(Pairs(Padded(words))),
                   o.(attrs := o.attrs + PairMap(words[..|words| - 1])), NoAttrVal);
  }

  /** The steps of distinct plain words ending in a name, and what applying
      them does. */
  lemma TrailingApply(o: Obj, words: seq<string>, env: Env)
    requires WellFormed(o)
    requires |words| % 2 == 1 && NamedPairs(words)
    ensures |Padded(words)| % 2 == 0
    ensures UpdateSteps(Join(words, " "), env.eval) == Some(PairSteps(Pairs(Padded(words))))
    ensures ApplySteps(o, PairSteps(Pairs(Padded(words))), env.toFloat)
         == Halted(o.(attrs := o.attrs + PairMap(words[..|words| - 1])), NoAttrVal)
  {
    UpdateStepsOfWords(words, env.eval);
    NamedPairsWords(words);
    TrailingPlan(words);
    ApplyPlainThenStop(o, PairSteps(Pairs(Padded(words))), env.toFloat);
  }

  /** The dictionary form assigns the same pairs as the positional form. */
  lemma DictMatchesPositional(w: World, cls: string, id: string, dict: string, words: seq<string>, env: Env)
    requires Sound(w.objects)
    requires cls in Classes && id != [] && ' ' !in id
    requires |words| % 2 == 0 && PositionalText(words)
    requires '{' in dict && '}' in dict
    requires env.eval(dict) == EvDict(Pairs(words))
    ensures DoUpdate(w, cls + " " + id + " " + dict, env) == DoUpdate(w, cls + " " + id + " " + Join(words, " "), env)
  {
    ValidateFields(cls, id, dict);
    ValidateFields(cls, id, Join(words, " "));
    DictStepsMatch(dict, words, env.eval);
    SameSteps(w, cls + " " + id + " " + dict, cls + " " + id + " " + Join(words, " "), env);
  }

  /** A dictionary that evaluates to the pairs of the words gives the steps
      the words give. */
  lemma DictStepsMatch(dict: string, words: seq<string>, eval: string -> EvalOutcome)
    requires |words| % 2 == 0 && PositionalText(words)
    requires '{' in dict && '}' in dict
    requires eval(dict) == EvDict(Pairs(words))
    ensures UpdateSteps(dict, eval) == UpdateSteps(Join(words, " "), eval)
  {
    UpdateStepsOfWords(words, eval);
    assert Padded(words) == words;
    DictGlue(dict, Join(words, " "), Pairs(words), eval);
  }

  /** A dictionary text whose pairs give the steps another text gives. */
  lemma DictGlue(dict: string, text: string, pairs: seq<(string, Value)>, eval: string -> EvalOutcome)
    requires UpdateSteps(text, eval) == Some(PairSteps(pairs))
    requires '{' in dict && '}' in dict
    requires eval(dict) == EvDict(pairs)
    ensures UpdateSteps(dict, eval) == UpdateSteps(text, eval)
  {
  }

  /** Two update lines that validate to the same class and id and yield the
      same steps do the same thing. */
  lemma SameSteps(w: World, a: string, b: string, env: Env)
    requires Sound(w.objects)
    requires Validate(a, NeedId).Success? && Validate(b, NeedId).Success?
    requires Validate(a, NeedId).value.cls == Validate(b, NeedId).value.cls
    requires Validate(a, NeedId).value.id == Validate(b, NeedId).value.id
    requires UpdateSteps(Validate(a, NeedId).value.rest, env.eval) == UpdateSteps(Validate(b, NeedId).value.rest, env.eval)
    ensures DoUpdate(w, a, env) == DoUpdate(w, b, env)
  {
  }
}

=== FILE: create_laws.dfy ===
/**
 * What `create` promises: a line of encoded `name="value"` parameters
 * stores exactly those values on the new object, an empty value stops the
 * command before anything is stored, and `show` then sees what `create`
 * and `destroy` left.
 */
module CreateLaws {
  import opened Common
  import opened Values
  import opened PyStr
  import opened BaseModel
  import opened FileStorage
  import opened Console
  import opened ConsoleLaws

  /** A value a user can type as one parameter: encodable, and without
      whitespace other than the spaces encoding turns into `_`. */
  predicate Typable(value: string) {
    Encodable(value) && forall i :: 0 <= i < |value| ==> value[i] == ' ' || !IsSpace(value[i])
  }

  /** A parameter name `create` stores as written. */
  predicate ParamName(name: string) {
    '=' !in name && Spaceless(name) && PlainName(name)
  }

  /** Names paired with typable values. */
  predicate Params(names: seq<string>, values: seq<string>) {
    |names| == |values| && forall i :: 0 <= i < |names| ==> ParamName(names[i]) && Typable(values[i])
  }

  /** The parameter tokens for the names and values, in order. */
  function EncodeAll(names: seq<string>, values: seq<string>): (r: seq<string>)
    requires |names| == |values|
    ensures |r| == |names|
    decreases |names|
  {
    if names == [] then []
    else [EncodeParam(names[0], values[0])] + EncodeAll(names[1..], values[1..])
  }

  /** The attributes the parameters describe, later names winning. */
  function ParamMap(names: seq<string>, values: seq<string>): map<string, Value>
    requires |names| == |values|
    decreases |names|
  {
    if names == [] then map[]
    else map[names[0] := Str(values[0])] + ParamMap(names[1..], values[1..])
  }

  /** The parameters are stored as text. */
  lemma {:induction false} ParamMapText(names: seq<string>, values: seq<string>)
    requires |names| == |values|
    ensures forall a :: a in ParamMap(names, values) ==> ParamMap(names, values)[a].Str?
    decreases |names|
  {
    if names != [] {
      ParamMapText(names[1..], values[1..]);
    }
  }

  /** The argument of `create` for a class and its parameter tokens. */
  function CreateLine(cls: string, toks: seq<string>): string {
    cls + " " + Join(toks, " ")
  }

  /** The instance `create` builds before saving it. */
  function Built(cls: string, names: seq<string>, values: seq<string>, env: Env): Obj
    requires |names| == |values|
  {
    Obj(cls, env.newId, At(env.tNew), At(env.tNew), ParamMap(names, values))
  }

  // ---------------------------------------------------------------------
  // tokens

  /** An encoded parameter is one whitespace-free token. */
  lemma EncodedToken(name: string, value: string)
    requires '=' !in name && Spaceless(name) && Typable(value)
    ensures EncodeParam(name, value) != [] && Spaceless(EncodeParam(name, value))
  {
    var enc := ReplaceChar(value, ' ', '_');
    var tok := EncodeParam(name, value);
    assert tok == name + ['=', '"'] + enc + ['"'];
    forall i | 0 <= i < |tok|
      ensures !IsSpace(tok[i])
    {
      if i < |name| {
        assert tok[i] == name[i];
      } else if i < |name| + 2 {
        assert tok[i] in "=\"";
      } else if i < |name| + 2 + |enc| {
        assert tok[i] == enc[i - |name| - 2];
      } else {
        assert tok[i] == '"';
      }
    }
  }

  /** The tokens of well-formed parameters can be joined and split again. */
  lemma {:induction false} EncodeAllTokens(names: seq<string>, values: seq<string>)
    requires Params(names, values)
    ensures Tokens(EncodeAll(names, values))
    decreases |names|
  {
    if names != [] {
      EncodedToken(names[0], values[0]);
      ParamsTail(names, values);
      EncodeAllTokens(names[1..], values[1..]);
      TokensCons(EncodeParam(names[0], values[0]), EncodeAll(names[1..], values[1..]));
    }
  }

  lemma ParamsTail(names: seq<string>, values: seq<string>)
    requires names != [] && Params(names, values)
    ensures ParamName(names[0]) && Typable(values[0]) && Params(names[1..], values[1..])
  {
    assert forall i :: 0 <= i < |names| - 1 ==> names[1..][i] == names[i + 1] && values[1..][i] == values[i + 1];
  }

  lemma TokensAppend(a: seq<string>, b: seq<string>)
    requires Tokens(a) && Tokens(b)
    ensures Tokens(a + b)
  {
    forall i | 0 <= i < |a + b|
      ensures (a + b)[i] != [] && Spaceless((a + b)[i])
    {
      if i < |a| {
        assert (a + b)[i] == a[i];
      } else {
        assert (a + b)[i] == b[i - |a|];
      }
    }
  }

  // ---------------------------------------------------------------------
  // steps

  /** The steps of the encoded parameters set each name to its value. */
  lemma {:induction false} CreateStepsEncoded(names: seq<string>, values: seq<string>)
    requires Params(names, values)
    ensures PlainSets(CreateSteps(EncodeAll(names, values)))
    ensures SetsAsMap(CreateSteps(EncodeAll(names, values))) == ParamMap(names, values)
    decreases |names|
  {
    if names != [] {
      EncodedStep(names, values);
      CreateStepsEncoded(names[1..], values[1..]);
      var s := Set(names[0], Str(values[0]));
      var rest := CreateSteps(EncodeAll(names[1..], values[1..]));
      SetsCons(s, rest);
      PlainSetsAppend([s], rest);
    }
  }

  /** The first encoded parameter contributes the assignment of its value. */
  lemma EncodedStep(names: seq<string>, values: seq<string>)
    requires names != [] && Params(names, values)
    ensures PlainSets([Set(names[0], Str(values[0]))]) && Params(names[1..], values[1..])
    ensures CreateSteps(EncodeAll(names, values))
         == [Set(names[0], Str(values[0]))] + CreateSteps(EncodeAll(names[1..], values[1..]))
  {
    ParamsTail(names, values);
    ParamStepOf(names[0], values[0]);
    HeadTail(EncodeParam(names[0], values[0]), EncodeAll(names[1..], values[1..]));
  }

  /** An encoded parameter is one plain assignment. */
  lemma ParamStepOf(name: string, value: string)
    requires ParamName(name) && Typable(value)
    ensures ParamStep(EncodeParam(name, value)) == [Set(name, Str(value))]
    ensures PlainSets([Set(name, Str(value))])
  {
    DecodeEncodeParam(name, value);
  }

  lemma HeadTail<T>(x: T, s: seq<T>)
    ensures ([x] + s)[0] == x && ([x] + s)[1..] == s
  {
  }

  lemma SetsCons(s: Step, rest: seq<Step>)
    requires s.Set?
    ensures SetsAsMap([s] + rest) == map[s.name := s.value] + SetsAsMap(rest)
  {
    assert ([s] + rest)[1..] == rest;
  }

  /** The steps of consecutive token lists follow each other. */
  lemma {:induction false} CreateStepsAppend(a: seq<string>, b: seq<string>)
    ensures CreateSteps(a + b) == CreateSteps(a) + CreateSteps(b)
    decreases |a|
  {
    if a == [] {
      assert a + b == b;
    } else {
      assert (a + b)[0] == a[0];
      assert (a + b)[1..] == a[1..] + b;
      CreateStepsAppend(a[1..], b);
      assert ParamStep(a[0]) + (CreateSteps(a[1..]) + CreateSteps(b))
          == (ParamStep(a[0]) + CreateSteps(a[1..])) + CreateSteps(b);
    }
  }

  /** `name=""` decodes to a missing value. */
  lemma EmptyParam(name: string)
    requires '=' !in name
    ensures DecodeParam(name + "=\"\"") == Missing
  {
    var tok := name + "=\"\"";
    IndexOfAfter(name, "=\"\"", '=');
    assert tok[|name|] == '=';
    assert tok[|name| + 1..] == "\"\"";
    assert IndexOf("\"\"", '=') == 2;
    assert "\"\""[..2] == ['"'] + [] + ['"'];
    StripWrapped(['"'], [], ['"'], Chars(IdQuotes));
  }

  // ---------------------------------------------------------------------
  // do_create

  /** `do_create` once its steps have all been applied. */
  lemma DoCreateApplied(w: World, arg: string, env: Env, a: Args, o: Obj)
    requires Validate(arg, CreateOnly) == Success(a) && a.cls in Classes
    requires ApplySteps(Fresh(a.cls, env.newId, env.tNew), CreateSteps(SplitWs(a.rest)), env.toFloat)
          == Applied(o)
    ensures DoCreate(w, arg, env) == AfterSave(SaveInstance(w, o, env.tSave, env.codec), NewId(o.id))
  {
  }

  /** `do_create` once a step has stopped it. */
  lemma DoCreateHalted(w: World, arg: string, env: Env, a: Args, o: Obj, msg: string)
    requires Validate(arg, CreateOnly) == Success(a) && a.cls in Classes
    requires ApplySteps(Fresh(a.cls, env.newId, env.tNew), CreateSteps(SplitWs(a.rest)), env.toFloat)
          == Halted(o, msg)
    ensures DoCreate(w, arg, env) == Done(w, Error(msg))
  {
  }

  /** `create C n1="v1" ... nk="vk"` saves a new `C` under the fresh id
      whose attributes are exactly the decoded parameters, and prints that
      id. */
  lemma CreateStoresParams(w: World, cls: string, names: seq<string>, values: seq<string>, env: Env)
    requires cls in Classes && Params(names, values)
    ensures DoCreate(w, CreateLine(cls, EncodeAll(names, values)), env)
         == AfterSave(SaveInstance(w, Built(cls, names, values, env), env.tSave, env.codec), NewId(env.newId))
  {
    var text := Join(EncodeAll(names, values), " ");
    ValidateCreate(cls, text);
    CreatePlan(cls, names, values, env);
    DoCreateApplied(w, CreateLine(cls, EncodeAll(names, values)), env, Args(cls, [], text), Built(cls, names, values, env));
  }

  /** The parameters of the create line, applied to the fresh instance. */
  lemma CreatePlan(cls: string, names: seq<string>, values: seq<string>, env: Env)
    requires Params(names, values)
    ensures ApplySteps(Fresh(cls, env.newId, env.tNew), CreateSteps(SplitWs(Join(EncodeAll(names, values), " "))), env.toFloat)
         == Applied(Built(cls, names, values, env))
  {
    EncodeAllTokens(names, values);
    SplitJoin(EncodeAll(names, values));
    CreateStepsEncoded(names, values);
    ApplyPlainSets(Fresh(cls, env.newId, env.tNew), CreateSteps(EncodeAll(names, values)), env.toFloat);
    EmptyMerge(ParamMap(names, values));
  }

  /** A parameter with an empty value after well-formed ones prints the
      missing-value error and stores nothing, whatever follows it. */
  lemma CreateEmptyValue(w: World, cls: string, names: seq<string>, values: seq<string>,
                         name: string, more: seq<string>, env: Env)
    requires cls in Classes && Params(names, values)
    requires ParamName(name) && Tokens(more)
    ensures DoCreate(w, CreateLine(cls, EncodeAll(names, values) + [name + "=\"\""] + more), env)
         == Done(w, Error(NoAttrVal))
  {
    var toks := EncodeAll(names, values) + [name + "=\"\""] + more;
    var text := Join(toks, " ");
    ValidateCreate(cls, text);
    EmptyPlan(cls, names, values, name, more, env);
    DoCreateHalted(w, CreateLine(cls, toks), env, Args(cls, [], text), Built(cls, names, values, env), NoAttrVal);
  }

  /** The parameters of the empty-value line, applied to the fresh instance:
      the well-formed ones are assigned, then the empty one stops. */
  lemma EmptyPlan(cls: string, names: seq<string>, values: seq<string>, name: string, more: seq<string>, env: Env)
    requires Params(names, values) && ParamName(name) && Tokens(more)
    ensures ApplySteps(Fresh(cls, env.newId, env.tNew),
                       CreateSteps(SplitWs(Join(EncodeAll(names, values) + [name + "=\"\""] + more, " "))),
                       env.toFloat)
         == Halted(Built(cls, names, values, env), NoAttrVal)
  {
    EmptyLineSplits(names, values, name, more);
    var steps := EmptyStopSteps(names, values, name, more);
    var made := Fresh(cls, env.newId, env.tNew);
    StopAfterPlain(made, steps, |CreateSteps(EncodeAll(names, values))|, env.toFloat);
    EmptyMerge(ParamMap(names, values));
  }

  lemma EmptyMerge(m: map<string, Value>)
    ensures map[] + m == m
  {
  }

  /** Splitting the empty-value line gives back its tokens. */
  lemma EmptyLineSplits(names: seq<string>, values: seq<string>, name: string, more: seq<string>)
    requires Params(names, values) && ParamName(name) && Tokens(more)
    ensures var toks := EncodeAll(names, values) + [name + "=\"\""] + more;
      SplitWs(Join(toks, " ")) == toks
  {
    EncodeAllTokens(names, values);
    EmptyTokens(name, EncodeAll(names, values), more);
    SplitJoin(EncodeAll(names, values) + [name + "=\"\""] + more);
  }

  /** Plain assignments, then a stop: the assignments are made and the stop
      ends the steps, whatever follows it. */
  lemma StopAfterPlain(o: Obj, steps: seq<Step>, n: nat, toFloat: Value -> Option<Float>)
    requires WellFormed(o)
    requires n < |steps| && steps[n].Stop? && PlainSets(steps[..n])
    ensures ApplySteps(o, steps, toFloat) == Halted(o.(attrs := o.attrs + SetsAsMap(steps[..n])), steps[n].msg)
  {
    assert steps == steps[..n] + steps[n..];
    ApplyPlainPrefix(o, steps[..n], steps[n..], toFloat);
    assert steps[n..][0] == steps[n];
  }

  /** The tokens of the empty-value line are all whitespace-free. */
  lemma EmptyTokens(name: string, front: seq<string>, more: seq<string>)
    requires ParamName(name) && Tokens(front) && Tokens(more)
    ensures Tokens(front + [name + "=\"\""] + more)
  {
    var empty := name + "=\"\"";
    forall i | 0 <= i < |empty|
      ensures !IsSpace(empty[i])
    {
      if i < |name| {
        assert empty[i] == name[i];
      } else {
        assert empty[i] in "=\"\"";
      }
    }
    TokensAppend(front, [empty]);
    TokensAppend(front + [empty], more);
  }

  /** The steps of the empty-value line: the plain assignments, then a stop. */
  lemma EmptyStopSteps(names: seq<string>, values: seq<string>, name: string, more: seq<string>)
      returns (steps: seq<Step>)
    requires Params(names, values) && ParamName(name)
    ensures steps == CreateSteps(EncodeAll(names, values) + [name + "=\"\""] + more)
    ensures var n := |CreateSteps(EncodeAll(names, values))|;
      && n < |steps|
      && steps[..n] == CreateSteps(EncodeAll(names, values))
      && steps[n] == Stop(NoAttrVal)
      && PlainSets(steps[..n])
      && SetsAsMap(steps[..n]) == ParamMap(names, values)
  {
    var front := EncodeAll(names, values);
    CreateStepsEncoded(names, values);
    EmptyLineSteps(front, name, more);
    Around(CreateSteps(front), Stop(NoAttrVal), CreateSteps(more));
    steps := CreateSteps(front + [name + "=\"\""] + more);
  }

  /** The empty value contributes one stop between the steps around it. */
  lemma EmptyLineSteps(front: seq<string>, name: string, more: seq<string>)
    requires '=' !in name
    ensures CreateSteps(front + [name + "=\"\""] + more)
         == CreateSteps(front) + [Stop(NoAttrVal)] + CreateSteps(more)
  {
    var empty := name + "=\"\"";
    EmptyParam(name);
    CreateStepsAppend(front + [empty], more);
    CreateStepsAppend(front, [empty]);
    assert CreateSteps([empty]) == [Stop(NoAttrVal)];
  }

  lemma Around<T>(a: seq<T>, x: T, b: seq<T>)
    ensures |a| < |a + [x] + b|
    ensures (a + [x] + b)[..|a|] == a && (a + [x] + b)[|a|] == x
  {
  }

  /** The decimal text of an integer is a typable value: digits after an
      optional minus sign. */
  lemma IntTextTypable(i: int)
    ensures Typable(IntToString(i))
  {
    var s := IntToString(i);
    assert forall j :: 0 <= j < |s| ==> IsDigit(s[j]) || s[j] == '-' by {
      if i < 0 {
        assert forall j :: 1 <= j < |s| ==> s[j] == NatToString(-i)[j - 1];
      }
    }
  }

  /** The names the `types` table converts with `int` are ordinary words. */
  lemma IntFieldWord(name: string)
    requires name in IntFields
    ensures '=' !in name && Spaceless(name) && Ordinary(name)
  {
    assert |name| != |IdKey| && |name| != |CreatedKey| && |name| != |UpdatedKey|;
    assert LowerWord(name) by {
      if name == "number_rooms" {
      } else if name == "number_bathrooms" {
      } else if name == "max_guest" {
      } else {
      }
    }
  }

  /** Lower-case letters and underscores only. */
  predicate LowerWord(t: string) {
    forall j :: 0 <= j < |t| ==> 'a' <= t[j] <= 'z' || t[j] == '_'
  }

  /** `create C n="<digits>"` for a name the `types` table converts with
      `int` stores the integer itself, not its text. */
  lemma CreateStoresInt(w: World, cls: string, name: string, i: int, env: Env)
    requires cls in Classes && name in IntFields
    ensures DoCreate(w, cls + " " + EncodeParam(name, IntToString(i)), env)
         == AfterSave(SaveInstance(w, Obj(cls, env.newId, At(env.tNew), At(env.tNew), map[name := Int(i)]),
                                  env.tSave, env.codec),
                      NewId(env.newId))
  {
    var tok := EncodeParam(name, IntToString(i));
    ValidateCreate(cls, tok);
    IntPlan(cls, name, i, env);
    DoCreateApplied(w, cls + " " + tok, env, Args(cls, [], tok),
                    Obj(cls, env.newId, At(env.tNew), At(env.tNew), map[name := Int(i)]));
  }

  /** The integer parameter, applied to the fresh instance. */
  lemma IntPlan(cls: string, name: string, i: int, env: Env)
    requires name in IntFields
    ensures ApplySteps(Fresh(cls, env.newId, env.tNew), CreateSteps(SplitWs(EncodeParam(name, IntToString(i)))), env.toFloat)
         == Applied(Obj(cls, env.newId, At(env.tNew), At(env.tNew), map[name := Int(i)]))
  {
    IntTokenSteps(name, i);
    ParseIntRoundTrip(i);
    assert Coerce(name, Str(IntToString(i)), env.toFloat) == Some(Int(i));
    IntFieldWord(name);
    OneConvertedStep(Fresh(cls, env.newId, env.tNew), name, Str(IntToString(i)), Int(i), env.toFloat);
  }

  /** One assignment to an ordinary name of an object with no attributes
      stores the converted value. */
  lemma OneConvertedStep(made: Obj, name: string, v: Value, v': Value, toFloat: Value -> Option<Float>)
    requires WellFormed(made) && made.attrs == map[] && Ordinary(name)
    requires Coerce(name, v, toFloat) == Some(v')
    ensures ApplySteps(made, [Set(name, v)], toFloat) == Applied(made.(attrs := map[name := v']))
  {
    var o := made.(attrs := map[name := v']);
    assert made.attrs[name := v'] == map[name := v'];
    assert Assign(made, name, v') == o;
    assert [Set(name, v)][1..] == [];
    assert ApplySteps(o, [], toFloat) == Applied(o);
  }

  /** The integer parameter is one token that decodes to its text. */
  lemma IntTokenSteps(name: string, i: int)
    requires name in IntFields
    ensures CreateSteps(SplitWs(EncodeParam(name, IntToString(i)))) == [Set(name, Str(IntToString(i)))]
  {
    IntToken(name, i);
    OneTokenSteps(EncodeParam(name, IntToString(i)), name, IntToString(i));
  }

  /** A single whitespace-free token is the only parameter, and gives the
      assignment it decodes to. */
  lemma OneTokenSteps(tok: string, name: string, text: string)
    requires tok != [] && Spaceless(tok) && DecodeParam(tok) == Given(name, text)
    ensures CreateSteps(SplitWs(tok)) == [Set(name, Str(text))]
  {
    SplitJoin([tok]);
    assert SplitWs(tok) == [tok] by {
      assert Join([tok], " ") == tok;
    }
    assert ParamStep(tok) == [Set(name, Str(text))];
    assert CreateSteps([tok]) == ParamStep(tok) + CreateSteps([]);
  }

  /** The integer parameter is a whitespace-free token that decodes to the
      name and the integer's text. */
  lemma IntToken(name: string, i: int)
    requires name in IntFields
    ensures var tok := EncodeParam(name, IntToString(i));
      tok != [] && Spaceless(tok) && DecodeParam(tok) == Given(name, IntToString(i))
  {
    IntFieldWord(name);
    IntTextTypable(i);
    EncodedToken(name, IntToString(i));
    DecodeEncodeParam(name, IntToString(i));
  }

  // ---------------------------------------------------------------------
  // show after create and destroy

  /** After `create`, `show` with the printed id finds the new instance,
      saved with its `updated_at` stamp; the save goes through exactly when
      every other object stored has `datetime` stamps and values JSON can
      encode. */
  lemma CreateThenShow(w: World, cls: string, names: seq<string>, values: seq<string>, env: Env)
    requires cls in Classes && Params(names, values)
    requires env.newId != [] && ' ' !in env.newId
    ensures var out := SaveInstance(w, Built(cls, names, values, env), env.tSave, env.codec);
      && DoCreate(w, CreateLine(cls, EncodeAll(names, values)), env) == AfterSave(out, NewId(env.newId))
      && (out.Fine? <==> AllDated(w.objects - {Key(cls, env.newId)}) && AllEncodable(w.objects - {Key(cls, env.newId)}, env.codec))
      && DoShow(out.world, cls + " " + env.newId)
         == Done(out.world, Shown(Built(cls, names, values, env).(updatedAt := At(env.tSave))))
  {
    CreateStoresParams(w, cls, names, values, env);
    ValidateIdOnly(cls, env.newId);
    SavedUnderKey(w, Built(cls, names, values, env), env.tSave, env.codec);
    ParamMapText(names, values);
    PutStable(w.objects, Key(cls, env.newId), Built(cls, names, values, env).(updatedAt := At(env.tSave)), env.codec);
  }

  /** `save` files the instance, stamped, under its own key. */
  lemma SavedUnderKey(w: World, o: Obj, now: int, codec: TimeCodec)
    ensures SaveInstance(w, o, now, codec).world.objects[KeyOf(o)] == o.(updatedAt := At(now))
  {
  }

  /** After `destroy C id`, `show C id` finds nothing. */
  lemma DestroyThenShow(w: World, cls: string, id: string, codec: TimeCodec)
    requires cls in Classes && id != [] && ' ' !in id
    ensures var r := DoDestroy(w, cls + " " + id, codec);
      r.Done? ==> DoShow(r.world, cls + " " + id) == Done(r.world, Error(NoObj))
  {
    ValidateIdOnly(cls, id);
  }
}

=== FILE: file_storage.dfy ===
/**
 * `FileStorage`: the in-memory object map keyed `"<ClassName>.<id>"`, its
 * serialisation to the backing file and reconstruction from it, and the
 * `BaseModel.save`/`BaseModel.delete` operations that write through it.
 */
module FileStorage {
  import opened Common
  import opened Values
  import opened PyStr
  import opened BaseModel

  /** The registered entity classes (the `classes` tables of the storage
      engine and of the console list the same seven names). */
  const Classes: set<string> := {"BaseModel", "User", "Place", "State", "City", "Amenity", "Review"}

  /** The word `all` names no class. */
  lemma AllUnregistered()
    ensures "all" !in Classes
  {
  }

  type Store = map<string, Obj>

  /** What the JSON file holds once decoded: key to `to_dict` dictionary. */
  type Serialised = map<string, map<string, Value>>

  /** The backing file as `reload` finds it. */
  datatype Disk =
    | NoFile              // `open` raises `IOError`
    | EmptyFile           // `f.read()` returns the empty string
    | Garbled             // text that `json.loads` rejects
    | Saved(data: Serialised)

  /** The storage engine's state: the live objects and the backing file. */
  datatype World = World(objects: Store, disk: Disk)

  /** The `cls` argument of `FileStorage.all`: `None`, a class object, or
      (as the console passes it) a class name as a plain string. */
  datatype ClassArg = AnyClass | ClassObj(name: string) | NameText(text: string)

  /** Every key starts with the class of its object, every object is of a
      registered class, survives `to_dict`, and holds only values that JSON
      gives back unchanged. (A key need not carry its object's current id:
      `update` can change the id of an object filed under its old key.) */
  predicate WellFormedStore(s: Store) {
    ReloadableStore(s) && forall k :: k in s ==> JsonStable(s[k])
  }

  /** Every key starts with the class of its object, and every object is of
      a registered class and survives `to_dict`. */
  predicate ReloadableStore(s: Store) {
    forall k :: k in s ==> ClassOfKey(k) == s[k].cls && s[k].cls in Classes && Persistable(s[k])
  }

  /** `json.dump` accepts the value. */
  predicate JsonEncodable(v: Value) {
    !(v.Opaque? && v.json.Refused?)
  }

  /** `json.load` gives back exactly the value `json.dump` wrote. */
  predicate Exact(v: Value) {
    !v.Opaque? || v.json.Exact?
  }

  /** Every attribute of the object comes back from JSON unchanged. */
  predicate JsonStable(o: Obj) {
    forall a :: a in o.attrs ==> Exact(o.attrs[a])
  }

  /** `json.dump` accepts every value of the dictionary. */
  predicate DictEncodable(d: map<string, Value>) {
    forall a :: a in d ==> JsonEncodable(d[a])
  }

  /** `json.dump` accepts the `to_dict` dictionary of every stored object
      whose timestamps are `datetime`s. */
  predicate AllEncodable(s: Store, codec: TimeCodec) {
    forall k :: k in s && Dated(s[k]) ==> DictEncodable(ToDict(s[k], codec))
  }

  /** The value `json.load` reads back where `json.dump` wrote `v`. (A value
      `json.dump` rejects never reaches the file; it is left as it is.) */
  function Decoded(v: Value): (r: Value)
    ensures Exact(v) ==> r == v
    ensures v.Opaque? && v.json.Becomes? ==> r == v.json.image
  {
    if v.Opaque? && v.json.Becomes? then v.json.image else v
  }

  /** An object as `reload` rebuilds it from what `save` wrote: every
      attribute as `json.load` reads it back. */
  function Reread(o: Obj): (r: Obj)
    ensures r.cls == o.cls && r.id == o.id && r.createdAt == o.createdAt && r.updatedAt == o.updatedAt
    ensures r.attrs.Keys == o.attrs.Keys
    ensures forall a :: a in o.attrs ==> r.attrs[a] == Decoded(o.attrs[a])
    ensures JsonStable(o) ==> r == o
  {
    o.(attrs := map a | a in o.attrs :: Decoded(o.attrs[a]))
  }

  function RereadAll(s: Store): (r: Store)
    ensures r.Keys == s.Keys
    ensures forall k :: k in s ==> r[k] == Reread(s[k])
  {
    map k | k in s :: Reread(s[k])
  }

  /** A dictionary as `json.load` reads it back after `json.dump`: the same
      keys, each value `Decoded`. */
  function JsonCopy(d: map<string, Value>): (r: map<string, Value>)
    requires DictEncodable(d)
    ensures r.Keys == d.Keys
    ensures forall a :: a in d ==> r[a] == Decoded(d[a])
    ensures (forall a :: a in d ==> Exact(d[a])) ==> r == d
  {
    map a | a in d :: Decoded(d[a])
  }

  /** Every stored object's timestamps are `datetime`s. */
  predicate AllDated(s: Store) {
    forall k :: k in s ==> Dated(s[k])
  }

  /** Why `save()` raises: `to_dict` meets a timestamp that is not a
      `datetime`, or `json.dump` meets a value it cannot encode. */
  datatype SaveError = NotDatetime | NotJson

  /** How a call that ends in `save()` comes back: normally, or with the
      exception `save` raised. `save` opens the file for writing, builds
      every `to_dict` dictionary, then streams the JSON text into the file,
      so a `to_dict` failure leaves the file empty and a `json.dump` failure
      leaves it holding a truncated text. */
  datatype Outcome = Fine(world: World) | Raised(world: World, error: SaveError)

  /** What rewriting the file from the store `s` leaves: the serialised
      store when every object is dated and encodable; otherwise the error
      `save` raised, with an empty file when a timestamp is at fault and a
      truncated one when a value is. */
  predicate Rewritten(r: Outcome, s: Store, codec: TimeCodec) {
    && (r.Fine? <==> AllDated(s) && AllEncodable(s, codec))
    && (r.Fine? ==> r.world.disk == Saved(Serialise(s, codec)))
    && (r.Raised? && !AllDated(s) ==> r.error == NotDatetime && r.world.disk == EmptyFile)
    && (r.Raised? && AllDated(s) ==> r.error == NotJson && r.world.disk == Garbled)
  }

  /** `all(cls)`: everything for `None`, the objects whose class is `cls` for a
      class object; a string never equals a class object, so it selects nothing. */
  function All(s: Store, c: ClassArg): (r: Store)
    ensures c.AnyClass? ==> r == s
    ensures forall k :: k in r ==> k in s && r[k] == s[k]
    ensures c.ClassObj? ==> forall k :: k in s ==> (k in r <==> s[k].cls == c.name)
    ensures c.NameText? ==> r == map[]
  {
    match c
    case AnyClass => s
    case ClassObj(name) => map k | k in s && s[k].cls == name :: s[k]
    case NameText(_) => map[]
  }

  /** `new(obj)`: file the object under its key, replacing what was there. */
  function New(s: Store, o: Obj): (r: Store)
    ensures KeyOf(o) in r && r[KeyOf(o)] == o
    ensures r.Keys == s.Keys + {KeyOf(o)}
    ensures forall k :: k in s && k != KeyOf(o) ==> r[k] == s[k]
  {
    s[KeyOf(o) := o]
  }

  /** What the file holds, once decoded, after `save` hands the `to_dict`
      dictionaries to `json.dump`. */
  function Serialise(s: Store, codec: TimeCodec): (r: Serialised)
    requires AllDated(s) && AllEncodable(s, codec)
    ensures r.Keys == s.Keys
  {
    map k | k in s :: JsonCopy(ToDict(s[k], codec))
  }

  /** `save()`: rewrite the backing file from the live objects. When one of
      them has a timestamp that is not a `datetime` the call raises with the
      file left empty; when one holds a value JSON cannot encode it raises
      with the file cut short. */
  function Commit(w: World, codec: TimeCodec): (r: Outcome)
    ensures r.world.objects == w.objects
    ensures r.Fine? <==> AllDated(w.objects) && AllEncodable(w.objects, codec)
    ensures r.Fine? ==> r.world.disk.Saved? && r.world.disk.data.Keys == w.objects.Keys
    ensures r.Fine? ==> forall k :: k in w.objects ==> r.world.disk.data[k] == JsonCopy(ToDict(w.objects[k], codec))
    ensures r.Raised? ==> (r.error == NotDatetime <==> !AllDated(w.objects))
    ensures r.Raised? && r.error == NotDatetime ==> r.world.disk == EmptyFile
    ensures r.Raised? && r.error == NotJson ==> r.world.disk == Garbled
  {
    if !AllDated(w.objects) then Raised(w.(disk := EmptyFile), NotDatetime)
    else if !AllEncodable(w.objects, codec) then Raised(w.(disk := Garbled), NotJson)
    else
      Fine(w.(disk := Saved(Serialise(w.objects, codec))))
  }

  /** The `to_dict` dictionary of a dated object whose attributes JSON keeps
      comes back from JSON whole. */
  lemma StableDict(o: Obj, codec: TimeCodec)
    requires Dated(o) && JsonStable(o)
    ensures DictEncodable(ToDict(o, codec))
    ensures JsonCopy(ToDict(o, codec)) == ToDict(o, codec)
  {
    var d := ToDict(o, codec);
    forall a | a in d
      ensures Exact(d[a])
    {
      if a !in {IdKey, CreatedKey, UpdatedKey, ClassTag} {
        assert d[a] == o.attrs[a];
      }
    }
  }

  /** Filing a dated object that JSON keeps whole leaves `save`'s fate to
      the other stored objects. */
  lemma PutStable(s: Store, k: string, o: Obj, codec: TimeCodec)
    requires Dated(o) && JsonStable(o)
    ensures AllDated(s[k := o]) <==> AllDated(s - {k})
    ensures AllEncodable(s[k := o], codec) <==> AllEncodable(s - {k}, codec)
  {
    StableDict(o, codec);
    var t, d := s[k := o], s - {k};
    assert forall j :: j in d ==> j in t && t[j] == d[j];
    assert forall j :: j in t && j != k ==> j in d && t[j] == d[j];
  }

  lemma StableStore(s: Store, codec: TimeCodec)
    ensures forall k :: k in s && Dated(s[k]) && JsonStable(s[k]) ==>
      DictEncodable(ToDict(s[k], codec)) && JsonCopy(ToDict(s[k], codec)) == ToDict(s[k], codec)
  {
    forall k | k in s && Dated(s[k]) && JsonStable(s[k])
      ensures DictEncodable(ToDict(s[k], codec)) && JsonCopy(ToDict(s[k], codec)) == ToDict(s[k], codec)
    {
      StableDict(s[k], codec);
    }
  }

  /** `delete(obj)`: nothing for `None`; otherwise remove the object's key and
      rewrite the file, or do nothing at all when the key is absent. */
  function Delete(w: World, obj: Option<Obj>, codec: TimeCodec): (r: Outcome)
    ensures obj.None? ==> r == Fine(w)
    ensures obj.Some? && KeyOf(obj.value) !in w.objects ==> r == Fine(w)
    ensures obj.Some? && KeyOf(obj.value) in w.objects ==>
      && r.world.objects.Keys == w.objects.Keys - {KeyOf(obj.value)}
      && (forall k :: k in r.world.objects ==> r.world.objects[k] == w.objects[k])
      && Rewritten(r, r.world.objects, codec)
  {
    match obj
    case None => Fine(w)
    case Some(o) =>
      if KeyOf(o) in w.objects then Commit(w.(objects := w.objects - {KeyOf(o)}), codec)
      else Fine(w)
  }

  /** Filing an object under a fresh key and deleting it again restores the store. */
  lemma NewThenDelete(w: World, o: Obj, codec: TimeCodec)
    requires KeyOf(o) !in w.objects
    ensures Delete(w.(objects := New(w.objects, o)), Some(o), codec).world.objects == w.objects
  {
    assert New(w.objects, o) - {KeyOf(o)} == w.objects;
  }

  /** The class part of a key: `key.split('.')[0]`. */
  function ClassOfKey(key: string): (r: string)
    ensures '.' !in r
    ensures r == key || (|r| < |key| && key[|r|] == '.' && key[..|r|] == r)
  {
    key[..IndexOf(key, '.')]
  }

  /** The key prefix of an object's own key is its class, when the class name
      has no dot. */
  lemma ClassOfOwnKey(o: Obj)
    requires '.' !in o.cls
    ensures ClassOfKey(KeyOf(o)) == o.cls
  {
    assert KeyOf(o) == o.cls + ("." + o.id);
    IndexOfAfter(o.cls, "." + o.id, '.');
  }

  /** Why `reload` raises. */
  datatype LoadError =
    | Malformed                          // `json.loads` raises
    | UnknownClass                       // `classes[...]` raises `KeyError`
    | BadRecord                          // the keyword constructor raises

  /** One entry can be rebuilt: its key prefix is a registered class and the
      keyword constructor accepts its dictionary. */
  predicate Loadable(key: string, d: map<string, Value>, codec: TimeCodec, newId: string -> string, now: int) {
    ClassOfKey(key) in Classes && FromKwargs(ClassOfKey(key), d, codec, newId(key), now).Success?
  }

  /** The objects `reload` builds from a decoded file: each entry through the
      class its key names. `newId` supplies the `uuid4` drawn for an entry
      whose dictionary is empty (which the constructor treats as fresh). */
  function Rebuild(data: Serialised, codec: TimeCodec, newId: string -> string, now: int): (r: Store)
    requires forall k :: k in data ==> Loadable(k, data[k], codec, newId, now)
    ensures r.Keys == data.Keys
    ensures forall k :: k in r ==> r[k].cls == ClassOfKey(k)
    ensures forall k :: k in r ==> FromKwargs(ClassOfKey(k), data[k], codec, newId(k), now) == Success(r[k])
  {
    map k | k in data && Loadable(k, data[k], codec, newId, now) ::
      FromKwargs(ClassOfKey(k), data[k], codec, newId(k), now).value
  }

  /** `reload()`: a missing or empty file leaves the live objects alone;
      otherwise they are replaced by the objects rebuilt from the file, or
      the first entry that cannot be rebuilt raises. The file is a map, so
      when both kinds of bad entry occur which one is first is not modelled:
      only that `reload` raises. */
  function Reload(w: World, codec: TimeCodec, newId: string -> string, now: int): (r: Result<World, LoadError>)
    ensures w.disk.NoFile? || w.disk.EmptyFile? ==> r == Success(w)
    ensures w.disk.Garbled? ==> r == Failure(Malformed)
    ensures r.Success? ==> r.value.disk == w.disk
    ensures r.Success? && w.disk.Saved? ==>
      && r.value.objects.Keys == w.disk.data.Keys
      && forall k :: k in r.value.objects ==>
           && ClassOfKey(k) in Classes
           && r.value.objects[k].cls == ClassOfKey(k)
           && FromKwargs(ClassOfKey(k), w.disk.data[k], codec, newId(k), now) == Success(r.value.objects[k])
    ensures w.disk.Saved? ==>
      (r.Success? <==> forall k :: k in w.disk.data ==> Loadable(k, w.disk.data[k], codec, newId, now))
    ensures w.disk.Saved? && (forall k :: k in w.disk.data ==> Loadable(k, w.disk.data[k], codec, newId, now)) ==>
      r == Success(w.(objects := Rebuild(w.disk.data, codec, newId, now)))
    ensures w.disk.Saved? && r.Failure? ==> r.error != Malformed
    ensures (&& w.disk.Saved? && (exists k :: k in w.disk.data && ClassOfKey(k) !in Classes)
             && (forall k :: k in w.disk.data && ClassOfKey(k) in Classes ==> Loadable(k, w.disk.data[k], codec, newId, now)))
            ==> r == Failure(UnknownClass)
    ensures (&& w.disk.Saved? && (forall k :: k in w.disk.data ==> ClassOfKey(k) in Classes)
             && (exists k :: k in w.disk.data && !Loadable(k, w.disk.data[k], codec, newId, now))) ==> r == Failure(BadRecord)
  {
    match w.disk
    case NoFile => Success(w)
    case EmptyFile => Success(w)
    case Garbled => Failure(Malformed)
    case Saved(data) =>
      if exists k :: k in data && ClassOfKey(k) !in Classes then Failure(UnknownClass)
      else if exists k :: k in data && !Loadable(k, data[k], codec, newId, now) then Failure(BadRecord)
      else
        Success(w.(objects := Rebuild(data, codec, newId, now)))
  }

  /** `close()` is `reload()`: it keeps the file, keeps the live objects
      when there is nothing to read, and otherwise replaces them by the
      objects rebuilt from the file. */
  function Close(w: World, codec: TimeCodec, newId: string -> string, now: int): (r: Result<World, LoadError>)
    ensures r == Reload(w, codec, newId, now)
    ensures w.disk.NoFile? || w.disk.EmptyFile? ==> r == Success(w)
    ensures w.disk.Garbled? ==> r.Failure?
    ensures r.Success? ==> r.value.disk == w.disk
    ensures w.disk.Saved? ==>
      (r.Success? <==> forall k :: k in w.disk.data ==> Loadable(k, w.disk.data[k], codec, newId, now))
    ensures w.disk.Saved? && (forall k :: k in w.disk.data ==> Loadable(k, w.disk.data[k], codec, newId, now)) ==>
      r == Success(w.(objects := Rebuild(w.disk.data, codec, newId, now)))
  {
    Reload(w, codec, newId, now)
  }

  /** Closing reads the file: objects created or changed since the last
      save are dropped, and the saved ones come back. */
  lemma CloseDropsUnsaved(w: World, live: Store, codec: TimeCodec, newId: string -> string, now: int)
    requires WellFormedStore(w.objects)
    requires Lossless(codec)
    ensures Commit(w, codec).Fine?
    ensures Close(Commit(w, codec).world.(objects := live), codec, newId, now) == Success(Commit(w, codec).world)
  {
    SaveReloadRoundTrip(w, codec, newId, now);
  }

  /** Closing right after a save loses nothing. */
  lemma CloseAfterSave(w: World, codec: TimeCodec, newId: string -> string, now: int)
    requires WellFormedStore(w.objects)
    requires Lossless(codec)
    ensures Commit(w, codec).Fine?
    ensures Close(Commit(w, codec).world, codec, newId, now) == Success(Commit(w, codec).world)
  {
    SaveReloadRoundTrip(w, codec, newId, now);
  }

  /** Saving then reloading gives back the same live objects: every key, and
      under it the same class, id, timestamps and attributes. */
  lemma SaveReloadRoundTrip(w: World, codec: TimeCodec, newId: string -> string, now: int)
    requires WellFormedStore(w.objects)
    requires Lossless(codec)
    ensures Commit(w, codec).Fine?
    ensures Reload(Commit(w, codec).world, codec, newId, now) == Success(Commit(w, codec).world)
  {
    StableStore(w.objects, codec);
    SaveReloadDecodes(w, codec, newId, now);
    RereadStable(w.objects);
  }

  /** JSON gives back a store of stable objects unchanged. */
  lemma RereadStable(s: Store)
    requires forall k :: k in s ==> JsonStable(s[k])
    ensures RereadAll(s) == s
  {
    var r := RereadAll(s);
    forall k | k in s
      ensures r[k] == s[k]
    {
    }
  }

  /** Saving then reloading a store whose values JSON can encode gives back
      every key, and under it the same class, id and timestamps, with each
      attribute as `json.load` reads it back (a tuple as a list, ...). */
  lemma SaveReloadDecodes(w: World, codec: TimeCodec, newId: string -> string, now: int)
    requires ReloadableStore(w.objects) && AllEncodable(w.objects, codec)
    requires Lossless(codec)
    ensures Commit(w, codec).Fine?
    ensures Reload(Commit(w, codec).world, codec, newId, now)
         == Success(Commit(w, codec).world.(objects := RereadAll(w.objects)))
  {
    RebuildDecoded(w.objects, codec, newId, now);
    CommitFine(w, codec);
    ReloadLoadable(Commit(w, codec).world, codec, newId, now);
  }

  /** A file whose every entry is loadable reloads as the rebuilt objects. */
  lemma ReloadLoadable(w: World, codec: TimeCodec, newId: string -> string, now: int)
    requires w.disk.Saved?
    requires forall k :: k in w.disk.data ==> Loadable(k, w.disk.data[k], codec, newId, now)
    ensures Reload(w, codec, newId, now) == Success(w.(objects := Rebuild(w.disk.data, codec, newId, now)))
  {
  }

  /** A store whose objects are all dated and encodable is saved whole. */
  lemma CommitFine(w: World, codec: TimeCodec)
    requires AllDated(w.objects) && AllEncodable(w.objects, codec)
    ensures Commit(w, codec) == Fine(w.(disk := Saved(Serialise(w.objects, codec))))
  {
  }

  /** The objects rebuilt from a serialised store are its objects as JSON
      reads them back. */
  lemma RebuildDecoded(s: Store, codec: TimeCodec, newId: string -> string, now: int)
    requires ReloadableStore(s) && AllEncodable(s, codec)
    requires Lossless(codec)
    ensures AllDated(s)
    ensures forall k :: k in Serialise(s, codec) ==> Loadable(k, Serialise(s, codec)[k], codec, newId, now)
    ensures Rebuild(Serialise(s, codec), codec, newId, now) == RereadAll(s)
  {
    assert AllDated(s);
    var data := Serialise(s, codec);
    var r := RereadAll(s);
    forall k | k in data
      ensures ClassOfKey(k) in Classes
      ensures FromKwargs(ClassOfKey(k), data[k], codec, newId(k), now) == Success(r[k])
    {
      ObjectDecodes(s[k], codec, newId(k), now);
    }
    RebuildEntries(r, data, codec, newId, now);
  }

  lemma RebuildEntries(s: Store, data: Serialised, codec: TimeCodec, newId: string -> string, now: int)
    requires data.Keys == s.Keys
    requires forall k :: k in data ==> ClassOfKey(k) in Classes
    requires forall k :: k in data ==> FromKwargs(ClassOfKey(k), data[k], codec, newId(k), now) == Success(s[k])
    ensures forall k :: k in data ==> Loadable(k, data[k], codec, newId, now)
    ensures Rebuild(data, codec, newId, now) == s
  {
    var r := Rebuild(data, codec, newId, now);
    forall k | k in r
      ensures r[k] == s[k]
    {
    }
  }

  /** One object's `to_dict` dictionary, through `json.dump` and
      `json.load`, rebuilds the object with each attribute as JSON reads it
      back. */
  lemma ObjectDecodes(o: Obj, codec: TimeCodec, newId: string, now: int)
    requires Persistable(o) && Lossless(codec) && DictEncodable(ToDict(o, codec))
    ensures FromKwargs(o.cls, JsonCopy(ToDict(o, codec)), codec, newId, now) == Success(Reread(o))
  {
    var c := JsonCopy(ToDict(o, codec));
    assert codec.parse(codec.format(o.createdAt.t)) == Some(o.createdAt.t);
    assert codec.parse(codec.format(o.updatedAt.t)) == Some(o.updatedAt.t);
    assert c[ClassTag] == Str(o.cls) && c[IdKey] == Str(o.id);
    CopyAttrs(o, codec);
  }

  /** Without its four named entries, the JSON copy of `to_dict` holds the
      attributes as JSON reads them back. */
  lemma CopyAttrs(o: Obj, codec: TimeCodec)
    requires Persistable(o) && DictEncodable(ToDict(o, codec))
    ensures JsonCopy(ToDict(o, codec)) - {ClassTag, IdKey, CreatedKey, UpdatedKey} == Reread(o).attrs
  {
    var d := ToDict(o, codec);
    var drop := {ClassTag, IdKey, CreatedKey, UpdatedKey};
    assert o.attrs.Keys == d.Keys - drop;
    CopyWithout(d, o.attrs, drop);
  }

  lemma CopyWithout(d: map<string, Value>, attrs: map<string, Value>, drop: set<string>)
    requires DictEncodable(d)
    requires attrs.Keys == d.Keys - drop
    requires forall a :: a in attrs ==> d[a] == attrs[a]
    ensures JsonCopy(d) - drop == map a | a in attrs :: Decoded(attrs[a])
  {
  }

  /** `BaseModel.save()`: stamp `updated_at` with the current time, file the
      object under its key and rewrite the backing file. */
  function SaveInstance(w: World, o: Obj, now: int, codec: TimeCodec): (r: Outcome)
    ensures KeyOf(o) in r.world.objects
    ensures r.world.objects[KeyOf(o)].updatedAt == At(now)
    ensures r.world.objects[KeyOf(o)].createdAt == o.createdAt
    ensures r.world.objects[KeyOf(o)].attrs == o.attrs
    ensures forall k :: k in w.objects && k != KeyOf(o) ==> k in r.world.objects && r.world.objects[k] == w.objects[k]
    ensures r.world.objects.Keys == w.objects.Keys + {KeyOf(o)}
    ensures Rewritten(r, r.world.objects, codec)
  {
    Commit(w.(objects := New(w.objects, Touch(o, now))), codec)
  }

  /** What `save` leaves: the stamped instance filed under its key, and the
      file rewritten from the store. */
  lemma SavedStore(w: World, o: Obj, now: int, codec: TimeCodec)
    ensures SaveInstance(w, o, now, codec) == Commit(w.(objects := w.objects[KeyOf(o) := o.(updatedAt := At(now))]), codec)
  {
  }

  /** Once any stored object other than the one being saved has a timestamp
      that is not a `datetime`, every `save` raises and leaves the file empty. */
  lemma StaleStampBreaksSave(w: World, o: Obj, now: int, codec: TimeCodec, k: string)
    requires k in w.objects && k != KeyOf(o) && !Dated(w.objects[k])
    ensures SaveInstance(w, o, now, codec).Raised?
    ensures SaveInstance(w, o, now, codec).error == NotDatetime
    ensures SaveInstance(w, o, now, codec).world.disk == EmptyFile
  {
    assert SaveInstance(w, o, now, codec).world.objects[k] == w.objects[k];
  }

  /** Once a stored object other than the one being saved holds a value
      `json.dump` rejects, every `save` raises, and the cut-short file it
      leaves makes the next `reload` raise as well. */
  lemma UnencodableBreaksSave(w: World, o: Obj, now: int, codec: TimeCodec, k: string, a: string,
                              newId: string -> string, t: int)
    requires AllDated(w.objects) && o.createdAt.At?
    requires k in w.objects && k != KeyOf(o)
    requires a in w.objects[k].attrs && a !in {IdKey, CreatedKey, UpdatedKey, ClassTag, SaState}
    requires !JsonEncodable(w.objects[k].attrs[a])
    ensures SaveInstance(w, o, now, codec).Raised?
    ensures SaveInstance(w, o, now, codec).error == NotJson
    ensures SaveInstance(w, o, now, codec).world.disk == Garbled
    ensures Reload(SaveInstance(w, o, now, codec).world, codec, newId, t) == Failure(Malformed)
  {
    var s := SaveInstance(w, o, now, codec).world.objects;
    assert s[k] == w.objects[k];
    assert AllDated(s);
    assert ToDict(s[k], codec)[a] == s[k].attrs[a];
  }

  /** `BaseModel.delete()`: `storage.delete(self)`. */
  function DeleteInstance(w: World, o: Obj, codec: TimeCodec): (r: Outcome)
    ensures r.world.objects == w.objects - {KeyOf(o)}
    ensures KeyOf(o) !in w.objects ==> r == Fine(w)
    ensures KeyOf(o) in w.objects ==>
      && Rewritten(r, r.world.objects, codec)
  {
    Delete(w, Some(o), codec)
  }
}

=== FILE: pystr.dfy ===
/**
 * The handful of Python `str` operations the console is built from
 * (`in`, `find`, slicing, `partition`, `strip`, `replace`, `split`, `join`),
 * each on `seq<char>` and each characterised by its contract.
 */
module PyStr {

  /** The characters for which Python's `str.isspace()` holds. `str.split()`
      and `str.strip()` without arguments treat exactly these as whitespace. */
  predicate IsSpace(c: char) {
    || c == ' '
    || '\t' <= c <= '\r'
    || '\U{1C}' <= c <= '\U{1F}'
    || c == '\U{85}' || c == '\U{A0}' || c == '\U{1680}'
    || '\U{2000}' <= c <= '\U{200A}'
    || c == '\U{2028}' || c == '\U{2029}' || c == '\U{202F}' || c == '\U{205F}' || c == '\U{3000}'
  }

  /** The character argument of `strip`: a given set, or (no argument) whitespace. */
  datatype CharClass = Chars(cs: set<char>) | Spaces

  predicate InClass(c: char, k: CharClass) {
    match k
    case Chars(cs) => c in cs
    case Spaces => IsSpace(c)
  }

  /** No character of `t` is whitespace. */
  predicate Spaceless(t: string) {
    forall i :: 0 <= i < |t| ==> !IsSpace(t[i])
  }

  /** Every character of `t` belongs to `k`. */
  predicate AllIn(t: string, k: CharClass) {
    forall i :: 0 <= i < |t| ==> InClass(t[i], k)
  }

  /** Python's `s.find(c)` for a single character, except that an absent
      character yields `|s|` instead of -1. */
  function IndexOf(s: string, c: char): (r: nat)
    ensures r <= |s|
    ensures r < |s| ==> s[r] == c
    ensures forall i :: 0 <= i < r ==> s[i] != c
  {
    if s == [] then 0
    else if s[0] == c then 0
    else 1 + IndexOf(s[1..], c)
  }

  /** The first occurrence of `c` in `a + b` lies in `b` when `a` lacks `c`. */
  lemma {:induction false} IndexOfAfter(a: string, b: string, c: char)
    requires c !in a
    ensures IndexOf(a + b, c) == |a| + IndexOf(b, c)
    decreases |a|
  {
    if a == [] {
      assert a + b == b;
    } else {
      assert (a + b)[1..] == a[1..] + b;
      IndexOfAfter(a[1..], b, c);
    }
  }

  /** Python's slice `s[i:j]` for in-range bounds: empty when `j <= i`. */
  function Slice(s: string, i: nat, j: nat): (r: string)
    requires i <= |s| && j <= |s|
    ensures |r| == if i <= j then j - i else 0
    ensures forall k :: 0 <= k < |r| ==> r[k] == s[i + k]
  {
    if i <= j then s[i..j] else []
  }

  /** `sep` occurs in `s` starting at index `i`. */
  predicate IsAt(s: string, sep: string, i: nat) {
    i + |sep| <= |s| && s[i..i + |sep|] == sep
  }

  /** Index of the first occurrence of `sep` in `s`, or `|s|` when there is none. */
  function FindSub(s: string, sep: string): (r: nat)
    requires |sep| > 0
    ensures r <= |s|
    ensures r < |s| ==> IsAt(s, sep, r)
    ensures forall j :: 0 <= j < r ==> !IsAt(s, sep, j)
    ensures r == |s| ==> forall j :: 0 <= j <= |s| ==> !IsAt(s, sep, j)
    decreases |s|
  {
    if |s| < |sep| then |s|
    else if s[..|sep|] == sep then 0
    else
      var r' := FindSub(s[1..], sep);
      forall j | 1 <= j <= |s|
        ensures IsAt(s, sep, j) <==> IsAt(s[1..], sep, j - 1)
      {
        if j + |sep| <= |s| {
          assert s[1..][j - 1..j - 1 + |sep|] == s[j..j + |sep|];
        }
      }
      assert !IsAt(s, sep, 0);
      1 + r'
  }

  /** The triple Python's `str.partition` returns. */
  datatype Parted = Parted(head: string, sep: string, tail: string)

  /** Python's `s.partition(sep)`: split at the first occurrence of `sep`; when
      `sep` does not occur the whole string is the head and the rest is empty. */
  function Partition(s: string, sep: string): (r: Parted)
    requires |sep| > 0
    ensures r.head + r.sep + r.tail == s
    ensures r.sep == sep || (r.sep == [] && r.tail == [])
    ensures forall j :: 0 <= j < |r.head| ==> !IsAt(s, sep, j)
    ensures r.sep == [] ==> forall j :: 0 <= j <= |s| ==> !IsAt(s, sep, j)
  {
    var i := FindSub(s, sep);
    if i < |s| then
      assert s[..i] + sep + s[i + |sep|..] == s by {
        assert s[i..i + |sep|] == sep;
        assert s == s[..i] + s[i..i + |sep|] + s[i + |sep|..];
      }
      Parted(s[..i], sep, s[i + |sep|..])
    else
      Parted(s, [], [])
  }

  /** `partition` splits at the first occurrence of the separator. */
  lemma PartitionAt(a: string, sep: string, b: string)
    requires |sep| > 0
    requires forall j :: 0 <= j < |a| ==> !IsAt(a + sep + b, sep, j)
    ensures Partition(a + sep + b, sep) == Parted(a, sep, b)
  {
    var s := a + sep + b;
    var r := Partition(s, sep);
    assert IsAt(s, sep, |a|) by {
      assert s[|a|..|a| + |sep|] == sep;
    }
    assert r.sep == sep;
    assert IsAt(s, sep, |r.head|) by {
      assert s[|r.head|..|r.head| + |sep|] == sep;
    }
    assert |r.head| == |a|;
    assert r.head == s[..|a|] == a;
    assert r.tail == s[|a| + |sep|..] == b;
  }

  /** Without the separator, `partition` returns the whole string as head. */
  lemma PartitionAbsent(s: string, sep: string)
    requires |sep| > 0
    requires forall j :: 0 <= j <= |s| ==> !IsAt(s, sep, j)
    ensures Partition(s, sep) == Parted(s, [], [])
  {
  }

  /** `s` with its leading characters from `cs` removed (`str.lstrip`). */
  function StripLeft(s: string, k: CharClass): (r: string)
    ensures |r| <= |s| && r == s[|s| - |r|..]
    ensures r != [] ==> !InClass(r[0], k)
    ensures AllIn(s[..|s| - |r|], k)
  {
    if s != [] && InClass(s[0], k) then
      var r := StripLeft(s[1..], k);
      assert s[..|s| - |r|] == [s[0]] + s[1..][..|s| - 1 - |r|];
      r
    else s
  }

  /** `s` with its trailing characters from `cs` removed (`str.rstrip`). */
  function StripRight(s: string, k: CharClass): (r: string)
    ensures |r| <= |s| && r == s[..|r|]
    ensures r != [] ==> !InClass(r[|r| - 1], k)
    ensures AllIn(s[|r|..], k)
  {
    if s != [] && InClass(s[|s| - 1], k) then
      var r := StripRight(s[..|s| - 1], k);
      assert s[|r|..] == s[..|s| - 1][|r|..] + [s[|s| - 1]];
      r
    else s
  }

  /** Python's `s.strip(chars)`. */
  function Strip(s: string, k: CharClass): (r: string)
    ensures |r| <= |s|
    ensures r != [] ==> !InClass(r[0], k) && !InClass(r[|r| - 1], k)
  {
    StripRight(StripLeft(s, k), k)
  }

  /** Python's `s.strip()`. */
  function StripWs(s: string): (r: string)
    ensures |r| <= |s|
    ensures r != [] ==> !IsSpace(r[0]) && !IsSpace(r[|r| - 1])
  {
    Strip(s, Spaces)
  }

  /** Stripping removes exactly the padding drawn from `cs` around a core whose
      ends are not in `cs`, whatever that padding is. */
  lemma {:induction false} StripWrapped(p: string, t: string, q: string, k: CharClass)
    requires AllIn(p, k) && AllIn(q, k)
    requires t != [] ==> !InClass(t[0], k) && !InClass(t[|t| - 1], k)
    ensures Strip(p + t + q, k) == t
  {
    assert p + t + q == p + (t + q);
    if t == [] {
      assert t + q == q;
      StripLeftAll(p + q, k);
      assert StripRight([], k) == [];
    } else {
      StripLeftPadding(p, t + q, k);
      StripRightPadding(t, q, k);
    }
  }

  lemma StripLeftAll(s: string, k: CharClass)
    requires AllIn(s, k)
    ensures StripLeft(s, k) == []
  {
  }

  lemma {:induction false} StripLeftPadding(p: string, s: string, k: CharClass)
    requires AllIn(p, k)
    requires s != [] ==> !InClass(s[0], k)
    ensures StripLeft(p + s, k) == s
    decreases |p|
  {
    if p == [] {
      assert p + s == s;
    } else {
      StripLeftStep(p, s, k);
      StripLeftPadding(p[1..], s, k);
    }
  }

  /** Stripping a padded string peels its first padding character. */
  lemma StripLeftStep(p: string, s: string, k: CharClass)
    requires p != [] && AllIn(p, k)
    ensures AllIn(p[1..], k)
    ensures StripLeft(p + s, k) == StripLeft(p[1..] + s, k)
  {
    assert (p + s)[0] == p[0];
    assert (p + s)[1..] == p[1..] + s;
  }

  lemma {:induction false} StripRightPadding(s: string, q: string, k: CharClass)
    requires AllIn(q, k)
    requires s != [] ==> !InClass(s[|s| - 1], k)
    ensures StripRight(s + q, k) == s
    decreases |q|
  {
    if q == [] {
      assert s + q == s;
    } else {
      assert (s + q)[..|s + q| - 1] == s + q[..|q| - 1];
      StripRightPadding(s, q[..|q| - 1], k);
    }
  }

  /** Python's `s.replace(c, '')`. */
  function RemoveChar(s: string, c: char): (r: string)
    ensures c !in r
    ensures forall d :: d != c ==> (d in r <==> d in s)
    ensures |r| + multiset(s)[c] == |s|
  {
    if s == [] then []
    else
      assert s == [s[0]] + s[1..];
      if s[0] == c then RemoveChar(s[1..], c)
      else [s[0]] + RemoveChar(s[1..], c)
  }

  /** Python's `s.replace(a, b)` for single characters. */
  function ReplaceChar(s: string, a: char, b: char): (r: string)
    ensures |r| == |s|
    ensures forall i :: 0 <= i < |s| ==> r[i] == if s[i] == a then b else s[i]
  {
    seq(|s|, i requires 0 <= i < |s| => if s[i] == a then b else s[i])
  }

  /** Replacing `a` by `b` is undone by replacing `b` by `a` when `b` did not
      occur to begin with. */
  lemma ReplaceCharInverse(s: string, a: char, b: char)
    requires b !in s
    ensures ReplaceChar(ReplaceChar(s, a, b), b, a) == s
  {
    var r := ReplaceChar(ReplaceChar(s, a, b), b, a);
    assert forall i :: 0 <= i < |s| ==> s[i] != b;
    assert forall i :: 0 <= i < |s| ==> r[i] == s[i];
  }

  /** Length of the leading run of non-whitespace characters. */
  function TokenEnd(s: string): (r: nat)
    ensures r <= |s|
    ensures Spaceless(s[..r])
    ensures r < |s| ==> IsSpace(s[r])
  {
    if s == [] || IsSpace(s[0]) then 0
    else
      var r := TokenEnd(s[1..]);
      assert s[..1 + r] == [s[0]] + s[1..][..r];
      1 + r
  }

  /** Python's `s.split()`: the maximal runs of non-whitespace, in order. */
  function SplitWs(s: string): (r: seq<string>)
    ensures Tokens(r)
    decreases |s|
  {
    var t := StripLeft(s, Spaces);
    if t == [] then []
    else
      var n := TokenEnd(t);
      var rest := SplitWs(t[n..]);
      TokensCons(t[..n], rest);
      [t[..n]] + rest
  }

  /** Python's `sep.join(ts)`. */
  function Join(ts: seq<string>, sep: string): string {
    if ts == [] then []
    else if |ts| == 1 then ts[0]
    else ts[0] + sep + Join(ts[1..], sep)
  }

  /** Splitting on whitespace undoes joining with single spaces, provided every
      token is non-empty and free of whitespace. */
  lemma {:induction false} SplitJoin(ts: seq<string>)
    requires Tokens(ts)
    ensures SplitWs(Join(ts, " ")) == ts
  {
    if ts == [] {
      assert StripLeft([], Spaces) == [];
    } else if |ts| == 1 {
      SplitOne(ts[0]);
    } else {
      TokensTail(ts);
      SplitJoin(ts[1..]);
      SplitJoinStep(ts);
    }
  }

  /** A single token splits to itself. */
  lemma SplitOne(t: string)
    requires t != [] && Spaceless(t)
    ensures SplitWs(t) == [t]
  {
    SplitToken(t, []);
    assert t + [] == t;
    assert StripLeft([], Spaces) == [];
  }

  /** The step of `SplitJoin`: the first token, then the join of the rest. */
  lemma SplitJoinStep(ts: seq<string>)
    requires |ts| > 1 && ts[0] != [] && Spaceless(ts[0])
    requires SplitWs(Join(ts[1..], " ")) == ts[1..]
    ensures SplitWs(Join(ts, " ")) == ts
  {
    var rest := Join(ts[1..], " ");
    assert Join(ts, " ") == ts[0] + (" " + rest);
    SplitBeforeSpace(ts[0], rest);
    ConsTail(ts);
  }

  /** Non-empty tokens without whitespace, as `split()` produces them. */
  predicate Tokens(ts: seq<string>) {
    forall i :: 0 <= i < |ts| ==> ts[i] != [] && Spaceless(ts[i])
  }

  lemma TokensTail(ts: seq<string>)
    requires ts != [] && Tokens(ts)
    ensures ts[0] != [] && Spaceless(ts[0]) && Tokens(ts[1..])
  {
    assert forall i :: 0 <= i < |ts| - 1 ==> ts[1..][i] == ts[i + 1];
  }

  lemma TokensCons(t: string, ts: seq<string>)
    requires t != [] && Spaceless(t) && Tokens(ts)
    ensures Tokens([t] + ts)
  {
    assert forall i :: 0 < i < |ts| + 1 ==> ([t] + ts)[i] == ts[i - 1];
  }

  lemma ConsTail<T>(s: seq<T>)
    requires s != []
    ensures [s[0]] + s[1..] == s
  {
  }

  /** A token, a space, then more text: the token splits off first. */
  lemma SplitBeforeSpace(t: string, rest: string)
    requires t != [] && Spaceless(t)
    ensures SplitWs(t + (" " + rest)) == [t] + SplitWs(rest)
  {
    SplitToken(t, " " + rest);
    SplitLeadingSpace(' ', rest);
    assert [' '] + rest == " " + rest;
  }

  /** A leading whitespace character does not change how a string splits. */
  lemma SplitLeadingSpace(w: char, s: string)
    requires IsSpace(w)
    ensures SplitWs([w] + s) == SplitWs(s)
  {
    assert ([w] + s)[1..] == s;
    assert StripLeft([w] + s, Spaces) == StripLeft(s, Spaces);
  }

  /** A spaceless token followed by whitespace (or nothing) splits off first. */
  lemma SplitToken(t: string, rest: string)
    requires t != [] && Spaceless(t)
    requires rest != [] ==> IsSpace(rest[0])
    ensures SplitWs(t + rest) == [t] + SplitWs(rest)
  {
    var s := t + rest;
    assert StripLeft(s, Spaces) == s by {
      assert s[0] == t[0];
    }
    TokenEndSpaceless(t, rest);
    assert s[..|t|] == t;
    assert s[|t|..] == rest;
  }

  lemma TokenEndSpaceless(t: string, rest: string)
    requires Spaceless(t)
    requires rest != [] ==> IsSpace(rest[0])
    ensures TokenEnd(t + rest) == |t|
    decreases |t|
  {
    if t != [] {
      TokenEndStep(t, rest);
      TokenEndSpaceless(t[1..], rest);
    } else {
      assert t + rest == rest;
    }
  }

  /** Scanning a token peels its first, non-space character. */
  lemma TokenEndStep(t: string, rest: string)
    requires t != [] && Spaceless(t)
    ensures Spaceless(t[1..])
    ensures TokenEnd(t + rest) == 1 + TokenEnd(t[1..] + rest)
  {
    assert (t + rest)[0] == t[0];
    assert (t + rest)[1..] == t[1..] + rest;
  }
}

=== FILE: state.dfy ===
/**
 * `State` in file-storage mode: a `name` that defaults to the empty string and
 * the `cities` view, computed by scanning the stored `City` objects.
 */
module State {
  import opened Values
  import opened BaseModel
  import opened FileStorage

  const StateClass: string := "State"
  const CityClass: string := "City"

  /** `state.name`: the instance attribute when set, else the class default `""`. */
  function Name(st: Obj): (r: Value)
    ensures "name" !in st.attrs ==> r == Str("")
    ensures "name" in st.attrs ==> r == st.attrs["name"]
  {
    if "name" in st.attrs then st.attrs["name"] else Str("")
  }

  /** A fresh `State()` has the empty name. */
  lemma FreshStateName(newId: string, now: int)
    ensures Name(Fresh(StateClass, newId, now)) == Str("")
  {
  }

  /** The city's `state_id` is the string `stateId`. A city whose instance
      dictionary lacks `state_id` falls back on the `City` class default,
      which this model does not hold (see README), and does not match. */
  predicate BelongsTo(city: Obj, stateId: string) {
    "state_id" in city.attrs && city.attrs["state_id"] == Str(stateId)
  }

  /** `state.cities`: the objects of `storage.all(City)` whose `state_id`
      equals the state's id. */
  function Cities(s: Store, st: Obj): (r: Store)
    ensures forall k :: k in r ==> k in s && r[k] == s[k]
    ensures forall k :: k in r ==> r[k].cls == CityClass && BelongsTo(r[k], st.id)
    ensures forall k :: k in s && s[k].cls == CityClass && BelongsTo(s[k], st.id) ==> k in r
  {
    var cities := All(s, ClassObj(CityClass));
    map k | k in cities && BelongsTo(cities[k], st.id) :: cities[k]
  }

  /** A city is listed under at most one state: the views of two states with
      different ids share no key. */
  lemma CitiesDisjoint(s: Store, a: Obj, b: Obj)
    requires a.id != b.id
    ensures Cities(s, a).Keys !! Cities(s, b).Keys
  {
  }

  /** Filing a city with this state's id adds it to the view and leaves the
      rest of the view as it was. */
  lemma NewCityJoinsView(s: Store, st: Obj, city: Obj)
    requires city.cls == CityClass && BelongsTo(city, st.id)
    ensures Cities(New(s, city), st) == Cities(s, st)[KeyOf(city) := city]
  {
    var l := Cities(New(s, city), st);
    var r := Cities(s, st)[KeyOf(city) := city];
    forall k | k in l
      ensures k in r && l[k] == r[k]
    {
      if k != KeyOf(city) {
        assert New(s, city)[k] == s[k];
      }
    }
    forall k | k in r
      ensures k in l
    {
      if k != KeyOf(city) {
        assert New(s, city)[k] == s[k];
      }
    }
    assert l.Keys == r.Keys;
  }
}

=== FILE: values.dfy ===
/**
 * Attribute values as the console produces them, Python truthiness, `str()`
 * of a value, and the `int()` conversion the console applies to the numeric
 * attributes of its `types` table.
 */
module Values {
  import opened Common
  import opened PyStr

  /** A Python attribute value. Text from the console's positional syntax is
      always `Str`; a dictionary literal may also yield integers and other
      objects (floats, booleans, lists, sets, ...), kept as `Opaque` with
      their `str()` text, truth value and fate in `json.dump`. */
  datatype Value = Str(s: string) | Int(i: int) | Opaque(text: string, truthy: bool, json: Json)

  /** What `json.dump` followed by `json.load` makes of an `Opaque` value:
      the same value (a float, a boolean, `None`, a list or a dictionary
      with text keys of such values), a different value (a tuple comes back
      as a list, a number used as a dictionary key comes back as text), or
      a `TypeError` from `json.dump` (a set, a `datetime`, a model
      instance, ...). */
  datatype Json = Exact | Becomes(image: Value) | Refused

  /** A Python `float`: its `str()` text and whether it is non-zero. */
  datatype Float = Float(text: string, nonzero: bool)

  /** A float as an attribute value; JSON reads back the float it wrote. */
  function FloatValue(f: Float): (r: Value)
    ensures r.Opaque? && r.json.Exact?
    ensures Render(r) == f.text && (Truthy(r) <==> f.nonzero)
  {
    Opaque(f.text, f.nonzero, Exact)
  }

  /** Python's `bool(v)`: empty strings and zero are false. */
  predicate Truthy(v: Value) {
    match v
    case Str(s) => s != []
    case Int(i) => i != 0
    case Opaque(_, t, _) => t
  }

  /** Python's `str(v)`. */
  function Render(v: Value): string {
    match v
    case Str(s) => s
    case Int(i) => IntToString(i)
    case Opaque(text, _, _) => text
  }

  predicate IsDigit(c: char) {
    '0' <= c <= '9'
  }

  function DigitValue(c: char): nat
    requires IsDigit(c)
  {
    (c as int) - ('0' as int)
  }

  function DigitChar(d: nat): (c: char)
    requires d < 10
    ensures IsDigit(c) && DigitValue(c) == d
  {
    ((d + '0' as int) as char)
  }

  /** Decimal text of a natural number, without leading zeros. */
  function NatToString(n: nat): (r: string)
    ensures r != []
    ensures forall i :: 0 <= i < |r| ==> IsDigit(r[i])
  {
    if n < 10 then [DigitChar(n)]
    else NatToString(n / 10) + [DigitChar(n % 10)]
  }

  /** Python's `str(i)` for an integer. */
  function IntToString(i: int): (r: string)
    ensures r != []
  {
    if i < 0 then "-" + NatToString(-i) else NatToString(i)
  }

  /** The body of a Python integer literal in base 10: digits, with single
      underscores allowed between digits. */
  predicate Numeral(t: string) {
    && t != []
    && IsDigit(t[0])
    && IsDigit(t[|t| - 1])
    && (forall i :: 0 <= i < |t| ==> IsDigit(t[i]) || t[i] == '_')
    && (forall i :: 0 <= i < |t| - 1 ==> !(t[i] == '_' && t[i + 1] == '_'))
  }

  /** The number the digits of `t` denote, underscores ignored. */
  function NumeralValue(t: string): nat
    requires forall i :: 0 <= i < |t| ==> IsDigit(t[i]) || t[i] == '_'
  {
    if t == [] then 0
    else
      var last := t[|t| - 1];
      var v := NumeralValue(t[..|t| - 1]);
      if last == '_' then v else v * 10 + DigitValue(last)
  }

  /** Python's `int(s)` on a string: surrounding whitespace is ignored, a sign
      is optional; anything else is a `ValueError`, rendered here as `None`. */
  function ParseInt(s: string): (r: Option<int>)
    ensures var t := StripWs(s);
      r.Some? <==> Numeral(t) || (t != [] && (t[0] == '+' || t[0] == '-') && Numeral(t[1..]))
    ensures Numeral(StripWs(s)) ==> r == Some(NumeralValue(StripWs(s)))
    ensures r.Some? && r.value < 0 ==> StripWs(s)[0] == '-'
  {
    ParseSigned(StripWs(s))
  }

  /** `int()` of text that has no surrounding whitespace. */
  function ParseSigned(t: string): Option<int> {
    if t != [] && (t[0] == '+' || t[0] == '-') then
      if !Numeral(t[1..]) then None
      else if t[0] == '-' then Some(-(NumeralValue(t[1..]) as int))
      else Some(NumeralValue(t[1..]))
    else if Numeral(t) then Some(NumeralValue(t))
    else None
  }

  /** `int(str(i)) == i`: reading back the decimal text of an integer gives
      the integer. */
  lemma {:induction false} ParseIntRoundTrip(i: int)
    ensures ParseInt(IntToString(i)) == Some(i)
  {
    var s := IntToString(i);
    var n: nat := if i < 0 then -i else i;
    var digits := NatToString(n);
    NatNumeral(n);
    NatToStringValue(n);
    if i < 0 {
      assert s == "-" + digits;
      assert s[|s| - 1] == digits[|digits| - 1];
      StripWsNoop(s);
      ParseNegative(digits);
    } else {
      assert s == digits;
      StripWsNoop(s);
      ParseUnsigned(digits);
    }
  }

  /** A numeral without a sign reads as its value. */
  lemma ParseUnsigned(digits: string)
    requires Numeral(digits)
    ensures ParseSigned(digits) == Some(NumeralValue(digits) as int)
  {
    assert IsDigit(digits[0]);
  }

  /** A minus sign before a numeral negates its value. */
  lemma ParseNegative(digits: string)
    requires Numeral(digits)
    ensures ParseSigned("-" + digits) == Some(-(NumeralValue(digits) as int))
  {
    var t := "-" + digits;
    assert t[0] == '-';
    assert t[1..] == digits;
  }

  /** Text whose ends are not whitespace is unchanged by `strip()`. */
  lemma StripWsNoop(s: string)
    requires s != [] && !IsSpace(s[0]) && !IsSpace(s[|s| - 1])
    ensures StripWs(s) == s
  {
    StripWrapped([], s, [], Spaces);
    assert [] + s + [] == s;
  }

  lemma NatNumeral(n: nat)
    ensures Numeral(NatToString(n))
  {
  }

  lemma {:induction false} NatToStringValue(n: nat)
    ensures NumeralValue(NatToString(n)) == n
  {
    if n >= 10 {
      var t := NatToString(n);
      assert t[..|t| - 1] == NatToString(n / 10);
      NatToStringValue(n / 10);
    }
  }
}
